=== FILE: README.md ===
# Storefront client core, modelled in Dafny

This project models the client-side logic of a small e-commerce storefront, a React and
TypeScript single-page application. The app talks to a REST API (`/api/v1`) and keeps its
session in the browser's `localStorage`. The model covers:

- **the session store and the HTTP interceptors** (`Api`). Three keys are stored:
  `accessToken`, `refreshToken` and `user`. The request interceptor attaches
  `Authorization: Bearer <token>`. The response interceptor reacts to a 401 by refreshing
  the access token once and replaying the request, or by clearing the session and sending
  the user to `/login`.
- **the authentication service and context** (`AuthService`, `AuthContext`): login,
  register, logout, token refresh, reading the stored user, role checks, and the React
  context that mirrors them (user, `isLoading`, toasts, the `updateUser` merge).
- **the cart service and context** (`CartService`, `CartContext`). The cart payload is
  built from a freshly fetched cart:
  - add raises the quantity of an existing line or appends a new line at price 0;
  - update changes one quantity and drops the lines that are no longer positive;
  - remove drops a product;
  - clear empties the cart.

  The context state machine wraps each of these, with its authentication guard, its
  `isLoading` flag and its error toasts.
- **validators** (`Validation`): e-mail, password strength, required fields, Colombian
  phone numbers and `validateForm`.
- **request builders** (`ProductService`, `OrderService`, `UserService`): the product
  query string built with `URLSearchParams` (`FormEncoding` models
  `application/x-www-form-urlencoded` as the WHATWG URL standard defines it, over UTF-8 as
  RFC 3629 defines it), order and user URLs, the Spanish status and payment labels, the
  profile calls and the name helpers.
- **two pages**: the order detail page (`OrderDetail`) and the checkout submit handler
  (`Checkout`):
  - the order detail page covers its status predicates, its timeline, JavaScript
    `parseInt` of the route id, and the load and cancel flows;
  - the checkout handler covers the empty-cart guard, the required-field guard, the order
    body, and the create, clear and navigate sequence.

How the model stands in for the browser and the server:

- **Server replies** are parameters, so every operation is a pure function of its inputs
  and of the replies it receives. The auth and user calls receive the whole body as
  `Result<Envelope<T>, ApiError>`. The cart and order calls return `response.data`, so
  they receive `Result<Cart, ApiError>` or `Result<Order, ApiError>`, with the data taken
  to be present.
- **Replies reach the services after the response interceptor.** `Api` models the
  interceptor on its own (`Api.Send`), and the services and contexts start from what it
  hands on.
- **`localStorage`** is the `Session` datatype.
- **`JSON.stringify` and `JSON.parse`** are a `UserCodec` parameter. The ghost predicate
  `Faithful` states the round trip the code relies on.
- **Toasts, emitted requests and navigation** are returned as data (`Notice`, `Request`,
  `CartCall`, `navigate`).
- **JavaScript truthiness** is written out explicitly: an empty string and a 0 are falsy.

Modules follow the source files. `Wrappers`, `Text` (JavaScript white space, `trim`,
`toUpperCase` on ASCII, decimal numerals), `Sequences` (the sub-sequence order) and `Types`
(the entities of `src/types/index.ts`) are shared helpers.

Where the code and its comments or evident intent differ, the model follows the code:

- **Api:** a second 401 on a replayed request is rejected without clearing the session.
- **Api:** a stored user that cannot be parsed makes the interceptor reject before any
  clearing.
- **AuthContext:** a login reply with `success: false` that still carries data sets the
  context user without persisting anything.
- **Checkout:** the submit guard tests fields for emptiness only, so white-space-only
  fields pass.
- **Checkout:** if `clearCart` fails after the order was created, the failure toast is
  shown and there is no navigation.
- **OrderDetail:** a successful cancel shows the success toast even when the reload fails,
  and the stale order stays on screen.
- **OrderDetail:** without a route id the page stays in its loading state.
- **OrderDetail:** the "processing" step is drawn, muted, for cancelled and refunded orders.
- **ProductService:** a category or producer id of 0 and an empty search term are
  dropped from the query.
- **ProductService:** `getProductBySlug` inserts the slug into the path without encoding it.
- **UserService:** `deleteAccount` leaves the session in place.

## Model

| member | source | states |
|---|---|---|
| Api.SetToken | src/lib/api.ts:22-24 | storing an access token changes that key only |
| Api.SetRefreshToken | src/lib/api.ts:36-38 | storing a refresh token changes that key only |
| Api.RemoveToken | src/lib/api.ts:26-30 | clearing removes all three keys: access token, refresh token and user |
| Api.AttachToken | src/lib/api.ts:41-48 | the Bearer header is set exactly when a non-empty access token is stored; otherwise the request is unchanged |
| Api.StoredUserIdOfWritten | src/lib/api.ts:67-69 | a user written by a faithful codec is read back with its id; an id of 0 counts as no user |
| Api.HandleResponseError | src/lib/api.ts:59-108 | only a first 401 enters recovery, and refresh is called only with both a refresh token and a stored user id. A replay happens only after a successful refresh, with the new token stored. A retried request is rejected with the session untouched. A redirect always comes with a cleared session. A toast is raised iff the status is neither 401 nor 404 |
| Api.Attempt | src/lib/api.ts:59-81 | at most two sends and one refresh per request; a second send is always a replay of a fresh request, marked retried |
| Api.Send | src/lib/api.ts:127-132 | a request through the interceptors carries the token iff one is stored, and is sent at most twice |
| Api.RefreshThenReplay | src/lib/api.ts:69-81 | after a 401 with both credentials and a successful refresh, the replay carries the new token. The refresh token stays, no redirect happens, and the replay's outcome is returned |
| Api.SecondUnauthorizedKeepsSession | src/lib/api.ts:63-64 | a 401 on the replay is rejected with the refreshed session kept, no redirect and no toast |
| Api.MissingCredentialsEndSession | src/lib/api.ts:88-91 | a 401 without a refresh token or a user id clears the session and redirects, without calling refresh |
| Api.FailedRefreshOutcomes | src/lib/api.ts:70-87 | a refresh that throws clears the session and redirects; an answered refresh without success leaves the session as it was |
| AuthService.PersistAuthReply | src/services/authService.ts:31-38 | all three keys are written exactly when the reply succeeds and carries data; otherwise the store is unchanged; the data is returned either way |
| AuthService.Register | src/services/authService.ts:6-21 | register posts to `/auth/register` and persists like login |
| AuthService.Login | src/services/authService.ts:24-39 | login posts to `/auth/login` |
| AuthService.Logout | src/services/authService.ts:42-55 | logout always clears all three keys |
| AuthService.RefreshToken | src/services/authService.ts:58-76 | a successful refresh stores the new access token, and the refresh token only when a non-empty one is returned; the user is never touched |
| AuthService.GetCurrentUser | src/services/authService.ts:79-87 | the parsed stored user; none when the key is missing, empty or unparseable |
| AuthService.HasRole | src/services/authService.ts:97-100 | true exactly when a stored user is readable and its role is spelt as asked |
| AuthService.IsAdmin | src/services/authService.ts:103-105 | true iff a stored user exists and has the Admin role |
| AuthService.LoginAuthenticates | src/services/authService.ts:31-36 | after a successful login the store is authenticated and reads back the logged-in user |
| AuthService.RefusedLoginKeepsStore | src/services/authService.ts:13-18 | on a failed or unsuccessful reply, login and register write nothing to the store themselves |
| AuthService.LogoutEndsSession | src/services/authService.ts:89-100 | after logout nobody is authenticated, there is no current user, and no role holds |
| AuthService.RefreshKeepsUser | src/services/authService.ts:68-73 | a token refresh never changes the current user |
| AuthContext.Initialize | src/contexts/AuthContext.tsx:27-46 | after start-up the context is authenticated iff the store is. Its user is the stored one. A read fault logs out. Loading always ends |
| AuthContext.SignIn | src/contexts/AuthContext.tsx:48-92 | on data the user is set and the call returns. Otherwise the user is kept, an error toast carries the server message or the fallback, and the error is re-raised. Loading always ends |
| AuthContext.Login | src/contexts/AuthContext.tsx:48-69 | a failed login keeps the user and the store and re-raises; a reply with data sets the user |
| AuthContext.Register | src/contexts/AuthContext.tsx:71-92 | same as login, for register |
| AuthContext.Logout | src/contexts/AuthContext.tsx:94-109 | logout leaves no user, no loading and an empty store |
| AuthContext.MergeLaws | src/contexts/AuthContext.tsx:113 | the spread merge: an empty patch is the identity, merging is idempotent, and two merges compose into one |
| AuthContext.UpdateUser | src/contexts/AuthContext.tsx:111-117 | without a user nothing changes; with one, the merged user is both set and stored, and the tokens are untouched |
| AuthContext.UpdateUserKeepsStoreInStep | src/contexts/AuthContext.tsx:111-117 | after `updateUser` the store reads back exactly the context user |
| AuthContext.LoginAgreesWithStore | src/contexts/AuthContext.tsx:48-69 | after a successful login the context and the store agree on the user, and both are authenticated |
| AuthContext.UnsuccessfulReplyWithDataSetsUser | src/contexts/AuthContext.tsx:51-52 | a reply with `success: false` but with data sets the context user while the store stays unchanged |
| CartService.Lines | src/services/cartService.ts:118-122 | one payload line per item, in order, with the unit price as price |
| CartService.LinesTotalAppend | src/services/cartService.ts:80 | the payload total is additive over concatenation |
| CartService.CalculateCartTotalAppend | src/services/cartService.ts:157-158 | `calculateCartTotal` is 0 on no items and additive |
| CartService.LinesTotalOfItems | src/services/cartService.ts:157-158 | the total of the mapped payload equals `calculateCartTotal` of the items |
| CartService.FindIndex | src/services/cartService.ts:44 | `findIndex`: the first position holding the product, or -1 when none does |
| CartService.AddLines | src/services/cartService.ts:43-78 | an existing product gets its quantity raised, with every other line unchanged; a new product is appended at price 0 |
| CartService.AddToCartRequest | src/services/cartService.ts:25-88 | the payload keeps the fetched cart's ids. A failed fetch yields a one-line cart with ids 0. The total is the price-times-quantity sum |
| CartService.AddRaisesQuantityBy | src/services/cartService.ts:43-78 | adding raises the summed quantity by exactly the added amount |
| CartService.AddNeverDuplicates | src/services/cartService.ts:43-78 | after an add the product occurs once if it was absent, and as often as before otherwise |
| CartService.Retarget | src/services/cartService.ts:94-99 | the matching lines get the new quantity; all other fields and lines are unchanged |
| CartService.KeepPositive | src/services/cartService.ts:100 | an order-preserving filter: a sub-sequence whose lines are the positive ones, every positive line present |
| CartService.KeepPositiveCounts | src/services/cartService.ts:100 | the filter keeps each positive line exactly as often as it occurs and no other line, so with the order kept the result is determined |
| CartService.UpdateLines | src/services/cartService.ts:94-100 | the update payload is a sub-sequence of the retargeted lines. Every line is positive. Other positive lines are kept. The product carries the new quantity |
| CartService.UpdateNeverAddsLine | src/services/cartService.ts:94-100 | an update never introduces a product that was not in the cart |
| CartService.Without | src/services/cartService.ts:117 | an order-preserving filter whose members are exactly the items of other products |
| CartService.WithoutCounts | src/services/cartService.ts:117 | the filter keeps each item of another product exactly as often as it occurs and none of the product's own |
| CartService.RemoveLines | src/services/cartService.ts:116-122 | the removed product is gone and every other item's line remains |
| CartService.RemoveLinesKeepsOthers | src/services/cartService.ts:116-122 | the posted lines are a sub-sequence of the cart's lines holding every other product's line with its quantity, exactly as often as it occurs |
| CartService.WithoutLaws | src/services/cartService.ts:116-122 | removing is idempotent, and removing an absent product changes nothing |
| CartService.UpdateToZeroIsRemove | src/services/cartService.ts:94-122 | on a cart of positive lines, updating a product to a quantity of 0 or less produces the remove payload |
| CartService.UpdateRequest | src/services/cartService.ts:91-110 | the update payload keeps the cart ids and totals its lines |
| CartService.RemoveRequest | src/services/cartService.ts:113-132 | the remove payload keeps the cart ids and totals its lines |
| CartService.ClearRequest | src/services/cartService.ts:135-144 | the clear payload keeps the cart ids, with no lines and total 0 |
| CartService.AddToCart | src/services/cartService.ts:25-88 | the add always posts, even when the fetch fails, and returns the post's reply |
| CartService.FetchThenPost | src/services/cartService.ts:91-110 | a failed fetch aborts without posting; otherwise the built payload is posted |
| CartService.UpdateItemQuantity | src/services/cartService.ts:91-110 | without a fetched cart there is no post; otherwise the update payload of the fetched cart is posted |
| CartService.RemoveFromCart | src/services/cartService.ts:113-132 | without a fetched cart there is no post; otherwise the remove payload is posted |
| CartService.ClearCart | src/services/cartService.ts:135-144 | without a fetched cart there is no post; otherwise the empty payload is posted |
| CartService.GetCartItemCount | src/services/cartService.ts:147-154 | the server's item count, or 0 when the fetch fails |
| CartContext.ItemCount | src/contexts/CartContext.tsx:31 | the badge count is the cart's `totalItems`, or 0 without a cart |
| CartContext.BadgeAgreesWithService | src/contexts/CartContext.tsx:31 | after a refresh from a fetch, the badge equals what `getCartItemCount` returns for that fetch |
| CartContext.Total | src/contexts/CartContext.tsx:32 | the displayed total is the cart's total, or 0 without a cart |
| CartContext.RefreshCart | src/contexts/CartContext.tsx:43-59 | when authenticated the snapshot becomes the fetched cart, or none after any failure; signed out, nothing happens |
| CartContext.OnAuthChange | src/contexts/CartContext.tsx:35-41 | without a signed-in user the cart is dropped; with one it is refreshed |
| CartContext.LoggedOutMeansNoCart | src/contexts/CartContext.tsx:35-41 | after the auth context loses its user, the cart context holds no cart |
| CartContext.AddToCart | src/contexts/CartContext.tsx:61-91 | signed out, only the sign-in toast is shown. Otherwise one fetch and one post happen: success stores the reply, failure keeps the snapshot and re-raises. Loading ends |
| CartContext.AddOne | src/contexts/CartContext.tsx:61 | the default quantity is 1 |
| CartContext.RemoveFromCart | src/contexts/CartContext.tsx:119-142 | after a successful remove the cart is refetched and the snapshot becomes that refetch. A failure keeps the snapshot and re-raises |
| CartContext.UpdateQuantity | src/contexts/CartContext.tsx:93-117 | it does nothing without a user or a cart. A quantity of 0 or less delegates to remove. Otherwise it posts the update and stores the reply, or keeps the snapshot and re-raises |
| CartContext.ClearCart | src/contexts/CartContext.tsx:144-167 | success empties the snapshot; failure keeps it and re-raises |
| CartContext.FailureKeepsSnapshot | src/contexts/CartContext.tsx:80-87 | every failed cart operation leaves the displayed cart as it was |
| CartContext.DisplayedFiguresAreServers | src/contexts/CartContext.tsx:104-105 | after an update, the badge count and the total are the server's figures |
| CartContext.UpdateToZeroPostsUpdatePayload | src/contexts/CartContext.tsx:99-102 | removing via a zero quantity posts the payload `updateItemQuantity` would have posted |
| Validation.ValidateEmailMatchesPattern | src/lib/validation.ts:1-4 | the executable e-mail check accepts exactly the strings matching the pattern: one `@` with no space or `@` around it, and a dot inside the domain |
| Validation.ValidatePassword | src/lib/validation.ts:6-29 | the errors are an in-order selection of the four messages; valid iff there are none |
| Validation.PasswordMessagesMeanFailures | src/lib/validation.ts:9-26 | each message appears iff its rule fails. A short password reports the length first. Valid iff all four rules hold |
| Validation.PasswordMessagesDistinct | src/lib/validation.ts:10-22 | the four messages are pairwise different |
| Validation.ValidateRequired | src/lib/validation.ts:31-36 | an error iff the trimmed value is empty; the message names the field |
| Validation.RequiredIffNotBlank | src/lib/validation.ts:31-36 | a value passes iff it has a non-white-space character |
| Validation.PhonePatternShapes | src/lib/validation.ts:40 | the phone pattern accepts exactly `3` plus nine digits, optionally preceded by `+57` |
| Validation.PhoneIgnoresSpaces | src/lib/validation.ts:41 | inserting white space anywhere does not change the verdict |
| Validation.CountryCodeOptional | src/lib/validation.ts:40 | a number is valid with the `+57` prefix iff it is valid without it |
| Validation.ValidateForm | src/lib/validation.ts:44-84 | only ruled fields get entries, and a field has an entry iff its check fails |
| Validation.RequiredShortCircuits | src/lib/validation.ts:51-56 | a required blank field reports only the required message |
| Validation.OptionalEmptyPasses | src/lib/validation.ts:59-80 | an optional empty field gets no error |
| Validation.LastFailingCheckWins | src/lib/validation.ts:74-80 | the max-length message overrides everything else, and the min-length message overrides the kind checks |
| Validation.PasswordFieldReportsFirstError | src/lib/validation.ts:63-68 | a password field reports the first password message, and nothing when the password is valid |
| FormEncoding.Utf8RoundTrip | src/services/productService.ts:24 | decoding the UTF-8 encoding of any string returns it |
| FormEncoding.Encode | src/services/productService.ts:35 | encoded text is ASCII with no `&` or `=`, so pairs cannot bleed into one another |
| FormEncoding.EncodeKeepsUnreserved | src/services/productService.ts:35 | unreserved text is left as it is |
| FormEncoding.NumeralsAreUnreserved | src/services/productService.ts:18 | decimal numerals pass through the encoder unchanged |
| FormEncoding.DecodeEncode | src/services/productService.ts:35 | decoding inverts encoding for every string |
| FormEncoding.EncodeInjective | src/services/productService.ts:35 | distinct values encode differently |
| FormEncoding.ParseSerialize | src/services/productService.ts:12-35 | parsing a serialized parameter list returns exactly that list |
| ProductService.ParamsInFixedOrder | src/services/productService.ts:14-31 | the parameters appear in the fixed order featured, categoryId, producerId, searchTerm, page, pageSize, each at most once |
| ProductService.Lookup | src/services/productService.ts:12-31 | a value found under a name is a member of the list; absent iff no parameter has the name |
| ProductService.LookupFirst | src/services/productService.ts:12-31 | the value found is that of the first parameter with the name: no earlier parameter carries it |
| ProductService.QueryOfParams | src/services/productService.ts:14-31 | the query read back from the parameters is the query with its falsy numbers and empty term dropped |
| ProductService.ParamsOfNormalized | src/services/productService.ts:17-31 | dropping the falsy fields first changes no parameter |
| ProductService.ProductsUrl | src/services/productService.ts:35 | the URL is `/products?` followed by the form encoding of the parameters |
| ProductService.SameUrlIffSameQuery | src/services/productService.ts:11-35 | two queries give the same URL iff they agree after dropping falsy fields |
| ProductService.GetProducts | src/services/productService.ts:33-36 | `getProducts` issues a GET of that URL |
| ProductService.FeaturedQuery | src/services/productService.ts:45-51 | the featured query has `featured` true and `pageSize` equal to the limit, 6 by default, and nothing else |
| ProductService.FeaturedDefaultParams | src/services/productService.ts:45-49 | by default the request carries exactly `featured=true` and `pageSize=6` |
| ProductService.SearchQuery | src/services/productService.ts:74-80 | the search term with page 1 and size 12 by default |
| ProductService.CategoryQuery | src/services/productService.ts:83-89 | the category with page 1 and size 12 by default |
| ProductService.ProducerQuery | src/services/productService.ts:92-98 | the producer with page 1 and size 12 by default |
| ProductService.EmptySearchListsEverything | src/services/productService.ts:23-25 | an empty search term requests the unfiltered listing |
| ProductService.CategoryZeroIsDropped | src/services/productService.ts:17-19 | category 0 requests the unfiltered listing |
| ProductService.GetProduct | src/services/productService.ts:54-60 | the id is read back from the path |
| ProductService.GetProductBySlug | src/services/productService.ts:63-71 | the slug is inserted into the path verbatim |
| OrderService.StatusNameRoundTrip | src/services/orderService.ts:46-54 | every status is read back from its wire name |
| OrderService.StatusFromNameSound | src/services/orderService.ts:46-55 | a string that names a status is that status's wire name |
| OrderService.GetOrderStatus | src/services/orderService.ts:46-56 | a known status gets its table badge; any other string is shown raw in grey |
| OrderService.StatusLabelsDistinct | src/services/orderService.ts:47-54 | distinct statuses have distinct captions |
| OrderService.OnlyRefundedIsGrey | src/services/orderService.ts:53-55 | among known statuses only Refunded shares the fallback grey |
| OrderService.PaymentNameRoundTrip | src/services/orderService.ts:59-66 | every payment method is read back from its wire name |
| OrderService.GetPaymentMethodLabel | src/services/orderService.ts:59-67 | a known method gets its Spanish label; any other string is returned as given |
| OrderService.PaymentLabelsDistinct | src/services/orderService.ts:60-65 | distinct methods have distinct labels |
| OrderService.CreateOrder | src/services/orderService.ts:6-13 | the order is created with a POST to `/orders` |
| OrderService.GetOrder | src/services/orderService.ts:16-22 | the order id is read back from the path |
| OrderService.CancelOrder | src/services/orderService.ts:37-43 | a PUT on `/orders/<id>/cancel`, with the id read back |
| OrderService.OrderUrlsDistinct | src/services/orderService.ts:16-43 | different orders get different fetch and cancel URLs |
| OrderService.GetUserOrders | src/services/orderService.ts:25-34 | a GET on `/orders?` with a query string |
| OrderService.UserOrdersUrlIsFormEncoded | src/services/orderService.ts:28 | the hand-written query is the form encoding of `page` and `pageSize` |
| OrderService.UserOrdersReadBack | src/services/orderService.ts:25-28 | the query parses back to page and pageSize, 1 and 10 by default |
| UserService.UserUrl | src/services/userService.ts:6-12 | the user id is read back from `/users/<id>` |
| UserService.GetUser | src/services/userService.ts:6-12 | the profile is fetched with a GET on the user's URL |
| UserService.DeleteAccount | src/services/userService.ts:61-66 | the account is deleted with a DELETE on the user's URL |
| UserService.UpdateUser | src/services/userService.ts:15-28 | a PUT on the user's URL. The stored user is replaced only on success with data. The service itself never writes the tokens |
| UserService.GetCurrentUserProfile | src/services/userService.ts:31-37 | with no stored id, or an unreadable stored user, it fails before any request; otherwise it fetches that id and returns `getUser`'s data or error |
| UserService.UpdateCurrentUserProfile | src/services/userService.ts:40-46 | the same guard, then `updateUser` of the stored id |
| UserService.ProfileOfStoredUser | src/services/userService.ts:31-37 | the profile request targets the id of the user that was stored |
| UserService.UpdateMovesCurrentProfile | src/services/userService.ts:23-25 | after a successful update, the current profile is that of the returned user |
| UserService.GetFullName | src/services/userService.ts:69-71 | the full name never starts or ends with white space |
| UserService.FullNameEmptyIffBlank | src/services/userService.ts:69-71 | the full name is empty iff both names are blank |
| UserService.FullNameOfTrimmedNames | src/services/userService.ts:69-71 | names without outer white space are joined by exactly one space |
| UserService.Initial | src/services/userService.ts:75-76 | the upper-cased first character, or nothing for an empty name |
| UserService.GetInitials | src/services/userService.ts:74-78 | one letter per non-empty name, at most two: the upper-cased first letter of the first name first, the upper-cased first letter of the last name last |
| UserService.InitialsAgreeWithFullName | src/services/userService.ts:69-78 | the first initial is the upper-cased first letter of the full name, and no initial is an ASCII lower-case letter |
| OrderDetail.StatusAlert | src/pages/OrderDetail.tsx:157-173 | the cancelled alert shows iff the order is cancelled, and the delivered alert iff it is delivered |
| OrderDetail.AlertMatchesTimelineEnd | src/pages/OrderDetail.tsx:157-173 | the cancelled alert shows iff the timeline ends in the red step, the delivered alert iff it ends in the green step, and no alert iff it ends in a filled or muted step |
| OrderDetail.TimelineOrdered | src/pages/OrderDetail.tsx:228-298 | the timeline starts with creation, and its steps follow the fixed order |
| OrderDetail.TimelineShowsProgress | src/pages/OrderDetail.tsx:244-286 | on the normal path the timeline shows exactly the reached steps, none muted or red |
| OrderDetail.TimelineOffPath | src/pages/OrderDetail.tsx:244-298 | cancelled and refunded orders show a muted processing step; only cancelled orders end in red |
| OrderDetail.CanCancelIffNotSentNorStopped | src/pages/OrderDetail.tsx:109 | the cancel button shows iff every timeline dot is filled and the order has not shipped |
| OrderDetail.ParseRouteId | src/pages/OrderDetail.tsx:42 | `parseInt` of the route id: NaN for blank text and for text whose first non-space character is neither a digit nor a sign; a leading digit gives a number of at least 0, a `-` one of at most 0, a `+` one of at least 0 |
| OrderDetail.ParseSigned | src/pages/OrderDetail.tsx:42 | the same reading after the leading white space: NaN without a digit or sign first, and the sign fixes the sign of the result |
| OrderDetail.ParseIgnoresLeadingSpace | src/pages/OrderDetail.tsx:42 | white space before the id never changes the number read |
| OrderDetail.LeadingDigits | src/pages/OrderDetail.tsx:42 | the longest run of leading digits |
| OrderDetail.ParseRouteIdOfNumeral | src/pages/OrderDetail.tsx:42 | `parseInt` recovers an id from its numeral, whatever non-digit text follows |
| OrderDetail.LoadOrder | src/pages/OrderDetail.tsx:37-49 | without an id nothing happens. With one, exactly one fetch is made and loading ends. A failure keeps the order shown |
| OrderDetail.HandleCancelOrder | src/pages/OrderDetail.tsx:51-72 | it does nothing without an order and an id. A failed cancel shows the error toast and keeps the page. A successful one reloads the order and shows the success toast |
| OrderDetail.CancelAndReloadSameOrder | src/pages/OrderDetail.tsx:42-57 | the cancel and the reload target the same order |
| OrderDetail.StaleOrderAfterFailedReload | src/pages/OrderDetail.tsx:56-61 | when the reload fails after a cancel, the success toast shows and the stale, still cancellable order stays |
| OrderDetail.NoIdKeepsLoading | src/pages/OrderDetail.tsx:31-38 | without a truthy route id the page never leaves its loading state |
| Checkout.DefaultShipping | src/pages/Checkout.tsx:23-30 | the form starts from the user's name, address and phone, with city, region and zip code empty |
| Checkout.DefaultNameNeverMissing | src/pages/Checkout.tsx:24 | a signed-in user's default name always passes the required-field guard |
| Checkout.PageView | src/pages/Checkout.tsx:89-121 | the form is shown iff a user is signed in and the cart has items |
| Checkout.OrderNotes | src/pages/Checkout.tsx:63 | the notes are omitted iff they are blank, and otherwise sent trimmed |
| Checkout.ConfirmationPath | src/pages/Checkout.tsx:76 | the confirmation path carries the created order's id |
| Checkout.HandleSubmit | src/pages/Checkout.tsx:35-87 | an empty cart or a missing required field stops with a toast before any request. Otherwise the order is created first. A failed creation shows the failure toast and makes no cart call. After a created order and a successful `clearCart`, the success toast with the order number follows `clearCart`'s own toast, and the page navigates to the confirmation |
| Checkout.NavigatesOnlyAfterCreateAndClear | src/pages/Checkout.tsx:66-76 | navigation happens iff both guards pass, the order is created and the cart is cleared; it goes to that order's confirmation with the cart emptied |
| Checkout.ClearFailureAfterCreatedOrder | src/pages/Checkout.tsx:66-84 | a clear failure after a created order shows the failure toast, does not navigate and keeps the cart |
| Checkout.FormPassesCartGuard | src/pages/Checkout.tsx:38-45 | whenever the form is visible, the empty-cart guard does not fire |
| Checkout.ZipCodeOptional | src/pages/Checkout.tsx:48 | the zip code is not among the required fields |

## Left out

- The HTTP transport is not modelled: axios, the base URL, the 10-second timeout, headers other than `Authorization`, and the `window.location` redirect, which is recorded as a flag.
- Request bodies are not kept in `Request`. The cart, auth and order payloads are returned separately where they matter.
- Response shaping is not modelled, including the `pagination` field and the non-null assertion on it.
- Cart and order replies without data are not modelled. `getCart`, `createOrder` and `getOrder` return `response.data`, which is `undefined` on a 2xx reply that carries no data. The model types these replies as a present `Cart` or `Order`. So it does not model two things: Checkout emptying the cart and then failing on `order.id`, and the order page switching to its not-found view after such a reply.
- The interceptor's effects are not composed into the service and context models. Each one starts from the reply as the interceptor hands it on. On the same failed request the program may also clear the store and redirect to `/login` when no refresh is possible, or refresh the access token and replay the call. It may also show the interceptor's own toast for errors other than 401 and 404, before the context's toast. These effects are modelled and proved in `Api` only. So "writes nothing to the store" in `AuthService` and `UserService` speaks about the service's own writes.
- Concurrency and React re-rendering are not modelled. Each handler is one sequential run over given replies. Interleaved handlers and effects re-firing are out of scope.
- Toasts are kept as data, and their display and timing are not modelled. `console.error` is dropped.
- JSON is a codec parameter. Stored values that are JSON `null` or not an object, and users whose fields have the wrong types, are not modelled. Any string the codec parses counts as a user.
- JavaScript strings are sequences of code points, not UTF-16 units. `length` and `charAt` differ from the source on characters outside the Basic Multilingual Plane, and lone surrogates are not represented. `URLSearchParams` would replace those with U+FFFD.
- `FormEncoding.Decode` rejects malformed input where a browser would substitute U+FFFD. The encoder never produces such input.
- Numbers are integers. NaN, infinities, fractions and the `0x` prefix accepted by `parseInt` are left out. The only NaN modelled is the route id's, which becomes the text `NaN` in the path.
- Lookups of `__proto__` and other inherited keys in the status and payment tables are left out. Only own keys are modelled.
- UserService.Initial: `toUpperCase` is modelled on ASCII letters only. Other characters are kept as they are.
- Validation.ValidatePassword: the character classes `[A-Z]`, `[a-z]` and `\d` are ASCII, as in the source. The model does not restate the regular expressions beyond that.
- `formatPrice` is not modelled. `Intl.NumberFormat` and the currency formatting it applies are platform code.
- Dates, the product card's discount arithmetic and the presentation-only markup of the pages are not modelled.
- `changePassword` is modelled only as its request, a PUT to `/users/change-password`. The request body is not kept.
- `contactService` is not part of this model.

=== FILE: api.dfy ===
/** The request pipeline (src/lib/api.ts): the session kept in `localStorage`, the
    request interceptor that attaches the bearer token, and the response interceptor
    that recovers from a 401 by refreshing the access token once and replaying the
    request. The network is replaced by the replies passed in. */
module Api {

  import opened Wrappers
  import opened Types

  /** The three `localStorage` keys the client persists: 'accessToken',
      'refreshToken' and 'user' (the user serialized as JSON). */
  datatype Session = Session(accessToken: Option<string>, refreshToken: Option<string>, user: Option<string>)

  const EmptySession := Session(None, None, None)

  /** `JSON.stringify` and `JSON.parse` on user records; `parse` answers `None` where
      `JSON.parse` throws. */
  datatype UserCodec = UserCodec(serialize: User -> string, parse: string -> Option<User>)

  /** A codec that reads back every user it writes; like `JSON.stringify`, it never
      writes the empty string. */
  ghost predicate Faithful(codec: UserCodec) {
    forall u :: codec.serialize(u) != "" && codec.parse(codec.serialize(u)) == Some(u)
  }

  /** JavaScript truthiness of a stored string: present and not empty. */
  predicate Truthy(v: Option<string>) {
    v.Some? && v.value != ""
  }

  /** `setToken`: stores a new access token and leaves the other two keys alone. */
  function SetToken(s: Session, token: string): (r: Session)
    ensures r.accessToken == Some(token)
    ensures r.refreshToken == s.refreshToken && r.user == s.user
  {
    s.(accessToken := Some(token))
  }

  /** `setRefreshToken`: stores a new refresh token and leaves the other two keys alone. */
  function SetRefreshToken(s: Session, token: string): (r: Session)
    ensures r.refreshToken == Some(token)
    ensures r.accessToken == s.accessToken && r.user == s.user
  {
    s.(refreshToken := Some(token))
  }

  /** `removeToken`: deletes exactly the three session keys, whatever they held. */
  function RemoveToken(s: Session): (r: Session)
    ensures r.accessToken.None? && r.refreshToken.None? && r.user.None?
  {
    EmptySession
  }

  /** The `_retry` flag axios keeps on a request config, as an explicit state:
      a request starts `Fresh` and becomes `Retried` at its first 401. */
  datatype RetryState = Fresh | Retried

  /** A request on its way out: the call, the Authorization header, the retry state. */
  datatype RequestConfig = RequestConfig(request: Request, authorization: Option<string>, retry: RetryState)

  function Bearer(token: string): string {
    "Bearer " + token
  }

  /** The request interceptor: sets `Authorization: Bearer <token>` when an access
      token is stored (and non-empty), and otherwise leaves the config as it is. */
  function AttachToken(cfg: RequestConfig, s: Session): (r: RequestConfig)
    ensures r.request == cfg.request && r.retry == cfg.retry
    ensures Truthy(s.accessToken) ==> r.authorization == Some(Bearer(s.accessToken.value))
    ensures !Truthy(s.accessToken) ==> r.authorization == cfg.authorization
    ensures cfg.authorization.None? ==> (r.authorization.Some? <==> Truthy(s.accessToken))
  {
    if Truthy(s.accessToken) then cfg.(authorization := Some(Bearer(s.accessToken.value))) else cfg
  }

  /** What the interceptor reads from `JSON.parse(localStorage.getItem('user') || '{}')`. */
  datatype StoredId = IdOf(id: int) | NoId | Unreadable

  /** The stored user's id as the refresh path sees it: a missing or empty key parses
      as `{}` and has no id, an id of 0 is falsy, and an unparseable value throws. */
  function StoredUserId(s: Session, codec: UserCodec): StoredId {
    if !Truthy(s.user) then NoId
    else match codec.parse(s.user.value)
      case None => Unreadable
      case Some(u) => if u.id != 0 then IdOf(u.id) else NoId
  }

  /** A stored user written by a faithful codec is read back with its id, when the id is non-zero. */
  lemma StoredUserIdOfWritten(s: Session, codec: UserCodec, u: User)
    requires Faithful(codec)
    requires s.user == Some(codec.serialize(u))
    ensures StoredUserId(s, codec) == (if u.id != 0 then IdOf(u.id) else NoId)
  {
  }

  /** The outcome of the `POST /auth/refresh-token` call made by the interceptor. */
  datatype RefreshReply =
    | RefreshThrew(error: ApiError)
    | RefreshAnswered(success: bool, accessToken: Option<string>)

  /** Why a request was finally rejected. */
  datatype Rejection =
    | OriginalError                  // the error the server returned for the request
    | RefreshError(error: ApiError)  // the error of the failed refresh call
    | StoredUserUnreadable           // JSON.parse of the stored user threw

  datatype Verdict = Reissue(accessToken: string) | Reject(reason: Rejection)

  /** Everything the response interceptor decides for one failed response. */
  datatype Handling = Handling(
    session: Session,
    retry: RetryState,
    verdict: Verdict,
    refreshCalled: bool,
    redirectToLogin: bool,
    notice: Option<Notice>)

  const FallbackErrorMessage := "Ha ocurrido un error"

  /** Statuses the pipeline never raises a toast for. */
  predicate Silenced(status: Option<int>) {
    status == Some(401) || status == Some(404)
  }

  function ErrorNotice(e: ApiError): Option<Notice> {
    if Silenced(e.status) then None
    else Some(Notice("Error", MessageOr(e, FallbackErrorMessage), true))
  }

  /** The response interceptor for a failed response `e` on a request in state `retry`.
      Only a 401 on a `Fresh` request enters recovery; recovery refreshes only when a
      refresh token and a stored user id both exist. */
  function HandleResponseError(s: Session, codec: UserCodec, retry: RetryState, e: ApiError, refresh: RefreshReply): (h: Handling)
    // a 401 marks the request retried; any other error leaves its state alone
    ensures e.status == Some(401) ==> h.retry == Retried
    ensures e.status != Some(401) ==> h.retry == retry
    // the refresh endpoint is called at most on the first 401, and only with both credentials
    ensures h.refreshCalled ==> retry == Fresh && e.status == Some(401)
    ensures h.refreshCalled ==> Truthy(s.refreshToken) && StoredUserId(s, codec).IdOf?
    // a replay happens only after a successful refresh, with the new token stored
    ensures h.verdict.Reissue? ==> retry == Fresh && h.refreshCalled
    ensures h.verdict.Reissue? ==> h.session == SetToken(s, h.verdict.accessToken)
    ensures h.verdict.Reissue? ==> refresh == RefreshAnswered(true, Some(h.verdict.accessToken))
    // an already retried request is rejected without touching the session
    ensures retry == Retried ==> h.session == s && !h.redirectToLogin && !h.refreshCalled
    ensures retry == Retried ==> h.verdict == Reject(OriginalError)
    // the session is either kept, updated by a refresh, or cleared with a redirect
    ensures h.redirectToLogin ==> h.session == EmptySession && h.verdict.Reject?
    ensures !h.redirectToLogin && !h.verdict.Reissue? ==> h.session == s
    // a toast is raised exactly for the statuses outside {401, 404}
    ensures h.notice.Some? <==> !Silenced(e.status)
    ensures h.notice.Some? ==> h.notice.value.description == MessageOr(e, FallbackErrorMessage)
  {
    if e.status == Some(401) && retry == Fresh then
      match StoredUserId(s, codec)
      case Unreadable =>
        Handling(s, Retried, Reject(StoredUserUnreadable), false, false, None)
      case NoId =>
        Handling(RemoveToken(s), Retried, Reject(OriginalError), false, true, None)
      case IdOf(_) =>
        if !Truthy(s.refreshToken) then
          Handling(RemoveToken(s), Retried, Reject(OriginalError), false, true, None)
        else
          match refresh
          case RefreshThrew(re) =>
            Handling(RemoveToken(s), Retried, Reject(RefreshError(re)), true, true, None)
          case RefreshAnswered(ok, token) =>
            if !ok then
              Handling(s, Retried, Reject(OriginalError), true, false, None)
            else if token.None? then
              // destructuring a reply without data throws inside the try block
              Handling(RemoveToken(s), Retried, Reject(RefreshError(ClientFault)), true, true, None)
            else
              Handling(SetToken(s, token.value), Retried, Reissue(token.value), true, false, None)
    else
      var next := if e.status == Some(401) then Retried else retry;
      Handling(s, next, Reject(OriginalError), false, false, ErrorNotice(e))
  }

  /** One request through the pipeline, including its possible replay. */
  datatype Exchange<T> = Exchange(
    session: Session,
    result: Result<T, Rejection>,
    sent: seq<RequestConfig>,
    refreshCalls: nat,
    redirected: bool,
    notices: seq<Notice>)

  /** Sends `cfg`; the server answers `original` to a fresh request and `replay` to a
      retried one. Termination rests on the interceptor's contract: only a fresh
      request is reissued, and the reissued one is retried. */
  function Attempt<T>(s: Session, codec: UserCodec, cfg: RequestConfig,
                      original: Result<T, ApiError>, replay: Result<T, ApiError>,
                      refresh: RefreshReply): (x: Exchange<T>)
    ensures 1 <= |x.sent| <= 2 && x.sent[0] == AttachToken(cfg, s)
    ensures x.refreshCalls <= 1
    ensures cfg.retry == Retried ==> x.refreshCalls == 0 && |x.sent| == 1
    ensures |x.sent| == 2 ==> cfg.retry == Fresh && x.sent[1].retry == Retried && x.refreshCalls == 1
    decreases if cfg.retry == Fresh then 1 else 0
  {
    var out := AttachToken(cfg, s);
    var reply := if cfg.retry == Fresh then original else replay;
    match reply
    case Ok(v) => Exchange(s, Ok(v), [out], 0, false, [])
    case Err(e) =>
      var h := HandleResponseError(s, codec, cfg.retry, e, refresh);
      var notices := if h.notice.Some? then [h.notice.value] else [];
      match h.verdict
      case Reject(why) =>
        Exchange(h.session, Err(why), [out], if h.refreshCalled then 1 else 0, h.redirectToLogin, notices)
      case Reissue(token) =>
        var again := out.(authorization := Some(Bearer(token)), retry := h.retry);
        var x := Attempt(h.session, codec, again, original, replay, refresh);
        Exchange(x.session, x.result, [out] + x.sent, x.refreshCalls + 1, x.redirected, notices + x.notices)
  }

  /** `apiRequest`: a new request, fresh and without a header, through the pipeline. */
  function Send<T>(s: Session, codec: UserCodec, request: Request,
                   original: Result<T, ApiError>, replay: Result<T, ApiError>,
                   refresh: RefreshReply): (x: Exchange<T>)
    ensures x.refreshCalls <= 1 && 1 <= |x.sent| <= 2
    ensures x.sent[0].authorization.Some? <==> Truthy(s.accessToken)
  {
    Attempt(s, codec, RequestConfig(request, None, Fresh), original, replay, refresh)
  }

  /** The recovery path: a first 401 with both credentials stored and a successful
      refresh replays the request once with the new token, and the caller sees the
      replay's answer; the new access token is kept and the refresh token untouched. */
  lemma RefreshThenReplay<T>(s: Session, codec: UserCodec, request: Request, e: ApiError,
                             replay: Result<T, ApiError>, token: string)
    requires e.status == Some(401)
    requires Truthy(s.refreshToken) && StoredUserId(s, codec).IdOf?
    ensures var x := Send(s, codec, request, Err(e), replay, RefreshAnswered(true, Some(token)));
      && |x.sent| == 2 && x.refreshCalls == 1
      && x.sent[1].authorization == Some(Bearer(token))
      && x.session.accessToken == Some(token)
      && x.session.refreshToken == s.refreshToken
      && !x.redirected
      && (replay.Ok? ==> x.result == Ok(replay.value))
      && (replay.Err? ==> x.result == Err(OriginalError))
  {
    var cfg := RequestConfig(request, None, Fresh);
    var h := HandleResponseError(s, codec, Fresh, e, RefreshAnswered(true, Some(token)));
    assert h.verdict == Reissue(token);
    var again := AttachToken(cfg, s).(authorization := Some(Bearer(token)), retry := Retried);
    var y := Attempt(h.session, codec, again, Err(e), replay, RefreshAnswered(true, Some(token)));
    assert y.sent[0].authorization == Some(Bearer(token));
  }

  /** A second 401, on the replayed request, is rejected without a second refresh and
      without clearing the session the refresh just updated. */
  lemma SecondUnauthorizedKeepsSession<T>(s: Session, codec: UserCodec, request: Request,
                                          e: ApiError, e2: ApiError, token: string)
    requires e.status == Some(401) && e2.status == Some(401)
    requires Truthy(s.refreshToken) && StoredUserId(s, codec).IdOf?
    ensures var x := Send<T>(s, codec, request, Err(e), Err(e2), RefreshAnswered(true, Some(token)));
      && x.result == Err(OriginalError)
      && x.refreshCalls == 1
      && x.session == SetToken(s, token)
      && !x.redirected
      && x.notices == []
  {
    var cfg := RequestConfig(request, None, Fresh);
    var again := AttachToken(cfg, s).(authorization := Some(Bearer(token)), retry := Retried);
    var h2 := HandleResponseError(SetToken(s, token), codec, Retried, e2, RefreshAnswered(true, Some(token)));
    assert h2.session == SetToken(s, token) && h2.notice.None?;
    var y := Attempt<T>(SetToken(s, token), codec, again, Err(e), Err(e2), RefreshAnswered(true, Some(token)));
    assert y.session == SetToken(s, token) && y.notices == [];
  }

  /** Without a refresh token or a stored user id, a first 401 clears the session,
      redirects to the login page and rejects with the original error. */
  lemma MissingCredentialsEndSession<T>(s: Session, codec: UserCodec, request: Request,
                                        e: ApiError, replay: Result<T, ApiError>, refresh: RefreshReply)
    requires e.status == Some(401)
    requires StoredUserId(s, codec) != Unreadable
    requires !(Truthy(s.refreshToken) && StoredUserId(s, codec).IdOf?)
    ensures var x := Send(s, codec, request, Err(e), replay, refresh);
      && x.result == Err(OriginalError)
      && x.session == EmptySession
      && x.redirected
      && x.refreshCalls == 0
      && |x.sent| == 1
  {
  }

  /** A refresh call that throws clears the session and rejects with the refresh error;
      a refresh answered with success = false keeps the session and rejects with the
      original error. */
  lemma FailedRefreshOutcomes<T>(s: Session, codec: UserCodec, request: Request,
                                 e: ApiError, replay: Result<T, ApiError>, re: ApiError, token: Option<string>)
    requires e.status == Some(401)
    requires Truthy(s.refreshToken) && StoredUserId(s, codec).IdOf?
    ensures var x := Send(s, codec, request, Err(e), replay, RefreshThrew(re));
      x.result == Err(RefreshError(re)) && x.session == EmptySession && x.redirected && x.refreshCalls == 1
    ensures var x := Send(s, codec, request, Err(e), replay, RefreshAnswered(false, token));
      x.result == Err(OriginalError) && x.session == s && !x.redirected && x.refreshCalls == 1
  {
  }
}

=== FILE: auth_context.dfy ===
/** The authentication context (src/contexts/AuthContext.tsx): the reactive state
    `{user, isLoading}` and its transitions on start-up, login, register, logout and
    local profile updates. Toasts are returned as `Notice` values. */
module AuthContext {

  import opened Wrappers
  import opened Types
  import opened Api
  import AuthService

  datatype AuthState = AuthState(user: Option<User>, isLoading: bool)

  /** The state before initialization: no user, loading. */
  const Initial := AuthState(None, true)

  /** The exposed `isAuthenticated` flag: `!!user`, whatever the stored tokens say. */
  predicate IsAuthenticated(st: AuthState) {
    st.user.Some?
  }

  /** How an operation ends for its caller: it returns, or it re-raises `error`. */
  datatype Completion = Done | Raised(error: ApiError)

  datatype AuthStep = AuthStep(state: AuthState, session: Session, completion: Completion, notice: Option<Notice>)

  /** `initializeAuth`, run once from the initial state. `fault` stands for an exception
      thrown while reading the store; it leads to a defensive logout. */
  function Initialize(s: Session, codec: UserCodec, fault: bool): (r: AuthStep)
    ensures !r.state.isLoading && r.completion == Done && r.notice.None?
    ensures fault ==> r.state.user.None? && r.session == EmptySession
    ensures !fault ==> r.session == s
    ensures !fault ==> (IsAuthenticated(r.state) <==> AuthService.IsAuthenticated(s, codec))
    ensures r.state.user.Some? ==> r.state.user == AuthService.GetCurrentUser(s, codec)
  {
    if fault then AuthStep(AuthState(None, false), AuthService.Logout(s), Done, None)
    else
      var stored := AuthService.GetCurrentUser(s, codec);
      var user := if AuthService.IsAuthenticated(s, codec) && stored.Some? then stored else Initial.user;
      AuthStep(AuthState(user, false), s, Done, None)
  }

  /** The texts one sign-in flavour shows. */
  datatype SignInTexts = SignInTexts(successTitle: string, errorTitle: string, errorFallback: string)

  /** The common shape of `login` and `register` once the service call is done: the
      user becomes the reply's user when data came back; otherwise the error (or the
      `TypeError` of reading `user` from missing data) is re-raised and the user kept. */
  function SignIn(st: AuthState, call: AuthService.AuthCall, texts: SignInTexts,
                  welcome: User -> string): (r: AuthStep)
    ensures !r.state.isLoading && r.session == call.session && r.notice.Some?
    ensures call.result.Ok? && call.result.value.Some? ==>
      r.state.user == Some(call.result.value.value.user) && r.completion == Done
    ensures !(call.result.Ok? && call.result.value.Some?) ==>
      r.state.user == st.user && r.completion.Raised? && r.notice.value.destructive
    ensures call.result.Err? ==>
      && r.completion == Raised(call.result.error)
      && r.notice.value.description == MessageOr(call.result.error, texts.errorFallback)
  {
    match call.result
    case Ok(Some(a)) =>
      AuthStep(AuthState(Some(a.user), false), call.session, Done, Some(Notice(texts.successTitle, welcome(a.user), false)))
    case Ok(None) =>
      AuthStep(st.(isLoading := false), call.session, Raised(ClientFault),
               Some(Notice(texts.errorTitle, MessageOr(ClientFault, texts.errorFallback), true)))
    case Err(e) =>
      AuthStep(st.(isLoading := false), call.session, Raised(e),
               Some(Notice(texts.errorTitle, MessageOr(e, texts.errorFallback), true)))
  }

  const LoginTexts := SignInTexts("Bienvenido", "Error de autenticación", "Error al iniciar sesión")
  const RegisterTexts := SignInTexts("¡Cuenta creada!", "Error de registro", "Error al crear la cuenta")

  /** `login` of the context. */
  function Login(st: AuthState, s: Session, codec: UserCodec, reply: Result<Envelope<AuthResponse>, ApiError>): (r: AuthStep)
    ensures !r.state.isLoading
    ensures reply.Err? ==> r.state.user == st.user && r.session == s && r.completion == Raised(reply.error)
    ensures reply.Ok? && reply.value.data.Some? ==> r.state.user == Some(reply.value.data.value.user) && r.completion == Done
  {
    SignIn(st, AuthService.Login(s, codec, reply), LoginTexts,
           (u: User) => "¡Hola " + u.firstName + "! Has iniciado sesión correctamente.")
  }

  /** `register` of the context. */
  function Register(st: AuthState, s: Session, codec: UserCodec, reply: Result<Envelope<AuthResponse>, ApiError>): (r: AuthStep)
    ensures !r.state.isLoading
    ensures reply.Err? ==> r.state.user == st.user && r.session == s && r.completion == Raised(reply.error)
    ensures reply.Ok? && reply.value.data.Some? ==> r.state.user == Some(reply.value.data.value.user) && r.completion == Done
  {
    SignIn(st, AuthService.Register(s, codec, reply), RegisterTexts,
           (u: User) => "Bienvenido " + u.firstName + ". Tu cuenta ha sido creada exitosamente.")
  }

  /** `logout` of the context: the service's logout cannot fail, so the user is always
      cleared along with the store. */
  function Logout(st: AuthState, s: Session): (r: AuthStep)
    ensures r.state == AuthState(None, false) && r.completion == Done
    ensures r.session.accessToken.None? && r.session.refreshToken.None? && r.session.user.None?
  {
    AuthStep(AuthState(None, false), AuthService.Logout(s), Done,
             Some(Notice("Sesión cerrada", "Has cerrado sesión correctamente.", false)))
  }

  /** `Partial<User>`: a field given here overrides the user's. */
  datatype UserPatch = UserPatch(
    id: Option<int>,
    firstName: Option<string>,
    lastName: Option<string>,
    email: Option<string>,
    phone: Option<string>,
    address: Option<string>,
    role: Option<Role>,
    isActive: Option<bool>)

  const NoChanges := UserPatch(None, None, None, None, None, None, None, None)

  /** `{ ...user, ...patch }`. */
  function Merge(u: User, p: UserPatch): User {
    User(
      p.id.GetOr(u.id),
      p.firstName.GetOr(u.firstName),
      p.lastName.GetOr(u.lastName),
      p.email.GetOr(u.email),
      if p.phone.Some? then p.phone else u.phone,
      if p.address.Some? then p.address else u.address,
      p.role.GetOr(u.role),
      p.isActive.GetOr(u.isActive))
  }

  /** The patch that applies `p` and then `q`: later fields win. */
  function Then(p: UserPatch, q: UserPatch): UserPatch {
    UserPatch(
      if q.id.Some? then q.id else p.id,
      if q.firstName.Some? then q.firstName else p.firstName,
      if q.lastName.Some? then q.lastName else p.lastName,
      if q.email.Some? then q.email else p.email,
      if q.phone.Some? then q.phone else p.phone,
      if q.address.Some? then q.address else p.address,
      if q.role.Some? then q.role else p.role,
      if q.isActive.Some? then q.isActive else p.isActive)
  }

  /** Merging nothing changes nothing, merging twice is merging once, and two merges
      in a row are one merge of the combined patch. */
  lemma MergeLaws(u: User, p: UserPatch, q: UserPatch)
    ensures Merge(u, NoChanges) == u
    ensures Merge(Merge(u, p), p) == Merge(u, p)
    ensures Merge(Merge(u, p), q) == Merge(u, Then(p, q))
  {
  }

  /** `updateUser`: with no user, nothing happens; otherwise the fields of the patch
      override the user's and the merged user replaces the stored one. */
  function UpdateUser(st: AuthState, s: Session, codec: UserCodec, p: UserPatch): (r: (AuthState, Session))
    ensures st.user.None? ==> r == (st, s)
    ensures st.user.Some? ==> r.0 == st.(user := Some(Merge(st.user.value, p)))
    ensures st.user.Some? ==> r.1 == s.(user := Some(codec.serialize(Merge(st.user.value, p))))
    ensures r.1.accessToken == s.accessToken && r.1.refreshToken == s.refreshToken
    ensures r.0.isLoading == st.isLoading
  {
    match st.user
    case None => (st, s)
    case Some(u) =>
      var merged := Merge(u, p);
      (st.(user := Some(merged)), s.(user := Some(codec.serialize(merged))))
  }

  /** After `updateUser` the store reads back exactly the user the context holds. */
  lemma UpdateUserKeepsStoreInStep(st: AuthState, s: Session, codec: UserCodec, p: UserPatch)
    requires Faithful(codec)
    requires st.user.Some?
    ensures var r := UpdateUser(st, s, codec, p);
      AuthService.GetCurrentUser(r.1, codec) == r.0.user
  {
    var m := Merge(st.user.value, p);
    assert codec.serialize(m) != "" && codec.parse(codec.serialize(m)) == Some(m);
  }

  /** A successful login leaves the context and the store agreeing that the user is
      authenticated, and on the same user. */
  lemma LoginAgreesWithStore(st: AuthState, s: Session, codec: UserCodec, env: Envelope<AuthResponse>)
    requires Faithful(codec)
    requires env.success && env.data.Some? && env.data.value.accessToken != ""
    ensures var r := Login(st, s, codec, Ok(env));
      && IsAuthenticated(r.state)
      && AuthService.IsAuthenticated(r.session, codec)
      && AuthService.GetCurrentUser(r.session, codec) == r.state.user
  {
    AuthService.LoginAuthenticates(s, codec, env);
  }

  /** A reply with data but `success = false` still sets the context's user, although
      the service wrote nothing to the store. */
  lemma UnsuccessfulReplyWithDataSetsUser(st: AuthState, s: Session, codec: UserCodec, m: string, a: AuthResponse)
    ensures var r := Login(st, s, codec, Ok(Envelope(false, m, Some(a))));
      r.state.user == Some(a.user) && r.session == s && r.completion == Done
  {
  }
}

=== FILE: auth_service.dfy ===
/** The session store operations of src/services/authService.ts: login and register
    persist the reply, logout clears, refresh rotates the access token, and the
    read-side queries answer "who is logged in" from the three stored keys. */
module AuthService {

  import opened Wrappers
  import opened Types
  import opened Api

  /** What an auth call leaves behind: the request it issued, the session after it,
      and `response.data` handed back to the caller (possibly missing). */
  datatype AuthCall = AuthCall(request: Request, session: Session, result: Result<Option<AuthResponse>, ApiError>)

  /** The session after a successful reply persists tokens and user. */
  function Persisted(codec: UserCodec, a: AuthResponse): Session {
    Session(Some(a.accessToken), Some(a.refreshToken), Some(codec.serialize(a.user)))
  }

  /** The common tail of `login` and `register`: the three keys are written only when
      the reply has `success` and carries data; the data is returned either way. */
  function PersistAuthReply(request: Request, s: Session, codec: UserCodec,
                            reply: Result<Envelope<AuthResponse>, ApiError>): (c: AuthCall)
    ensures c.request == request
    ensures reply.Err? ==> c.session == s && c.result == Err(reply.error)
    ensures reply.Ok? ==> c.result == Ok(reply.value.data)
    ensures reply.Ok? && reply.value.success && reply.value.data.Some? ==>
      var a := reply.value.data.value;
      && c.session.accessToken == Some(a.accessToken)
      && c.session.refreshToken == Some(a.refreshToken)
      && c.session.user == Some(codec.serialize(a.user))
    ensures !(reply.Ok? && reply.value.success && reply.value.data.Some?) ==> c.session == s
  {
    match reply
    case Err(e) => AuthCall(request, s, Err(e))
    case Ok(env) =>
      var s' := if env.success && env.data.Some? then Persisted(codec, env.data.value) else s;
      AuthCall(request, s', Ok(env.data))
  }

  /** `authService.register`: `POST /auth/register`, then persist the reply. */
  function Register(s: Session, codec: UserCodec, reply: Result<Envelope<AuthResponse>, ApiError>): (c: AuthCall)
    ensures c.request == Request(POST, "/auth/register")
  {
    PersistAuthReply(Request(POST, "/auth/register"), s, codec, reply)
  }

  /** `authService.login`: `POST /auth/login`, then persist the reply. */
  function Login(s: Session, codec: UserCodec, reply: Result<Envelope<AuthResponse>, ApiError>): (c: AuthCall)
    ensures c.request == Request(POST, "/auth/login")
  {
    PersistAuthReply(Request(POST, "/auth/login"), s, codec, reply)
  }

  /** `authService.logout`: no server call; the local keys are always removed. */
  function Logout(s: Session): (r: Session)
    ensures r.accessToken.None? && r.refreshToken.None? && r.user.None?
  {
    RemoveToken(s)
  }

  /** `authService.refreshToken`: on a successful reply with data, stores the new access
      token, and replaces the refresh token only when the reply carries a non-empty one.
      The stored user is never touched. */
  function RefreshToken(s: Session, reply: Result<Envelope<AuthResponse>, ApiError>): (c: AuthCall)
    ensures c.request == Request(POST, "/auth/refresh-token")
    ensures c.session.user == s.user
    ensures reply.Ok? && reply.value.success && reply.value.data.Some? ==>
      var a := reply.value.data.value;
      && c.session.accessToken == Some(a.accessToken)
      && c.session.refreshToken == (if a.refreshToken != "" then Some(a.refreshToken) else s.refreshToken)
    ensures !(reply.Ok? && reply.value.success && reply.value.data.Some?) ==> c.session == s
    ensures reply.Ok? ==> c.result == Ok(reply.value.data)
  {
    var request := Request(POST, "/auth/refresh-token");
    match reply
    case Err(e) => AuthCall(request, s, Err(e))
    case Ok(env) =>
      if env.success && env.data.Some? then
        var a := env.data.value;
        var s1 := SetToken(s, a.accessToken);
        var s2 := if a.refreshToken != "" then SetRefreshToken(s1, a.refreshToken) else s1;
        AuthCall(request, s2, Ok(env.data))
      else AuthCall(request, s, Ok(env.data))
  }

  /** `getCurrentUser`: the parsed stored user; a missing or empty key and an
      unparseable value both give no user, and nothing is thrown. */
  function GetCurrentUser(s: Session, codec: UserCodec): (u: Option<User>)
    ensures !Truthy(s.user) ==> u.None?
    ensures Truthy(s.user) ==> u == codec.parse(s.user.value)
    ensures Truthy(s.user) && codec.parse(s.user.value).None? ==> u.None?
  {
    if Truthy(s.user) then codec.parse(s.user.value) else None
  }

  /** `isAuthenticated`: a non-empty access token and a readable stored user. */
  predicate IsAuthenticated(s: Session, codec: UserCodec) {
    Truthy(s.accessToken) && GetCurrentUser(s, codec).Some?
  }

  /** `hasRole`: the stored user's role is spelt `role`; false without a user. */
  function HasRole(s: Session, codec: UserCodec, role: string): (b: bool)
    ensures GetCurrentUser(s, codec).None? ==> !b
    ensures b <==> GetCurrentUser(s, codec).Some? && RoleName(GetCurrentUser(s, codec).value.role) == role
  {
    match GetCurrentUser(s, codec)
    case None => false
    case Some(u) => RoleName(u.role) == role
  }

  /** `isAdmin`: exactly when the stored user has the Admin role. */
  function IsAdmin(s: Session, codec: UserCodec): (b: bool)
    ensures b <==> GetCurrentUser(s, codec).Some? && GetCurrentUser(s, codec).value.role == AdminRole
  {
    HasRole(s, codec, "Admin")
  }

  /** After a successful login whose access token is non-empty, the store reports the
      session as authenticated and reads back the logged-in user. */
  lemma LoginAuthenticates(s: Session, codec: UserCodec, env: Envelope<AuthResponse>)
    requires Faithful(codec)
    requires env.success && env.data.Some? && env.data.value.accessToken != ""
    ensures var c := Login(s, codec, Ok(env));
      && IsAuthenticated(c.session, codec)
      && GetCurrentUser(c.session, codec) == Some(env.data.value.user)
  {
    var u := env.data.value.user;
    assert codec.serialize(u) != "" && codec.parse(codec.serialize(u)) == Some(u);
  }

  /** A login the server refuses (a rejected call or `success = false`) makes the service
      write nothing; what the interceptor did on the way is not part of this reply. */
  lemma RefusedLoginKeepsStore(s: Session, codec: UserCodec, reply: Result<Envelope<AuthResponse>, ApiError>)
    requires reply.Err? || !reply.value.success
    ensures Login(s, codec, reply).session == s
    ensures Register(s, codec, reply).session == s
  {
  }

  /** After logout nobody is authenticated, no user is read, and no role holds. */
  lemma LogoutEndsSession(s: Session, codec: UserCodec, role: string)
    ensures !IsAuthenticated(Logout(s), codec)
    ensures GetCurrentUser(Logout(s), codec).None?
    ensures !HasRole(Logout(s), codec, role)
  {
  }

  /** Refreshing the token never changes who is logged in. */
  lemma RefreshKeepsUser(s: Session, codec: UserCodec, reply: Result<Envelope<AuthResponse>, ApiError>)
    ensures GetCurrentUser(RefreshToken(s, reply).session, codec) == GetCurrentUser(s, codec)
  {
  }
}

=== FILE: cart_context.dfy ===
/** The cart context (src/contexts/CartContext.tsx): the locally held cart snapshot
    and loading flag, and how each operation moves them given the authentication
    flag and the server's replies. Toasts are returned as `Notice` values. */
module CartContext {

  import opened Wrappers
  import opened Types
  import CartService
  import AuthContext

  datatype CartState = CartState(cart: Option<Cart>, isLoading: bool)

  /** The state on mount: no cart, not loading. */
  const Initial := CartState(None, false)

  /** `cart?.totalItems || 0`: the server-reported count, or 0 without a cart. */
  function ItemCount(st: CartState): (n: int)
    ensures st.cart.None? ==> n == 0
    ensures st.cart.Some? ==> n == st.cart.value.totalItems
  {
    if st.cart.Some? then st.cart.value.totalItems else 0
  }

  /** The service's `getCartItemCount` and the context's badge read the same figure: after
      a refresh from the same fetch, the badge shows what the service would return. */
  lemma BadgeAgreesWithService(st: CartState, fetched: Result<Cart, ApiError>, c: Cart, loading: bool)
    ensures ItemCount(RefreshCart(st, true, fetched).state) == CartService.GetCartItemCount(fetched)
    ensures ItemCount(CartState(Some(c), loading)) == CartService.GetCartItemCount(Ok(c))
  {
  }

  /** `cart?.total || 0`: the server-reported total, or 0 without a cart. */
  function Total(st: CartState): (t: int)
    ensures st.cart.None? ==> t == 0
    ensures st.cart.Some? ==> t == st.cart.value.total
  {
    if st.cart.Some? then st.cart.value.total else 0
  }

  /** The calls an operation makes on the cart service. */
  datatype CartCall = GetCart | PostCart(payload: CartUpdateRequest)

  datatype Completion = Done | Raised(error: ApiError)

  datatype CartStep = CartStep(state: CartState, completion: Completion, notices: seq<Notice>, calls: seq<CartCall>)

  function CallsOf(m: CartService.Mutation): seq<CartCall> {
    [GetCart] + (if m.posted.Some? then [PostCart(m.posted.value)] else [])
  }

  function ErrorNotice(e: ApiError, fallback: string): Notice {
    Notice("Error", MessageOr(e, fallback), true)
  }

  /** `refreshCart`: when authenticated, the snapshot becomes the fetched cart, or no
      cart when the fetch fails for any reason (a 404 included). */
  function RefreshCart(st: CartState, isAuthenticated: bool, fetched: Result<Cart, ApiError>): (r: CartStep)
    ensures r.completion == Done && r.notices == []
    ensures !isAuthenticated ==> r.state == st && r.calls == []
    ensures isAuthenticated ==> !r.state.isLoading && r.calls == [GetCart]
    ensures isAuthenticated && fetched.Ok? ==> r.state.cart == Some(fetched.value)
    ensures isAuthenticated && fetched.Err? ==> r.state.cart.None?
  {
    if !isAuthenticated then CartStep(st, Done, [], [])
    else
      var cart := if fetched.Ok? then Some(fetched.value) else None;
      CartStep(CartState(cart, false), Done, [], [GetCart])
  }

  /** The effect on `[isAuthenticated, user]`: load the cart for a logged-in user,
      otherwise drop the snapshot. */
  function OnAuthChange(st: CartState, isAuthenticated: bool, user: Option<User>, fetched: Result<Cart, ApiError>): (r: CartStep)
    ensures !(isAuthenticated && user.Some?) ==> r.state.cart.None? && r.calls == []
    ensures isAuthenticated && user.Some? ==> r == RefreshCart(st, isAuthenticated, fetched)
  {
    if isAuthenticated && user.Some? then RefreshCart(st, isAuthenticated, fetched)
    else CartStep(st.(cart := None), Done, [], [])
  }

  /** Logging out in the authentication context drops the cart on the next effect run. */
  lemma LoggedOutMeansNoCart(st: CartState, auth: AuthContext.AuthState, fetched: Result<Cart, ApiError>)
    requires auth.user.None?
    ensures OnAuthChange(st, AuthContext.IsAuthenticated(auth), auth.user, fetched).state.cart.None?
  {
  }

  /** `addToCart` of the context; the caller's default quantity is 1 (`AddOne`). */
  function AddToCart(st: CartState, isAuthenticated: bool, productId: int, quantity: int,
                     server: CartService.Server): (r: CartStep)
    ensures !isAuthenticated ==> r.state == st && r.calls == [] && r.completion == Done
    ensures !isAuthenticated ==> r.notices == [Notice("Inicia sesión", "Debes iniciar sesión para agregar productos al carrito.", true)]
    ensures isAuthenticated ==> !r.state.isLoading
    ensures isAuthenticated ==> r.calls == [GetCart, PostCart(CartService.AddToCartRequest(server.fetch, productId, quantity))]
    ensures isAuthenticated ==> match CartService.AddToCart(server, productId, quantity).result
      case Ok(c) => r.state.cart == Some(c) && r.completion == Done
      case Err(e) => r.state.cart == st.cart && r.completion == Raised(e)
  {
    if !isAuthenticated then
      CartStep(st, Done, [Notice("Inicia sesión", "Debes iniciar sesión para agregar productos al carrito.", true)], [])
    else
      var m := CartService.AddToCart(server, productId, quantity);
      match m.result
      case Ok(c) =>
        CartStep(CartState(Some(c), false), Done,
                 [Notice("Producto agregado", "El producto ha sido agregado al carrito.", false)], CallsOf(m))
      case Err(e) =>
        CartStep(st.(isLoading := false), Raised(e),
                 [ErrorNotice(e, "Error al agregar producto al carrito")], CallsOf(m))
  }

  /** `addToCart(productId)` with the quantity left out. */
  function AddOne(st: CartState, isAuthenticated: bool, productId: int, server: CartService.Server): (r: CartStep)
    ensures isAuthenticated ==> r.calls == [GetCart, PostCart(CartService.AddToCartRequest(server.fetch, productId, 1))]
  {
    AddToCart(st, isAuthenticated, productId, 1, server)
  }

  /** `removeFromCart` of the context: post the removal, then refetch the cart; the
      snapshot becomes the refetched cart, or none if the refetch fails. */
  function RemoveFromCart(st: CartState, isAuthenticated: bool, productId: int,
                          server: CartService.Server, refetch: Result<Cart, ApiError>): (r: CartStep)
    ensures !isAuthenticated ==> r == CartStep(st, Done, [], [])
    ensures isAuthenticated ==> !r.state.isLoading
    ensures isAuthenticated && server.fetch.Ok? ==>
      |r.calls| >= 2 && r.calls[..2] == [GetCart, PostCart(CartService.RemoveRequest(server.fetch.value, productId))]
    ensures isAuthenticated ==> match CartService.RemoveFromCart(server, productId).result
      case Ok(_) => r.completion == Done && |r.calls| == 3 && r.calls[2] == GetCart
        && r.state.cart == (if refetch.Ok? then Some(refetch.value) else None)
      case Err(e) => r.completion == Raised(e) && r.state.cart == st.cart
  {
    if !isAuthenticated then CartStep(st, Done, [], [])
    else
      var m := CartService.RemoveFromCart(server, productId);
      match m.result
      case Err(e) =>
        CartStep(st.(isLoading := false), Raised(e), [ErrorNotice(e, "Error al eliminar producto")], CallsOf(m))
      case Ok(_) =>
        var refreshed := RefreshCart(st.(isLoading := true), isAuthenticated, refetch);
        CartStep(refreshed.state.(isLoading := false), Done,
                 [Notice("Producto eliminado", "El producto ha sido eliminado del carrito.", false)],
                 CallsOf(m) + refreshed.calls)
  }

  /** `updateQuantity` of the context. Nothing happens without authentication or a
      cart; a quantity of zero or less is handed to `removeFromCart`, whose failure is
      reported a second time before being re-raised. */
  function UpdateQuantity(st: CartState, isAuthenticated: bool, productId: int, quantity: int,
                          server: CartService.Server, refetch: Result<Cart, ApiError>): (r: CartStep)
    ensures !isAuthenticated || st.cart.None? ==> r == CartStep(st, Done, [], [])
    ensures isAuthenticated && st.cart.Some? ==> !r.state.isLoading
    ensures isAuthenticated && st.cart.Some? && quantity <= 0 ==>
      var d := RemoveFromCart(st, isAuthenticated, productId, server, refetch);
      r.state == d.state && r.completion == d.completion && r.calls == d.calls
    ensures isAuthenticated && st.cart.Some? && quantity > 0 ==>
      match CartService.UpdateItemQuantity(server, productId, quantity).result
      case Ok(c) => r.state.cart == Some(c) && r.completion == Done
      case Err(e) => r.state.cart == st.cart && r.completion == Raised(e)
  {
    if !isAuthenticated || st.cart.None? then CartStep(st, Done, [], [])
    else if quantity <= 0 then
      var d := RemoveFromCart(st, isAuthenticated, productId, server, refetch);
      match d.completion
      case Done => d
      case Raised(e) =>
        CartStep(d.state, Raised(e), d.notices + [ErrorNotice(e, "Error al actualizar cantidad")], d.calls)
    else
      var m := CartService.UpdateItemQuantity(server, productId, quantity);
      match m.result
      case Ok(c) => CartStep(CartState(Some(c), false), Done, [], CallsOf(m))
      case Err(e) =>
        CartStep(st.(isLoading := false), Raised(e), [ErrorNotice(e, "Error al actualizar cantidad")], CallsOf(m))
  }

  /** `clearCart` of the context: on success the snapshot is dropped. */
  function ClearCart(st: CartState, isAuthenticated: bool, server: CartService.Server): (r: CartStep)
    ensures !isAuthenticated ==> r == CartStep(st, Done, [], [])
    ensures isAuthenticated ==> !r.state.isLoading
    ensures isAuthenticated && server.fetch.Ok? ==>
      r.calls == [GetCart, PostCart(CartService.ClearRequest(server.fetch.value))]
    ensures isAuthenticated ==> match CartService.ClearCart(server).result
      case Ok(_) => r.state.cart.None? && r.completion == Done
      case Err(e) => r.state.cart == st.cart && r.completion == Raised(e)
  {
    if !isAuthenticated then CartStep(st, Done, [], [])
    else
      var m := CartService.ClearCart(server);
      match m.result
      case Ok(_) =>
        CartStep(CartState(None, false), Done,
                 [Notice("Carrito limpiado", "Todos los productos han sido eliminados del carrito.", false)], CallsOf(m))
      case Err(e) =>
        CartStep(st.(isLoading := false), Raised(e), [ErrorNotice(e, "Error al limpiar carrito")], CallsOf(m))
  }

  /** Every mutation that fails re-raises and leaves the snapshot where it was. */
  lemma FailureKeepsSnapshot(st: CartState, productId: int, quantity: int,
                             server: CartService.Server, refetch: Result<Cart, ApiError>)
    ensures AddToCart(st, true, productId, quantity, server).completion.Raised? ==>
      AddToCart(st, true, productId, quantity, server).state.cart == st.cart
    ensures UpdateQuantity(st, true, productId, quantity, server, refetch).completion.Raised? ==>
      UpdateQuantity(st, true, productId, quantity, server, refetch).state.cart == st.cart
    ensures RemoveFromCart(st, true, productId, server, refetch).completion.Raised? ==>
      RemoveFromCart(st, true, productId, server, refetch).state.cart == st.cart
    ensures ClearCart(st, true, server).completion.Raised? ==> ClearCart(st, true, server).state.cart == st.cart
  {
    AddFailureKeepsSnapshot(st, productId, quantity, server);
    UpdateFailureKeepsSnapshot(st, productId, quantity, server, refetch);
    RemoveFailureKeepsSnapshot(st, productId, server, refetch);
  }

  lemma AddFailureKeepsSnapshot(st: CartState, productId: int, quantity: int, server: CartService.Server)
    ensures AddToCart(st, true, productId, quantity, server).completion.Raised? ==>
      AddToCart(st, true, productId, quantity, server).state.cart == st.cart
  {
    match CartService.AddToCart(server, productId, quantity).result
    case Ok(_) =>
    case Err(_) =>
  }

  lemma UpdateFailureKeepsSnapshot(st: CartState, productId: int, quantity: int,
                                   server: CartService.Server, refetch: Result<Cart, ApiError>)
    ensures UpdateQuantity(st, true, productId, quantity, server, refetch).completion.Raised? ==>
      UpdateQuantity(st, true, productId, quantity, server, refetch).state.cart == st.cart
  {
    if st.cart.Some? && quantity <= 0 {
      RemoveFailureKeepsSnapshot(st, productId, server, refetch);
    }
  }

  lemma RemoveFailureKeepsSnapshot(st: CartState, productId: int,
                                   server: CartService.Server, refetch: Result<Cart, ApiError>)
    ensures RemoveFromCart(st, true, productId, server, refetch).completion.Raised? ==>
      RemoveFromCart(st, true, productId, server, refetch).state.cart == st.cart
  {
    match CartService.RemoveFromCart(server, productId).result
    case Ok(_) =>
    case Err(_) =>
  }

  /** After a successful add or update the displayed count and total are the ones the
      server reported for the cart it returned, never a locally derived value. */
  lemma DisplayedFiguresAreServers(st: CartState, productId: int, quantity: int, server: CartService.Server,
                                   refetch: Result<Cart, ApiError>, c: Cart)
    requires st.cart.Some? && quantity > 0
    requires server.fetch.Ok? && server.post(CartService.UpdateRequest(server.fetch.value, productId, quantity)) == Ok(c)
    ensures var r := UpdateQuantity(st, true, productId, quantity, server, refetch);
      ItemCount(r.state) == c.totalItems && Total(r.state) == c.total
  {
  }

  /** With every quantity in the fetched cart positive, setting a product to 0 through
      the context posts exactly the payload the service's `updateItemQuantity(p, 0)` would. */
  lemma UpdateToZeroPostsUpdatePayload(st: CartState, productId: int, server: CartService.Server,
                                       refetch: Result<Cart, ApiError>)
    requires st.cart.Some? && server.fetch.Ok?
    requires forall i :: 0 <= i < |server.fetch.value.items| ==> server.fetch.value.items[i].quantity > 0
    ensures var r := UpdateQuantity(st, true, productId, 0, server, refetch);
      |r.calls| >= 2 && r.calls[1] == PostCart(CartService.UpdateRequest(server.fetch.value, productId, 0))
  {
    CartService.UpdateToZeroIsRemove(server.fetch.value.items, productId, 0);
  }
}

=== FILE: cart_service.dfy ===
/** The cart payload builders of src/services/cartService.ts. Every mutation reads the
    server cart, rewrites its item list into a full-replace payload, and posts it back.
    The builders are pure functions of the fetched cart; the calls themselves take the
    server's replies as inputs. */
module CartService {

  import opened Wrappers
  import opened Types
  import opened Sequences

  /** A cart line as posted: the item's product, quantity and unit price. */
  function ToLine(item: CartItem): CartLine {
    CartLine(item.productId, item.quantity, item.unitPrice)
  }

  /** The items as payload lines, one per item, in order. */
  function Lines(items: seq<CartItem>): (ls: seq<CartLine>)
    ensures |ls| == |items|
    ensures forall i :: 0 <= i < |items| ==> ls[i] == ToLine(items[i])
  {
    seq(|items|, i requires 0 <= i < |items| => ToLine(items[i]))
  }

  /** The products of a payload, in order. */
  function ProductIds(ls: seq<CartLine>): seq<int> {
    if ls == [] then [] else [ls[0].productId] + ProductIds(ls[1..])
  }

  /** `items.reduce((sum, item) => sum + item.price * item.quantity, 0)`. */
  function LinesTotal(ls: seq<CartLine>): int {
    if ls == [] then 0
    else LinesTotal(ls[..|ls| - 1]) + ls[|ls| - 1].price * ls[|ls| - 1].quantity
  }

  /** The total is additive over concatenation. */
  lemma {:induction false} LinesTotalAppend(a: seq<CartLine>, b: seq<CartLine>)
    ensures LinesTotal(a + b) == LinesTotal(a) + LinesTotal(b)
    decreases |b|
  {
    if b == [] {
      assert a + b == a;
    } else {
      assert (a + b)[..|a + b| - 1] == a + b[..|b| - 1];
      LinesTotalAppend(a, b[..|b| - 1]);
    }
  }

  /** `calculateCartTotal`: Σ quantity × unitPrice over the items, left to right. */
  function CalculateCartTotal(items: seq<CartItem>): int {
    if items == [] then 0
    else CalculateCartTotal(items[..|items| - 1]) + items[|items| - 1].quantity * items[|items| - 1].unitPrice
  }

  /** `calculateCartTotal` is 0 on no items and additive over concatenation. */
  lemma {:induction false} CalculateCartTotalAppend(a: seq<CartItem>, b: seq<CartItem>)
    ensures CalculateCartTotal([]) == 0
    ensures CalculateCartTotal(a + b) == CalculateCartTotal(a) + CalculateCartTotal(b)
    decreases |b|
  {
    if b == [] {
      assert a + b == a;
    } else {
      assert (a + b)[..|a + b| - 1] == a + b[..|b| - 1];
      CalculateCartTotalAppend(a, b[..|b| - 1]);
    }
  }

  /** The payload total of a cart's own lines is the cart total `calculateCartTotal` computes. */
  lemma {:induction false} LinesTotalOfItems(items: seq<CartItem>)
    ensures LinesTotal(Lines(items)) == CalculateCartTotal(items)
    decreases |items|
  {
    if items != [] {
      assert Lines(items)[..|items| - 1] == Lines(items[..|items| - 1]);
      LinesTotalOfItems(items[..|items| - 1]);
    }
  }

  /** `items.findIndex(item => item.productId === productId)`. */
  function FindIndex(items: seq<CartItem>, productId: int): (k: int)
    ensures -1 <= k < |items|
    ensures k >= 0 ==> items[k].productId == productId
    ensures k >= 0 ==> forall j :: 0 <= j < k ==> items[j].productId != productId
    ensures k == -1 ==> forall j :: 0 <= j < |items| ==> items[j].productId != productId
  {
    if items == [] then -1
    else if items[0].productId == productId then 0
    else
      var k := FindIndex(items[1..], productId);
      if k == -1 then -1 else k + 1
  }

  /** The lines `addToCart` posts: the first line of the product grows by `quantity`,
      or, when the product is absent, a new line with price 0 is appended. */
  function AddLines(items: seq<CartItem>, productId: int, quantity: int): (ls: seq<CartLine>)
    ensures FindIndex(items, productId) >= 0 ==>
      && |ls| == |items|
      && (forall i :: 0 <= i < |items| ==> ls[i].productId == items[i].productId && ls[i].price == items[i].unitPrice)
      && (forall i :: 0 <= i < |items| && i != FindIndex(items, productId) ==> ls[i].quantity == items[i].quantity)
      && ls[FindIndex(items, productId)].quantity == items[FindIndex(items, productId)].quantity + quantity
    ensures FindIndex(items, productId) == -1 ==> ls == Lines(items) + [CartLine(productId, quantity, 0)]
  {
    var k := FindIndex(items, productId);
    if k >= 0 then
      seq(|items|, i requires 0 <= i < |items| =>
        if i == k then CartLine(items[i].productId, items[i].quantity + quantity, items[i].unitPrice)
        else ToLine(items[i]))
    else Lines(items) + [CartLine(productId, quantity, 0)]
  }

  /** The cart `addToCart` falls back to when the cart cannot be fetched. */
  const EmptyCart := Cart(0, 0, [], 0, 0)

  /** The payload of `addToCart`. */
  function AddToCartRequest(fetched: Result<Cart, ApiError>, productId: int, quantity: int): (r: CartUpdateRequest)
    ensures fetched.Ok? ==> r.id == fetched.value.id && r.userId == fetched.value.userId
    ensures fetched.Ok? ==> r.items == AddLines(fetched.value.items, productId, quantity)
    ensures fetched.Err? ==> r == CartUpdateRequest(0, 0, [CartLine(productId, quantity, 0)], 0)
    ensures r.total == LinesTotal(r.items)
  {
    var cart := if fetched.Ok? then fetched.value else EmptyCart;
    var ls := AddLines(cart.items, productId, quantity);
    assert fetched.Err? ==> ls == [CartLine(productId, quantity, 0)] && ls[..0] == [] && LinesTotal(ls) == 0;
    CartUpdateRequest(cart.id, cart.userId, ls, LinesTotal(ls))
  }

  /** Number of lines for `productId`. */
  function Occurrences(ls: seq<CartLine>, productId: int): nat {
    if ls == [] then 0
    else (if ls[0].productId == productId then 1 else 0) + Occurrences(ls[1..], productId)
  }

  /** Sum of the quantities of a payload. */
  function QuantitySum(ls: seq<CartLine>): int {
    if ls == [] then 0 else ls[0].quantity + QuantitySum(ls[1..])
  }

  lemma {:induction false} QuantitySumAppend(a: seq<CartLine>, b: seq<CartLine>)
    ensures QuantitySum(a + b) == QuantitySum(a) + QuantitySum(b)
    decreases |a|
  {
    if a == [] {
      assert a + b == b;
    } else {
      assert (a + b)[1..] == a[1..] + b;
      QuantitySumAppend(a[1..], b);
    }
  }

  /** Two payloads that differ only at position `k` differ in quantity sum by the
      difference at `k`. */
  lemma {:induction false} QuantitySumPointChange(a: seq<CartLine>, b: seq<CartLine>, k: int)
    requires |a| == |b| && 0 <= k < |a|
    requires forall i :: 0 <= i < |a| && i != k ==> a[i].quantity == b[i].quantity
    ensures QuantitySum(b) == QuantitySum(a) + (b[k].quantity - a[k].quantity)
    decreases |a|
  {
    if k > 0 {
      QuantitySumPointChange(a[1..], b[1..], k - 1);
    } else {
      QuantitySumSame(a[1..], b[1..]);
    }
  }

  lemma {:induction false} QuantitySumSame(a: seq<CartLine>, b: seq<CartLine>)
    requires |a| == |b|
    requires forall i :: 0 <= i < |a| ==> a[i].quantity == b[i].quantity
    ensures QuantitySum(a) == QuantitySum(b)
    decreases |a|
  {
    if a != [] {
      QuantitySumSame(a[1..], b[1..]);
    }
  }

  /** Adding `quantity` of a product raises the posted quantity sum by exactly `quantity`,
      whether the product was in the cart or not. */
  lemma AddRaisesQuantityBy(items: seq<CartItem>, productId: int, quantity: int)
    ensures QuantitySum(AddLines(items, productId, quantity)) == QuantitySum(Lines(items)) + quantity
  {
    var k := FindIndex(items, productId);
    if k >= 0 {
      QuantitySumPointChange(Lines(items), AddLines(items, productId, quantity), k);
    } else {
      QuantitySumAppend(Lines(items), [CartLine(productId, quantity, 0)]);
    }
  }

  lemma {:induction false} OccurrencesOfLines(items: seq<CartItem>, ls: seq<CartLine>, productId: int)
    requires |ls| == |items|
    requires forall i :: 0 <= i < |items| ==> ls[i].productId == items[i].productId
    ensures Occurrences(ls, productId) == Occurrences(Lines(items), productId)
    decreases |items|
  {
    if items != [] {
      assert Lines(items)[1..] == Lines(items[1..]);
      OccurrencesOfLines(items[1..], ls[1..], productId);
    }
  }

  lemma {:induction false} OccurrencesAppend(a: seq<CartLine>, b: seq<CartLine>, productId: int)
    ensures Occurrences(a + b, productId) == Occurrences(a, productId) + Occurrences(b, productId)
    decreases |a|
  {
    if a == [] {
      assert a + b == b;
    } else {
      assert (a + b)[1..] == a[1..] + b;
      OccurrencesAppend(a[1..], b, productId);
    }
  }

  lemma {:induction false} NoOccurrences(items: seq<CartItem>, productId: int)
    requires forall j :: 0 <= j < |items| ==> items[j].productId != productId
    ensures Occurrences(Lines(items), productId) == 0
    decreases |items|
  {
    if items != [] {
      assert Lines(items)[1..] == Lines(items[1..]);
      NoOccurrences(items[1..], productId);
    }
  }

  /** Adding a product already in the cart never creates a second line for it, and
      adding an absent one creates exactly one: repeated adds merge into one line. */
  lemma AddNeverDuplicates(items: seq<CartItem>, productId: int, quantity: int)
    ensures var n := Occurrences(Lines(items), productId);
      Occurrences(AddLines(items, productId, quantity), productId) == (if n == 0 then 1 else n)
  {
    var k := FindIndex(items, productId);
    var ls := AddLines(items, productId, quantity);
    if k >= 0 {
      OccurrencesOfLines(items, ls, productId);
      assert Lines(items)[k] == ToLine(items[k]);
      OccurrencesPositive(Lines(items), k, productId);
    } else {
      NoOccurrences(items, productId);
      OccurrencesAppend(Lines(items), [CartLine(productId, quantity, 0)], productId);
    }
  }

  lemma {:induction false} OccurrencesPositive(ls: seq<CartLine>, k: int, productId: int)
    requires 0 <= k < |ls| && ls[k].productId == productId
    ensures Occurrences(ls, productId) > 0
    decreases |ls|
  {
    if k > 0 {
      OccurrencesPositive(ls[1..], k - 1, productId);
    }
  }

  /** The quantity of a product's line replaced by `quantity`; other lines as they are. */
  function Retarget(items: seq<CartItem>, productId: int, quantity: int): (ls: seq<CartLine>)
    ensures |ls| == |items|
    ensures forall i :: 0 <= i < |items| ==>
      && ls[i].productId == items[i].productId
      && ls[i].price == items[i].unitPrice
      && ls[i].quantity == (if items[i].productId == productId then quantity else items[i].quantity)
  {
    seq(|items|, i requires 0 <= i < |items| =>
      CartLine(items[i].productId, if items[i].productId == productId then quantity else items[i].quantity, items[i].unitPrice))
  }

  /** `filter(item => item.quantity > 0)`. */
  function KeepPositive(ls: seq<CartLine>): (r: seq<CartLine>)
    ensures Subseq(r, ls)
    ensures forall x :: x in r ==> x in ls && x.quantity > 0
    ensures forall x :: x in ls && x.quantity > 0 ==> x in r
  {
    if ls == [] then []
    else
      var rest := KeepPositive(ls[1..]);
      assert ls == [ls[0]] + ls[1..];
      if ls[0].quantity > 0 then
        SubseqCons(ls[0], rest, ls[1..]);
        [ls[0]] + rest
      else
        SubseqSkip(ls[0], rest, ls[1..]);
        rest
  }

  /** The lines `updateItemQuantity` posts: map, then drop every line that is not positive. */
  function UpdateLines(items: seq<CartItem>, productId: int, quantity: int): (ls: seq<CartLine>)
    ensures Subseq(ls, Retarget(items, productId, quantity))
    ensures forall x :: x in ls ==> x.quantity > 0
    ensures forall i :: 0 <= i < |items| && items[i].productId == productId && quantity > 0 ==>
      CartLine(productId, quantity, items[i].unitPrice) in ls
    ensures forall i :: 0 <= i < |items| && items[i].productId != productId && items[i].quantity > 0 ==>
      ToLine(items[i]) in ls
    ensures forall x :: x in ls && x.productId == productId ==> x.quantity == quantity
  {
    var mapped := Retarget(items, productId, quantity);
    assert forall i :: 0 <= i < |items| ==> mapped[i] in mapped;
    KeepPositive(mapped)
  }

  lemma {:induction false} SubseqProductIds(a: seq<CartLine>, b: seq<CartLine>)
    requires Subseq(a, b)
    ensures Subseq(ProductIds(a), ProductIds(b))
    decreases |b|
  {
    if a != [] {
      if a[0] == b[0] && Subseq(a[1..], b[1..]) {
        SubseqProductIds(a[1..], b[1..]);
        SubseqCons(a[0].productId, ProductIds(a[1..]), ProductIds(b[1..]));
      } else {
        SubseqProductIds(a, b[1..]);
        SubseqSkip(b[0].productId, ProductIds(a), ProductIds(b[1..]));
      }
    }
  }

  lemma {:induction false} SameProductIds(a: seq<CartLine>, b: seq<CartLine>)
    requires |a| == |b|
    requires forall i :: 0 <= i < |a| ==> a[i].productId == b[i].productId
    ensures ProductIds(a) == ProductIds(b)
    decreases |a|
  {
    if a != [] {
      SameProductIds(a[1..], b[1..]);
    }
  }

  /** `updateItemQuantity` never adds a product: the posted products are a sub-sequence
      of the cart's, in the cart's order. */
  lemma UpdateNeverAddsLine(items: seq<CartItem>, productId: int, quantity: int)
    ensures Subseq(ProductIds(UpdateLines(items, productId, quantity)), ProductIds(Lines(items)))
  {
    SubseqProductIds(UpdateLines(items, productId, quantity), Retarget(items, productId, quantity));
    SameProductIds(Retarget(items, productId, quantity), Lines(items));
  }

  /** `filter(item => item.productId !== productId)` on the server items. */
  function Without(items: seq<CartItem>, productId: int): (r: seq<CartItem>)
    ensures Subseq(r, items)
    ensures forall x :: x in r <==> x in items && x.productId != productId
  {
    if items == [] then []
    else
      var rest := Without(items[1..], productId);
      assert items == [items[0]] + items[1..];
      if items[0].productId != productId then
        SubseqCons(items[0], rest, items[1..]);
        [items[0]] + rest
      else
        SubseqSkip(items[0], rest, items[1..]);
        rest
  }

  /** The lines `removeFromCart` posts: the product's lines gone, every other line kept
      with its quantity, as often as it occurs and in the cart's order. */
  function RemoveLines(items: seq<CartItem>, productId: int): (ls: seq<CartLine>)
    ensures forall x :: x in ls ==> x.productId != productId
    ensures forall i :: 0 <= i < |items| && items[i].productId != productId ==> ToLine(items[i]) in ls
  {
    var kept := Without(items, productId);
    assert forall i :: 0 <= i < |items| && items[i].productId != productId ==> items[i] in kept;
    Lines(kept)
  }

  /** The filter keeps every positive line as often as it occurs and drops the rest; with
      the order kept, this determines the result. */
  lemma {:induction false} KeepPositiveCounts(ls: seq<CartLine>)
    ensures Subseq(KeepPositive(ls), ls)
    ensures forall x :: multiset(KeepPositive(ls))[x] == if x.quantity > 0 then multiset(ls)[x] else 0
    decreases |ls|
  {
    if ls != [] {
      KeepPositiveCounts(ls[1..]);
      assert ls == [ls[0]] + ls[1..];
    }
  }

  /** The filter keeps every item of another product as often as it occurs and drops the
      product's own; with the order kept, this determines the result. */
  lemma {:induction false} WithoutCounts(items: seq<CartItem>, productId: int)
    ensures Subseq(Without(items, productId), items)
    ensures forall x :: multiset(Without(items, productId))[x]
                        == if x.productId != productId then multiset(items)[x] else 0
    decreases |items|
  {
    if items != [] {
      WithoutCounts(items[1..], productId);
      assert items == [items[0]] + items[1..];
    }
  }

  /** The posted lines of a removal are the cart's lines with the product's taken out:
      every other line kept with its quantity, as often as it occurs, in order. */
  lemma {:induction false} RemoveLinesKeepsOthers(items: seq<CartItem>, productId: int)
    ensures Subseq(RemoveLines(items, productId), Lines(items))
    ensures forall x :: multiset(RemoveLines(items, productId))[x]
                        == if x.productId != productId then multiset(Lines(items))[x] else 0
    decreases |items|
  {
    if items != [] {
      var rest := Without(items[1..], productId);
      RemoveLinesKeepsOthers(items[1..], productId);
      assert RemoveLines(items[1..], productId) == Lines(rest);
      assert items == [items[0]] + items[1..];
      LinesCons(items[0], items[1..]);
      if items[0].productId != productId {
        assert Without(items, productId) == [items[0]] + rest;
        LinesCons(items[0], rest);
        SubseqCons(ToLine(items[0]), Lines(rest), Lines(items[1..]));
      } else {
        assert Without(items, productId) == rest;
        SubseqSkip(ToLine(items[0]), Lines(rest), Lines(items[1..]));
      }
    } else {
      SubseqRefl<CartLine>([]);
    }
  }

  /** Removing is idempotent, and removing an absent product changes nothing. */
  lemma {:induction false} WithoutLaws(items: seq<CartItem>, productId: int)
    ensures Without(Without(items, productId), productId) == Without(items, productId)
    ensures (forall i :: 0 <= i < |items| ==> items[i].productId != productId) ==>
      Without(items, productId) == items && RemoveLines(items, productId) == Lines(items)
    decreases |items|
  {
    if items != [] {
      WithoutLaws(items[1..], productId);
    }
  }

  lemma {:induction false} LinesCons(x: CartItem, rest: seq<CartItem>)
    ensures Lines([x] + rest) == [ToLine(x)] + Lines(rest)
  {
    assert Lines([x] + rest)[1..] == Lines(rest);
  }

  /** When every quantity in the cart is positive, setting a product's quantity to zero
      or below posts exactly the lines that removing it posts. */
  lemma {:induction false} UpdateToZeroIsRemove(items: seq<CartItem>, productId: int, quantity: int)
    requires quantity <= 0
    requires forall i :: 0 <= i < |items| ==> items[i].quantity > 0
    ensures UpdateLines(items, productId, quantity) == RemoveLines(items, productId)
    decreases |items|
  {
    if items != [] {
      var mapped := Retarget(items, productId, quantity);
      assert mapped[1..] == Retarget(items[1..], productId, quantity);
      UpdateToZeroIsRemove(items[1..], productId, quantity);
      if items[0].productId != productId {
        LinesCons(items[0], Without(items[1..], productId));
      }
    }
  }

  /** The payload of `updateItemQuantity`. */
  function UpdateRequest(cart: Cart, productId: int, quantity: int): (r: CartUpdateRequest)
    ensures r.id == cart.id && r.userId == cart.userId
    ensures r.items == UpdateLines(cart.items, productId, quantity)
    ensures r.total == LinesTotal(r.items)
  {
    var ls := UpdateLines(cart.items, productId, quantity);
    CartUpdateRequest(cart.id, cart.userId, ls, LinesTotal(ls))
  }

  /** The payload of `removeFromCart`. */
  function RemoveRequest(cart: Cart, productId: int): (r: CartUpdateRequest)
    ensures r.id == cart.id && r.userId == cart.userId
    ensures r.items == RemoveLines(cart.items, productId)
    ensures r.total == LinesTotal(r.items)
  {
    var ls := RemoveLines(cart.items, productId);
    CartUpdateRequest(cart.id, cart.userId, ls, LinesTotal(ls))
  }

  /** The payload of `clearCart`: no lines, total 0, same cart and owner. */
  function ClearRequest(cart: Cart): (r: CartUpdateRequest)
    ensures r.id == cart.id && r.userId == cart.userId
    ensures r.items == [] && r.total == 0 == LinesTotal(r.items)
  {
    CartUpdateRequest(cart.id, cart.userId, [], 0)
  }

  /** The server as the cart calls meet it: the reply to `GET /cart`, and the reply to
      `POST /cart` as a function of the posted payload. */
  datatype Server = Server(fetch: Result<Cart, ApiError>, post: CartUpdateRequest -> Result<Cart, ApiError>)

  /** A cart call: the payload it posted (if it got that far) and what it resolved to. */
  datatype Mutation = Mutation(posted: Option<CartUpdateRequest>, result: Result<Cart, ApiError>)

  /** `addToCart`: a failed fetch is replaced by the empty cart, so a payload is always posted. */
  function AddToCart(server: Server, productId: int, quantity: int): (m: Mutation)
    ensures m.posted == Some(AddToCartRequest(server.fetch, productId, quantity))
    ensures m.result == server.post(m.posted.value)
  {
    var request := AddToCartRequest(server.fetch, productId, quantity);
    Mutation(Some(request), server.post(request))
  }

  /** The shape shared by update, remove and clear: a failed fetch rejects before
      anything is posted. */
  function FetchThenPost(server: Server, build: Cart -> CartUpdateRequest): (m: Mutation)
    ensures server.fetch.Err? ==> m == Mutation(None, Err(server.fetch.error))
    ensures server.fetch.Ok? ==> m.posted == Some(build(server.fetch.value)) && m.result == server.post(m.posted.value)
  {
    match server.fetch
    case Err(e) => Mutation(None, Err(e))
    case Ok(cart) =>
      var request := build(cart);
      Mutation(Some(request), server.post(request))
  }

  function UpdateItemQuantity(server: Server, productId: int, quantity: int): (m: Mutation)
    ensures server.fetch.Err? ==> m.posted.None? && m.result.Err?
    ensures server.fetch.Ok? ==> m.posted == Some(UpdateRequest(server.fetch.value, productId, quantity))
  {
    FetchThenPost(server, (cart: Cart) => UpdateRequest(cart, productId, quantity))
  }

  function RemoveFromCart(server: Server, productId: int): (m: Mutation)
    ensures server.fetch.Err? ==> m.posted.None? && m.result.Err?
    ensures server.fetch.Ok? ==> m.posted == Some(RemoveRequest(server.fetch.value, productId))
  {
    FetchThenPost(server, (cart: Cart) => RemoveRequest(cart, productId))
  }

  function ClearCart(server: Server): (m: Mutation)
    ensures server.fetch.Err? ==> m.posted.None? && m.result.Err?
    ensures server.fetch.Ok? ==> m.posted == Some(ClearRequest(server.fetch.value))
  {
    FetchThenPost(server, ClearRequest)
  }

  /** `getCartItemCount`: the server's `totalItems`, or 0 when the fetch fails. */
  function GetCartItemCount(fetched: Result<Cart, ApiError>): (n: int)
    ensures fetched.Err? ==> n == 0
    ensures fetched.Ok? ==> n == fetched.value.totalItems
  {
    match fetched
    case Ok(cart) => cart.totalItems
    case Err(_) => 0
  }
}

=== FILE: checkout.dfy ===
/** The checkout page (src/pages/Checkout.tsx): the form defaults taken from the
    signed-in user, the two guards of `handleSubmit`, the order body, and the
    create-then-clear sequence that ends on the confirmation page. */
module Checkout {

  import opened Wrappers
  import opened Text
  import opened Types
  import CartService
  import CartContext
  import OrderService

  /** The form's first values: the user's name joined by a space (not trimmed), and
      their address and phone when present; city, region and zip code start empty. */
  function DefaultShipping(user: Option<User>): (f: ShippingAddress)
    ensures user.None? ==> f == ShippingAddress("", "", "", "", "", "")
    ensures user.Some? ==> f.name == user.value.firstName + " " + user.value.lastName
    ensures user.Some? ==> f.address == user.value.address.GetOr("") && f.phone == user.value.phone.GetOr("")
    ensures f.city == "" && f.region == "" && f.zipCode == ""
  {
    match user
    case None => ShippingAddress("", "", "", "", "", "")
    case Some(u) => ShippingAddress(u.firstName + " " + u.lastName, u.address.GetOr(""), "", "", "", u.phone.GetOr(""))
  }

  /** A signed-in user's default name is never empty, so it always passes the required
      check, even when both names are blank. */
  lemma DefaultNameNeverMissing(u: User)
    ensures DefaultShipping(Some(u)).name != ""
  {
    assert |DefaultShipping(Some(u)).name| == |u.firstName| + 1 + |u.lastName|;
  }

  /** What the page renders: a sign-in prompt, the empty-cart notice, or the form. */
  datatype View = SignInRequired | EmptyCart | Form

  predicate CartIsEmpty(cart: Option<Cart>) {
    cart.None? || |cart.value.items| == 0
  }

  function PageView(user: Option<User>, cart: Option<Cart>): (v: View)
    ensures v == Form <==> user.Some? && !CartIsEmpty(cart)
  {
    if user.None? then SignInRequired
    else if CartIsEmpty(cart) then EmptyCart
    else Form
  }

  /** The basic validation: name, address, city, region and phone must be non-empty;
      the zip code is optional. Blank text counts as filled. */
  predicate MissingRequired(f: ShippingAddress) {
    f.name == "" || f.address == "" || f.city == "" || f.region == "" || f.phone == ""
  }

  /** `notes.trim() || undefined`. */
  function OrderNotes(notes: string): (r: Option<string>)
    ensures r.None? <==> AllSpace(notes)
    ensures r.Some? ==> r.value == Trim(notes) && !IsSpace(r.value[0]) && !IsSpace(r.value[|r.value| - 1])
  {
    TrimEmptyIffAllSpace(notes);
    if Trim(notes) == "" then None else Some(Trim(notes))
  }

  /** The body posted to create the order: the form as it stands, and the trimmed notes. */
  function OrderBody(payment: PaymentMethod, form: ShippingAddress, notes: string): CreateOrderRequest {
    CreateOrderRequest(payment, form, OrderNotes(notes))
  }

  /** A request issued by the page: the order creation, or a cart call of `clearCart`. */
  datatype CheckoutCall = CreateOrderCall(request: Request, body: CreateOrderRequest) | CartCall(call: CartContext.CartCall)

  function CartCalls(cs: seq<CartContext.CartCall>): (r: seq<CheckoutCall>)
    ensures |r| == |cs| && forall i :: 0 <= i < |cs| ==> r[i] == CartCall(cs[i])
  {
    seq(|cs|, i requires 0 <= i < |cs| => CartCall(cs[i]))
  }

  /** What `handleSubmit` leaves behind: the cart state, the requests in order, the
      toasts in order, and where the page navigated to, if anywhere. */
  datatype SubmitStep = SubmitStep(cart: CartContext.CartState, calls: seq<CheckoutCall>,
                                   notices: seq<Notice>, navigate: Option<string>)

  const EmptyCartNotice := Notice("Error", "No hay productos en el carrito", true)
  const MissingFieldsNotice := Notice("Error", "Por favor completa todos los campos requeridos", true)
  const FailureNotice := Notice("Error", "Hubo un problema al procesar tu orden. Inténtalo de nuevo.", true)

  function SuccessNotice(o: Order): Notice {
    Notice("¡Orden creada exitosamente!", "Tu orden #" + IntToString(o.id) + " ha sido procesada.", false)
  }

  function ConfirmationPath(o: Order): (p: string)
    ensures |p| > 20 && p[..20] == "/order-confirmation/" && ParseInt(p[20..]) == Some(o.id)
  {
    IntToStringRoundTrip(o.id);
    "/order-confirmation/" + IntToString(o.id)
  }

  /** `handleSubmit`: the cart guard, then the field guard, then `createOrder`, then
      `clearCart`. Whatever either call raises ends in the generic failure toast and
      no navigation. */
  function HandleSubmit(user: Option<User>, st: CartContext.CartState, form: ShippingAddress,
                        payment: PaymentMethod, notes: string,
                        created: Result<Order, ApiError>, server: CartService.Server): (r: SubmitStep)
    ensures CartIsEmpty(st.cart) ==> r == SubmitStep(st, [], [EmptyCartNotice], None)
    ensures !CartIsEmpty(st.cart) && MissingRequired(form) ==> r == SubmitStep(st, [], [MissingFieldsNotice], None)
    ensures !CartIsEmpty(st.cart) && !MissingRequired(form) ==>
      |r.calls| >= 1 && r.calls[0] == CreateOrderCall(OrderService.CreateOrder(OrderBody(payment, form, notes)), OrderBody(payment, form, notes))
    ensures created.Err? && !CartIsEmpty(st.cart) && !MissingRequired(form) ==>
      r == SubmitStep(st, r.calls[..1], [FailureNotice], None)
    ensures created.Ok? && !CartIsEmpty(st.cart) && !MissingRequired(form) ==>
      var cleared := CartContext.ClearCart(st, user.Some?, server);
      cleared.completion.Done? ==>
        && r.notices == cleared.notices + [SuccessNotice(created.value)]
        && r.navigate == Some(ConfirmationPath(created.value))
  {
    if CartIsEmpty(st.cart) then SubmitStep(st, [], [EmptyCartNotice], None)
    else if MissingRequired(form) then SubmitStep(st, [], [MissingFieldsNotice], None)
    else
      var body := OrderBody(payment, form, notes);
      var create := CreateOrderCall(OrderService.CreateOrder(body), body);
      match created
      case Err(_) => SubmitStep(st, [create], [FailureNotice], None)
      case Ok(order) =>
        var cleared := CartContext.ClearCart(st, user.Some?, server);
        var calls := [create] + CartCalls(cleared.calls);
        match cleared.completion
        case Done =>
          SubmitStep(cleared.state, calls, cleared.notices + [SuccessNotice(order)], Some(ConfirmationPath(order)))
        case Raised(_) =>
          SubmitStep(cleared.state, calls, cleared.notices + [FailureNotice], None)
  }

  /** The page reaches the confirmation of an order only after that order was created
      and the cart was cleared, and then the cart is gone. */
  lemma NavigatesOnlyAfterCreateAndClear(user: Option<User>, st: CartContext.CartState, form: ShippingAddress,
                                         payment: PaymentMethod, notes: string,
                                         created: Result<Order, ApiError>, server: CartService.Server)
    requires user.Some?
    ensures var r := HandleSubmit(user, st, form, payment, notes, created, server);
      r.navigate.Some? <==>
        !CartIsEmpty(st.cart) && !MissingRequired(form) && created.Ok? && CartService.ClearCart(server).result.Ok?
    ensures var r := HandleSubmit(user, st, form, payment, notes, created, server);
      r.navigate.Some? ==> r.navigate == Some(ConfirmationPath(created.value)) && r.cart.cart.None?
  {
  }

  /** The order can be created and still reported as failed: when clearing the cart
      fails afterwards the page shows the failure toast and stays, with the cart as
      it was. */
  lemma ClearFailureAfterCreatedOrder(user: Option<User>, st: CartContext.CartState, form: ShippingAddress,
                                      payment: PaymentMethod, notes: string, order: Order, server: CartService.Server)
    requires user.Some? && !CartIsEmpty(st.cart) && !MissingRequired(form)
    requires CartService.ClearCart(server).result.Err?
    ensures var r := HandleSubmit(user, st, form, payment, notes, Ok(order), server);
      && r.calls[0].CreateOrderCall?
      && r.navigate.None?
      && r.notices[|r.notices| - 1] == FailureNotice
      && r.cart.cart == st.cart
  {
    var cleared := CartContext.ClearCart(st, true, server);
    assert cleared.completion.Raised? && cleared.state.cart == st.cart;
  }

  /** A shown form always passes the cart guard, so only the field guard can stop a
      submission made from it. */
  lemma FormPassesCartGuard(user: Option<User>, st: CartContext.CartState, form: ShippingAddress,
                            payment: PaymentMethod, notes: string,
                            created: Result<Order, ApiError>, server: CartService.Server)
    requires PageView(user, st.cart) == Form
    ensures HandleSubmit(user, st, form, payment, notes, created, server).notices != [EmptyCartNotice]
  {
    var r := HandleSubmit(user, st, form, payment, notes, created, server);
    GuardNoticesDistinct();
    if !MissingRequired(form) && created.Ok? {
      var cleared := CartContext.ClearCart(st, user.Some?, server);
      if cleared.completion.Done? {
        assert !r.notices[|r.notices| - 1].destructive;
      } else {
        assert r.notices[|r.notices| - 1] == FailureNotice;
      }
    }
  }

  /** The three error toasts of the page are told apart by the length of their text. */
  lemma GuardNoticesDistinct()
    ensures EmptyCartNotice != MissingFieldsNotice && EmptyCartNotice != FailureNotice
  {
    assert |EmptyCartNotice.description| == 30;
    assert |MissingFieldsNotice.description| == 46;
    assert |FailureNotice.description| == 58;
  }

  /** The zip code is the one field that may stay empty. */
  lemma ZipCodeOptional(f: ShippingAddress)
    requires !MissingRequired(f)
    ensures !MissingRequired(f.(zipCode := ""))
  {
  }
}

=== FILE: form_encoding.dfy ===
/** The `application/x-www-form-urlencoded` serializer behind `URLSearchParams.toString()`
    (section 5 of the WHATWG URL Standard): every name and value is UTF-8 encoded,
    bytes outside the unreserved set are percent-encoded with upper-case hex, a space
    becomes '+', and the pairs are joined as `name=value` with '&'. A parser is given
    as the inverse, and the two are proved to round-trip. */
module FormEncoding {

  import opened Wrappers
  import opened Text

  type byte = b: int | 0 <= b < 256

  predicate IsContinuation(b: byte) {
    0x80 <= b < 0xC0
  }

  /** The UTF-8 encoding of one Unicode scalar value (section 3 of RFC 3629). */
  function Utf8Char(c: char): (bs: seq<byte>)
    ensures 1 <= |bs| <= 4
    ensures |bs| == 1 <==> c as int < 0x80
    ensures |bs| == 1 ==> bs[0] == c as int
    ensures |bs| > 1 ==> 0xC0 <= bs[0]
    ensures forall i :: 1 <= i < |bs| ==> IsContinuation(bs[i])
  {
    var n := c as int;
    if n < 0x80 then [n]
    else if n < 0x800 then [0xC0 + n / 64, 0x80 + n % 64]
    else if n < 0x10000 then [0xE0 + n / 4096, 0x80 + (n / 64) % 64, 0x80 + n % 64]
    else [0xF0 + n / 262144, 0x80 + (n / 4096) % 64, 0x80 + (n / 64) % 64, 0x80 + n % 64]
  }

  function Utf8Encode(s: string): seq<byte>
    decreases |s|
  {
    if s == [] then [] else Utf8Char(s[0]) + Utf8Encode(s[1..])
  }

  /** The code point `n` as a character, consuming `len` bytes, or `None` when `n` is
      a surrogate or beyond U+10FFFF. */
  function ScalarOf(n: int, len: nat): (r: Option<(char, nat)>)
    ensures r.Some? ==> (0 <= n < 0xD800 || 0xE000 <= n < 0x110000) && r.value == (n as char, len)
  {
    if 0 <= n < 0xD800 || 0xE000 <= n < 0x110000 then Some((n as char, len)) else None
  }

  /** Reads the first character off a UTF-8 byte sequence, with the number of bytes
      it took. */
  function Utf8DecodeChar(bs: seq<byte>): (r: Option<(char, nat)>)
    ensures r.Some? ==> 1 <= r.value.1 <= |bs|
  {
    if bs == [] then None
    else
      var b0: int := bs[0];
      if b0 < 0x80 then Some((b0 as char, 1))
      else if 0xC0 <= b0 < 0xE0 && |bs| >= 2 && IsContinuation(bs[1]) then
        ScalarOf((b0 - 0xC0) * 64 + (bs[1] as int - 0x80), 2)
      else if 0xE0 <= b0 < 0xF0 && |bs| >= 3 && IsContinuation(bs[1]) && IsContinuation(bs[2]) then
        ScalarOf((b0 - 0xE0) * 4096 + (bs[1] as int - 0x80) * 64 + (bs[2] as int - 0x80), 3)
      else if 0xF0 <= b0 < 0xF8 && |bs| >= 4 && IsContinuation(bs[1]) && IsContinuation(bs[2]) && IsContinuation(bs[3]) then
        ScalarOf((b0 - 0xF0) * 262144 + (bs[1] as int - 0x80) * 4096 + (bs[2] as int - 0x80) * 64 + (bs[3] as int - 0x80), 4)
      else None
  }

  function Utf8Decode(bs: seq<byte>): Option<string>
    decreases |bs|
  {
    if bs == [] then Some([])
    else
      match Utf8DecodeChar(bs)
      case None => None
      case Some((c, k)) =>
        match Utf8Decode(bs[k..])
        case None => None
        case Some(rest) => Some([c] + rest)
  }

  lemma ThreeByteDigits(n: int)
    requires 0 <= n
    ensures (n / 4096) * 4096 + ((n / 64) % 64) * 64 + n % 64 == n
  {
    assert n / 64 / 64 == n / 4096;
  }

  lemma FourByteDigits(n: int)
    requires 0 <= n
    ensures (n / 262144) * 262144 + ((n / 4096) % 64) * 4096 + ((n / 64) % 64) * 64 + n % 64 == n
  {
    assert n / 4096 / 64 == n / 262144;
    ThreeByteDigits(n);
  }

  /** Decoding the encoding of a character yields it back, whatever follows. */
  lemma Utf8CharDecodes(c: char, rest: seq<byte>)
    ensures Utf8DecodeChar(Utf8Char(c) + rest) == Some((c, |Utf8Char(c)|))
  {
    var n := c as int;
    var bs := Utf8Char(c) + rest;
    if n < 0x80 {
    } else if n < 0x800 {
      assert bs[0] == 0xC0 + n / 64 && bs[1] == 0x80 + n % 64;
    } else if n < 0x10000 {
      ThreeByteDigits(n);
      assert bs[0] == 0xE0 + n / 4096;
    } else {
      FourByteDigits(n);
      assert bs[0] == 0xF0 + n / 262144;
    }
  }

  lemma Utf8EncodeCons(s: string)
    requires s != []
    ensures Utf8Encode(s) == Utf8Char(s[0]) + Utf8Encode(s[1..])
  {
  }

  /** Decoding undoes `Utf8Encode`. */
  lemma {:induction false} Utf8RoundTrip(s: string)
    ensures Utf8Decode(Utf8Encode(s)) == Some(s)
    decreases |s|
  {
    if s != [] {
      var head := Utf8Char(s[0]);
      var bs := Utf8Encode(s);
      Utf8EncodeCons(s);
      Utf8CharDecodes(s[0], Utf8Encode(s[1..]));
      assert bs[|head|..] == Utf8Encode(s[1..]);
      Utf8RoundTrip(s[1..]);
      assert [s[0]] + s[1..] == s;
    }
  }

  /** The bytes kept as they are: ASCII letters and digits and `*-._`. */
  predicate Unreserved(b: int) {
    || b == 0x2A || b == 0x2D || b == 0x2E || 0x30 <= b <= 0x39
    || 0x41 <= b <= 0x5A || b == 0x5F || 0x61 <= b <= 0x7A
  }

  function HexDigit(d: int): (c: char)
    requires 0 <= d < 16
    ensures c as int < 0x80 && c != '&' && c != '=' && c != '%' && c != '+'
  {
    if d < 10 then ('0' as int + d) as char else ('A' as int + d - 10) as char
  }

  /** The value of a hexadecimal digit of either case. */
  function HexValue(c: char): (r: Option<int>)
    ensures r.Some? ==> 0 <= r.value < 16
  {
    if '0' <= c <= '9' then Some(c as int - '0' as int)
    else if 'A' <= c <= 'F' then Some(c as int - 'A' as int + 10)
    else if 'a' <= c <= 'f' then Some(c as int - 'a' as int + 10)
    else None
  }

  lemma HexRoundTrip(d: int)
    requires 0 <= d < 16
    ensures HexValue(HexDigit(d)) == Some(d)
  {
  }

  /** One byte as the serializer writes it. */
  function EncodeByte(b: byte): (r: string)
    ensures 1 <= |r| <= 3
    ensures forall i :: 0 <= i < |r| ==> r[i] as int < 0x80 && r[i] != '&' && r[i] != '='
    ensures Unreserved(b) ==> r == [b as char]
  {
    if b == 0x20 then "+"
    else if Unreserved(b) then [b as char]
    else ['%', HexDigit(b / 16), HexDigit(b % 16)]
  }

  function EncodeBytes(bs: seq<byte>): (r: string)
    ensures forall i :: 0 <= i < |r| ==> r[i] as int < 0x80 && r[i] != '&' && r[i] != '='
    decreases |bs|
  {
    if bs == [] then [] else EncodeByte(bs[0]) + EncodeBytes(bs[1..])
  }

  /** A name or value as it appears in the serialized query: only ASCII, and never an
      '&' or '=' that could be mistaken for a separator. */
  function Encode(s: string): (r: string)
    ensures forall i :: 0 <= i < |r| ==> r[i] as int < 0x80 && r[i] != '&' && r[i] != '='
  {
    EncodeBytes(Utf8Encode(s))
  }

  predicate AllUnreserved(s: string) {
    forall i :: 0 <= i < |s| ==> Unreserved(s[i] as int)
  }

  /** A string of unreserved ASCII characters is written as it is. */
  lemma {:induction false} EncodeKeepsUnreserved(s: string)
    requires AllUnreserved(s)
    ensures Encode(s) == s
    decreases |s|
  {
    if s != [] {
      Utf8EncodeCons(s);
      assert Utf8Encode(s) == [s[0] as int] + Utf8Encode(s[1..]);
      EncodeKeepsUnreserved(s[1..]);
      assert EncodeBytes(Utf8Encode(s)) == EncodeByte(s[0] as int) + EncodeBytes(Utf8Encode(s[1..]));
      assert [s[0]] + s[1..] == s;
    }
  }

  /** Decimal numerals (with their sign) are written as they are. */
  lemma NumeralsAreUnreserved(n: int)
    ensures AllUnreserved(IntToString(n))
  {
  }

  /** The percent-decoding of the standard: '+' is a space, '%' and two hex digits one
      byte, and any other character its own UTF-8 bytes. */
  function DecodeBytes(t: string): seq<byte>
    decreases |t|
  {
    if t == [] then []
    else if t[0] == '+' then [0x20] + DecodeBytes(t[1..])
    else if t[0] == '%' && |t| >= 3 && HexValue(t[1]).Some? && HexValue(t[2]).Some? then
      [16 * HexValue(t[1]).value + HexValue(t[2]).value] + DecodeBytes(t[3..])
    else Utf8Char(t[0]) + DecodeBytes(t[1..])
  }

  lemma DecodeEncodedByte(b: byte, rest: string)
    ensures DecodeBytes(EncodeByte(b) + rest) == [b] + DecodeBytes(rest)
  {
    var t := EncodeByte(b) + rest;
    if b == 0x20 {
      assert t[1..] == rest;
    } else if Unreserved(b) {
      assert t[0] == b as char && t[1..] == rest;
    } else {
      HexRoundTrip(b / 16);
      HexRoundTrip(b % 16);
      assert t[3..] == rest;
    }
  }

  lemma {:induction false} DecodeBytesRoundTrip(bs: seq<byte>)
    ensures DecodeBytes(EncodeBytes(bs)) == bs
    decreases |bs|
  {
    if bs != [] {
      DecodeEncodedByte(bs[0], EncodeBytes(bs[1..]));
      DecodeBytesRoundTrip(bs[1..]);
      assert [bs[0]] + bs[1..] == bs;
    }
  }

  /** A name or value read back: percent-decoding, then UTF-8 decoding. */
  function Decode(t: string): Option<string> {
    Utf8Decode(DecodeBytes(t))
  }

  /** Every string survives encoding and decoding. */
  lemma DecodeEncode(s: string)
    ensures Decode(Encode(s)) == Some(s)
  {
    DecodeBytesRoundTrip(Utf8Encode(s));
    Utf8RoundTrip(s);
  }

  /** Distinct strings are encoded differently. */
  lemma EncodeInjective(a: string, b: string)
    ensures Encode(a) == Encode(b) ==> a == b
  {
    DecodeEncode(a);
    DecodeEncode(b);
  }

  datatype Param = Param(name: string, value: string)

  function Pair(p: Param): string {
    Encode(p.name) + "=" + Encode(p.value)
  }

  /** `URLSearchParams.toString()`: the pairs, in order, joined with '&'. */
  function Serialize(ps: seq<Param>): (r: string)
    ensures ps == [] <==> r == []
    decreases |ps|
  {
    if ps == [] then ""
    else if |ps| == 1 then Pair(ps[0])
    else Pair(ps[0]) + "&" + Serialize(ps[1..])
  }

  /** `t` cut at every occurrence of `sep`. */
  function SplitOn(t: string, sep: char): (r: seq<string>)
    ensures |r| >= 1
    decreases |t|
  {
    var k := IndexOf(t, sep);
    if k < 0 then [t] else [t[..k]] + SplitOn(t[k + 1..], sep)
  }

  lemma SplitOnSeparated(a: string, sep: char, b: string)
    requires sep !in a
    ensures SplitOn(a + [sep] + b, sep) == [a] + SplitOn(b, sep)
  {
    var t := a + [sep] + b;
    var k := IndexOf(t, sep);
    assert t[|a|] == sep;
    assert t[..k] == a && t[k + 1..] == b;
  }

  /** One `name=value` piece read back; a piece without '=' is a name with an empty
      value. */
  function ParsePair(t: string): Option<Param> {
    var k := IndexOf(t, '=');
    var name := Decode(if k < 0 then t else t[..k]);
    var value := Decode(if k < 0 then [] else t[k + 1..]);
    if name.Some? && value.Some? then Some(Param(name.value, value.value)) else None
  }

  function ParsePieces(pieces: seq<string>): Option<seq<Param>>
    decreases |pieces|
  {
    if pieces == [] then Some([])
    else
      var rest := ParsePieces(pieces[1..]);
      if pieces[0] == [] then rest
      else
        var p := ParsePair(pieces[0]);
        if p.Some? && rest.Some? then Some([p.value] + rest.value) else None
  }

  /** The query parser of the standard: split at '&', skip empty pieces, and split each
      piece at its first '='. */
  function Parse(t: string): Option<seq<Param>> {
    ParsePieces(SplitOn(t, '&'))
  }

  lemma ParsePairOfPair(p: Param)
    ensures ParsePair(Pair(p)) == Some(p)
  {
    var t := Pair(p);
    var n := Encode(p.name);
    var k := IndexOf(t, '=');
    assert t[|n|] == '=';
    assert t[..k] == n && t[k + 1..] == Encode(p.value);
    DecodeEncode(p.name);
    DecodeEncode(p.value);
  }

  lemma NoAmpersandInPair(p: Param)
    ensures '&' !in Pair(p)
  {
    var t := Pair(p);
    forall i | 0 <= i < |t| ensures t[i] != '&' {
      if i < |Encode(p.name)| {
        assert t[i] == Encode(p.name)[i];
      } else if i > |Encode(p.name)| {
        assert t[i] == Encode(p.value)[i - |Encode(p.name)| - 1];
      }
    }
  }

  /** The `name=value` pieces of a parameter list, in order. */
  function Pairs(ps: seq<Param>): (r: seq<string>)
    ensures |r| == |ps|
    decreases |ps|
  {
    if ps == [] then [] else [Pair(ps[0])] + Pairs(ps[1..])
  }

  lemma {:induction false} SplitSerialized(ps: seq<Param>)
    requires ps != []
    ensures SplitOn(Serialize(ps), '&') == Pairs(ps)
    decreases |ps|
  {
    var t := Pair(ps[0]);
    NoAmpersandInPair(ps[0]);
    if |ps| == 1 {
      assert Serialize(ps) == t;
      assert IndexOf(t, '&') == -1;
      assert Pairs(ps) == [t] + Pairs([]);
    } else {
      var tail := Serialize(ps[1..]);
      assert Serialize(ps) == t + ['&'] + tail;
      SplitOnSeparated(t, '&', tail);
      SplitSerialized(ps[1..]);
    }
  }

  lemma {:induction false} ParsePiecesOfPairs(ps: seq<Param>)
    ensures ParsePieces(Pairs(ps)) == Some(ps)
    decreases |ps|
  {
    if ps != [] {
      var pieces := Pairs(ps);
      assert pieces[0] == Pair(ps[0]) && pieces[1..] == Pairs(ps[1..]);
      ParsePiecesOfPairs(ps[1..]);
      ParsePairOfPair(ps[0]);
      assert Pair(ps[0])[|Encode(ps[0].name)|] == '=';
      assert [ps[0]] + ps[1..] == ps;
    }
  }

  /** Parsing a serialized list of pairs gives back the same pairs in the same order. */
  lemma ParseSerialize(ps: seq<Param>)
    ensures Parse(Serialize(ps)) == Some(ps)
  {
    if ps == [] {
      assert SplitOn("", '&') == [""];
    } else {
      SplitSerialized(ps);
      ParsePiecesOfPairs(ps);
    }
  }
}

=== FILE: order_detail.dfy ===
/** The order detail page (src/pages/OrderDetail.tsx): the status timeline and
    alerts, the cancel button guard, and the load and cancel handlers. */
module OrderDetail {

  import opened Wrappers
  import opened Text
  import opened Sequences
  import opened Types
  import Api
  import OrderService

  /** `['Pending', 'Processing'].includes(order.status)`: only these show the cancel
      button. */
  predicate CanCancel(s: OrderStatus) {
    s == Pending || s == Processing
  }

  /** The alert above the order: one for a cancelled order, one for a delivered one. */
  datatype Alert = CancelledAlert | DeliveredAlert

  function StatusAlert(s: OrderStatus): (a: Option<Alert>)
    ensures a == Some(CancelledAlert) <==> s == Cancelled
    ensures a == Some(DeliveredAlert) <==> s == Delivered
  {
    if s == Cancelled then Some(CancelledAlert)
    else if s == Delivered then Some(DeliveredAlert)
    else None
  }

  /** The steps of the timeline and the colour of each dot. */
  datatype Step = Created | InProcess | Sent | Arrived | CancelledStep
  datatype Dot = Filled | Muted | Green | Red
  datatype Entry = Entry(step: Step, dot: Dot)

  const AllSteps := [Created, InProcess, Sent, Arrived, CancelledStep]

  /** The timeline shown for a status: "created" always; "in process" for every status
      but Pending, filled only for Processing, Shipped and Delivered; "sent" for Shipped
      and Delivered; "arrived" for Delivered; "cancelled" for Cancelled. */
  function Timeline(s: OrderStatus): seq<Entry> {
    [Entry(Created, Filled)]
    + When(s != Pending, Entry(InProcess, if s in {Processing, Shipped, Delivered} then Filled else Muted))
    + When(s in {Shipped, Delivered}, Entry(Sent, Filled))
    + When(s == Delivered, Entry(Arrived, Green))
    + When(s == Cancelled, Entry(CancelledStep, Red))
  }

  function StepsOf(es: seq<Entry>): seq<Step> {
    seq(|es|, i requires 0 <= i < |es| => es[i].step)
  }

  /** How far along the normal path an order is: Pending 0 up to Delivered 3. */
  function Progress(s: OrderStatus): nat
    requires s in {Pending, Processing, Shipped, Delivered}
  {
    match s
    case Pending => 0
    case Processing => 1
    case Shipped => 2
    case Delivered => 3
  }

  /** The timeline always opens with the created step and keeps the steps in their
      fixed order, each at most once. */
  lemma TimelineOrdered(s: OrderStatus)
    ensures |Timeline(s)| >= 1 && Timeline(s)[0] == Entry(Created, Filled)
    ensures Subseq(StepsOf(Timeline(s)), AllSteps)
  {
    var steps := StepsOf(Timeline(s));
    match s
    case Pending =>
      assert steps == [Created];
      SubseqRefl<Step>([]);
      SubseqSkip(CancelledStep, [], []);
      SubseqSkip(Arrived, [], [CancelledStep]);
      SubseqSkip(Sent, [], [Arrived, CancelledStep]);
      SubseqSkip(InProcess, [], [Sent, Arrived, CancelledStep]);
      SubseqCons(Created, [], [InProcess, Sent, Arrived, CancelledStep]);
    case Processing =>
      assert steps == [Created, InProcess];
      SubseqRefl<Step>([]);
      SubseqSkip(CancelledStep, [], []);
      SubseqSkip(Arrived, [], [CancelledStep]);
      SubseqSkip(Sent, [], [Arrived, CancelledStep]);
      SubseqCons(InProcess, [], [Sent, Arrived, CancelledStep]);
      SubseqCons(Created, [InProcess], [InProcess, Sent, Arrived, CancelledStep]);
    case Shipped =>
      assert steps == [Created, InProcess, Sent];
      SubseqRefl<Step>([]);
      SubseqSkip(CancelledStep, [], []);
      SubseqSkip(Arrived, [], [CancelledStep]);
      SubseqCons(Sent, [], [Arrived, CancelledStep]);
      SubseqCons(InProcess, [Sent], [Sent, Arrived, CancelledStep]);
      SubseqCons(Created, [InProcess, Sent], [InProcess, Sent, Arrived, CancelledStep]);
    case Delivered =>
      assert steps == [Created, InProcess, Sent, Arrived];
      SubseqRefl<Step>([]);
      SubseqSkip(CancelledStep, [], []);
      SubseqCons(Arrived, [], [CancelledStep]);
      SubseqCons(Sent, [Arrived], [Arrived, CancelledStep]);
      SubseqCons(InProcess, [Sent, Arrived], [Sent, Arrived, CancelledStep]);
      SubseqCons(Created, [InProcess, Sent, Arrived], [InProcess, Sent, Arrived, CancelledStep]);
    case Cancelled =>
      assert steps == [Created, InProcess, CancelledStep];
      SubseqRefl<Step>([CancelledStep]);
      SubseqSkip(Arrived, [CancelledStep], [CancelledStep]);
      SubseqSkip(Sent, [CancelledStep], [Arrived, CancelledStep]);
      SubseqCons(InProcess, [CancelledStep], [Sent, Arrived, CancelledStep]);
      SubseqCons(Created, [InProcess, CancelledStep], [InProcess, Sent, Arrived, CancelledStep]);
    case Refunded =>
      assert steps == [Created, InProcess];
      SubseqRefl<Step>([]);
      SubseqSkip(CancelledStep, [], []);
      SubseqSkip(Arrived, [], [CancelledStep]);
      SubseqSkip(Sent, [], [Arrived, CancelledStep]);
      SubseqCons(InProcess, [], [Sent, Arrived, CancelledStep]);
      SubseqCons(Created, [InProcess], [InProcess, Sent, Arrived, CancelledStep]);
  }

  /** The alert above the order agrees with the end of the timeline: the cancelled alert
      shows exactly when the timeline ends in the red step, and the delivered alert exactly
      when it ends in the green step. */
  lemma AlertMatchesTimelineEnd(s: OrderStatus)
    ensures StatusAlert(s) == Some(CancelledAlert) <==> Timeline(s)[|Timeline(s)| - 1] == Entry(CancelledStep, Red)
    ensures StatusAlert(s) == Some(DeliveredAlert) <==> Timeline(s)[|Timeline(s)| - 1] == Entry(Arrived, Green)
    ensures StatusAlert(s).None? <==> Timeline(s)[|Timeline(s)| - 1].dot in {Filled, Muted}
  {
    match s
    case Pending => assert Timeline(s) == [Entry(Created, Filled)];
    case Processing => assert Timeline(s) == [Entry(Created, Filled), Entry(InProcess, Filled)];
    case Shipped => assert Timeline(s) == [Entry(Created, Filled), Entry(InProcess, Filled), Entry(Sent, Filled)];
    case Delivered =>
      assert Timeline(s) == [Entry(Created, Filled), Entry(InProcess, Filled), Entry(Sent, Filled), Entry(Arrived, Green)];
    case Cancelled => assert Timeline(s) == [Entry(Created, Filled), Entry(InProcess, Muted), Entry(CancelledStep, Red)];
    case Refunded => assert Timeline(s) == [Entry(Created, Filled), Entry(InProcess, Muted)];
  }

  /** Along the normal path the timeline shows exactly the first `Progress + 1` steps,
      none of them muted. */
  lemma TimelineShowsProgress(s: OrderStatus)
    requires s in {Pending, Processing, Shipped, Delivered}
    ensures StepsOf(Timeline(s)) == [Created, InProcess, Sent, Arrived][..Progress(s) + 1]
    ensures forall i :: 0 <= i < |Timeline(s)| ==> Timeline(s)[i].dot != Muted && Timeline(s)[i].dot != Red
  {
  }

  /** A cancelled order shows the in-process step muted, then the cancelled step; a
      refunded one stops at the muted in-process step with no step of its own. */
  lemma TimelineOffPath()
    ensures Timeline(Cancelled) == [Entry(Created, Filled), Entry(InProcess, Muted), Entry(CancelledStep, Red)]
    ensures Timeline(Refunded) == [Entry(Created, Filled), Entry(InProcess, Muted)]
  {
  }

  /** The cancel button shows exactly for the orders whose timeline has not reached the
      sent step and has no muted dot. */
  lemma CanCancelIffNotSentNorStopped(s: OrderStatus)
    ensures CanCancel(s) <==>
      forall i :: 0 <= i < |Timeline(s)| ==> Timeline(s)[i].dot == Filled && Timeline(s)[i].step !in {Sent, Arrived}
  {
    if !CanCancel(s) {
      if s in {Shipped, Delivered} {
        assert Timeline(s)[2].step == Sent;
      } else {
        assert Timeline(s)[1].dot == Muted;
      }
    }
  }

  /** The longest run of decimal digits at the front of `s`. */
  function LeadingDigits(s: string): (n: nat)
    ensures n <= |s| && AllDigits(s[..n]) && (n == |s| || !IsDigit(s[n]))
    decreases |s|
  {
    if s == [] || !IsDigit(s[0]) then 0
    else
      var n := LeadingDigits(s[1..]);
      assert s[..n + 1] == [s[0]] + s[1..][..n];
      n + 1
  }

  /** `parseInt(id)` on a decimal string: leading white space skipped, an optional
      sign, then the longest run of digits; `None` stands for NaN. */
  function ParseRouteId(s: string): (r: Option<int>)
    ensures TrimStart(s) == [] ==> r.None?
    ensures TrimStart(s) != [] && IsDigit(TrimStart(s)[0]) ==> r.Some? && r.value >= 0
    ensures TrimStart(s) != [] && TrimStart(s)[0] == '-' ==> r.None? || r.value <= 0
    ensures TrimStart(s) != [] && TrimStart(s)[0] == '+' ==> r.None? || r.value >= 0
    ensures TrimStart(s) != [] && !(IsDigit(TrimStart(s)[0]) || TrimStart(s)[0] in "+-") ==> r.None?
  {
    ParseSigned(TrimStart(s))
  }

  /** `parseInt` after the leading white space: an optional sign, then the digits. */
  function ParseSigned(t: string): (r: Option<int>)
    ensures t == [] ==> r.None?
    ensures t != [] && IsDigit(t[0]) ==> r.Some? && r.value >= 0
    ensures t != [] && t[0] == '-' ==> r.None? || r.value <= 0
    ensures t != [] && t[0] == '+' ==> r.None? || r.value >= 0
    ensures t != [] && !(IsDigit(t[0]) || t[0] in "+-") ==> r.None?
  {
    var signed := |t| > 0 && (t[0] == '-' || t[0] == '+');
    var u := if signed then t[1..] else t;
    var n := LeadingDigits(u);
    if n == 0 then None
    else if signed && t[0] == '-' then Some(-(DigitsValue(u[..n]) as int))
    else Some(DigitsValue(u[..n]))
  }

  /** White space before the id does not change what `parseInt` reads. */
  lemma {:induction false} ParseIgnoresLeadingSpace(w: string, s: string)
    requires AllSpace(w)
    ensures ParseRouteId(w + s) == ParseRouteId(s)
    decreases |w|
  {
    TrimStartSkipsSpace(w, s);
    ParseOfSameTrim(w + s, s);
  }

  /** `parseInt` reads only what is left after the leading white space. */
  lemma ParseOfSameTrim(a: string, b: string)
    requires TrimStart(a) == TrimStart(b)
    ensures ParseRouteId(a) == ParseRouteId(b)
  {
    assert ParseRouteId(a) == ParseSigned(TrimStart(a));
  }

  lemma {:induction false} TrimStartSkipsSpace(w: string, s: string)
    requires AllSpace(w)
    ensures TrimStart(w + s) == TrimStart(s)
    decreases |w|
  {
    if w != [] {
      assert (w + s)[0] == w[0];
      assert (w + s)[1..] == w[1..] + s;
      TrimStartSkipsSpace(w[1..], s);
    } else {
      assert w + s == s;
    }
  }

  lemma {:induction false} LeadingDigitsStopsAtText(digits: string, rest: string)
    requires AllDigits(digits) && (rest == [] || !IsDigit(rest[0]))
    ensures LeadingDigits(digits + rest) == |digits|
    decreases |digits|
  {
    if digits != [] {
      assert (digits + rest)[1..] == digits[1..] + rest;
      LeadingDigitsStopsAtText(digits[1..], rest);
    } else {
      assert digits + rest == rest;
    }
  }

  /** The numeral of an id is read back as that id, whatever non-digit text follows it. */
  lemma ParseRouteIdOfNumeral(id: int, rest: string)
    requires rest == [] || !IsDigit(rest[0])
    ensures ParseRouteId(IntToString(id) + rest) == Some(id)
  {
    if id < 0 {
      ParseNegativeNumeral(id, rest);
    } else {
      ParseNaturalNumeral(id, rest);
    }
  }

  lemma ParseNaturalNumeral(n: nat, rest: string)
    requires rest == [] || !IsDigit(rest[0])
    ensures ParseRouteId(IntToString(n) + rest) == Some(n)
  {
    var digits := NatToString(n);
    assert IntToString(n) == digits;
    NatToStringRoundTrip(n);
    ParseDigitsThenText(digits, rest);
  }

  lemma ParseNegativeNumeral(id: int, rest: string)
    requires id < 0 && (rest == [] || !IsDigit(rest[0]))
    ensures ParseRouteId(IntToString(id) + rest) == Some(id)
  {
    NegativeNumeralShape(id, rest);
    MinusNumeralThenText(IntToString(id) + rest, rest, -id);
  }

  lemma MinusNumeralThenText(s: string, rest: string, m: nat)
    requires |s| >= 2 && s[0] == '-' && s[1..] == NatToString(m) + rest
    requires rest == [] || !IsDigit(rest[0])
    ensures ParseRouteId(s) == Some(-(m as int))
  {
    var digits := NatToString(m);
    var u := digits + rest;
    LeadingDigitsStopsAtText(digits, rest);
    assert u[..LeadingDigits(u)] == digits;
    NatToStringRoundTrip(m);
    MinusDigits(s, digits);
  }

  lemma NegativeNumeralShape(id: int, rest: string)
    requires id < 0
    ensures |IntToString(id) + rest| >= 2 && (IntToString(id) + rest)[0] == '-'
    ensures (IntToString(id) + rest)[1..] == NatToString(-id) + rest
  {
    var d := NatToString(-id);
    assert IntToString(id) == ['-'] + d;
  }

  /** A run of digits before non-digit text is read as its value. */
  lemma ParseDigitsThenText(digits: string, rest: string)
    requires digits != [] && AllDigits(digits) && (rest == [] || !IsDigit(rest[0]))
    ensures ParseRouteId(digits + rest) == Some(DigitsValue(digits))
  {
    var u := digits + rest;
    LeadingDigitsStopsAtText(digits, rest);
    assert u[..LeadingDigits(u)] == digits;
    PlainDigits(u, digits);
  }

  lemma PlainDigits(u: string, digits: string)
    requires digits != [] && |digits| <= |u| && u[..LeadingDigits(u)] == digits
    ensures ParseRouteId(u) == Some(DigitsValue(digits))
  {
    assert u[0] == digits[0];
    ParseRouteIdOfDigits(u);
  }

  lemma MinusDigits(s: string, digits: string)
    requires |s| >= 2 && s[0] == '-' && digits != [] && s[1..][..LeadingDigits(s[1..])] == digits
    ensures ParseRouteId(s) == Some(-(DigitsValue(digits) as int))
  {
    assert s[1] == digits[0];
    ParseRouteIdOfMinus(s);
  }

  /** A string starting with a digit is read as its leading run of digits. */
  lemma ParseRouteIdOfDigits(s: string)
    requires s != [] && IsDigit(s[0])
    ensures ParseRouteId(s) == Some(DigitsValue(s[..LeadingDigits(s)]))
  {
    assert !IsSpace(s[0]);
    assert TrimStart(s) == s;
  }

  /** A minus sign before a digit negates the leading run of digits after it. */
  lemma ParseRouteIdOfMinus(s: string)
    requires |s| >= 2 && s[0] == '-' && IsDigit(s[1])
    ensures ParseRouteId(s) == Some(-(DigitsValue(s[1..][..LeadingDigits(s[1..])]) as int))
  {
    assert TrimStart(s) == s;
    assert s[1..][0] == s[1];
  }

  /** The page's state: the order shown, the loading skeleton, the cancel spinner. */
  datatype OrderPage = OrderPage(order: Option<Order>, loading: bool, cancelling: bool)

  const InitialPage := OrderPage(None, true, false)

  /** What a handler leaves behind: the page, the requests it issued in order, and the
      toast it showed. */
  datatype PageStep = PageStep(page: OrderPage, calls: seq<Request>, notice: Option<Notice>)

  /** `getOrder(parseInt(id))`; NaN is written into the path as "NaN". */
  function OrderRequest(id: string): Request {
    match ParseRouteId(id)
    case Some(n) => OrderService.GetOrder(n)
    case None => Request(GET, "/orders/NaN")
  }

  /** `cancelOrder(parseInt(id))`. */
  function CancelRequest(id: string): Request {
    match ParseRouteId(id)
    case Some(n) => OrderService.CancelOrder(n)
    case None => Request(PUT, "/orders/NaN/cancel")
  }

  /** `loadOrder`: nothing without an id; otherwise one fetch, whose failure is only
      logged and leaves the order shown as it was. */
  function LoadOrder(page: OrderPage, id: Option<string>, reply: Result<Order, ApiError>): (r: PageStep)
    ensures !Api.Truthy(id) ==> r == PageStep(page, [], None)
    ensures Api.Truthy(id) ==> r.calls == [OrderRequest(id.value)] && r.notice.None? && !r.page.loading
    ensures Api.Truthy(id) ==> r.page.order == (if reply.Ok? then Some(reply.value) else page.order)
    ensures r.page.cancelling == page.cancelling
  {
    if !Api.Truthy(id) then PageStep(page, [], None)
    else
      var order := if reply.Ok? then Some(reply.value) else page.order;
      PageStep(page.(order := order, loading := false), [OrderRequest(id.value)], None)
  }

  const CancelledNotice := Notice("Orden cancelada", "Tu orden ha sido cancelada exitosamente.", false)
  const CancelFailedNotice := Notice("Error", "No se pudo cancelar la orden. Inténtalo de nuevo.", true)

  /** `handleCancelOrder`: nothing without an order and an id; otherwise the cancel
      request, and after it succeeds a reload of the order. The status guard of the
      button is not repeated here. */
  function HandleCancelOrder(page: OrderPage, id: Option<string>,
                             cancelReply: Result<Order, ApiError>, reloadReply: Result<Order, ApiError>): (r: PageStep)
    ensures page.order.None? || !Api.Truthy(id) ==> r == PageStep(page, [], None)
    ensures page.order.Some? && Api.Truthy(id) ==> !r.page.cancelling && |r.calls| >= 1 && r.calls[0] == CancelRequest(id.value)
    ensures page.order.Some? && Api.Truthy(id) && cancelReply.Err? ==>
      r == PageStep(page.(cancelling := false), [CancelRequest(id.value)], Some(CancelFailedNotice))
    ensures page.order.Some? && Api.Truthy(id) && cancelReply.Ok? ==>
      && r.calls == [CancelRequest(id.value), OrderRequest(id.value)]
      && r.notice == Some(CancelledNotice)
      && r.page.order == (if reloadReply.Ok? then Some(reloadReply.value) else page.order)
  {
    if page.order.None? || !Api.Truthy(id) then PageStep(page, [], None)
    else
      var cancel := CancelRequest(id.value);
      match cancelReply
      case Err(_) => PageStep(page.(cancelling := false), [cancel], Some(CancelFailedNotice))
      case Ok(_) =>
        var reload := LoadOrder(page, id, reloadReply);
        PageStep(reload.page.(cancelling := false), [cancel] + reload.calls, Some(CancelledNotice))
  }

  /** The cancel and the reload address the same order. */
  lemma CancelAndReloadSameOrder(id: string)
    ensures ParseRouteId(id).Some? ==>
      var n := ParseRouteId(id).value;
      CancelRequest(id) == OrderService.CancelOrder(n) && OrderRequest(id) == OrderService.GetOrder(n)
  {
  }

  /** When the cancel succeeds but the reload fails, the success toast is still shown
      over the stale order, which still offers the cancel button when it did before. */
  lemma StaleOrderAfterFailedReload(page: OrderPage, id: Option<string>, cancelled: Order, e: ApiError)
    requires page.order.Some? && Api.Truthy(id)
    ensures var r := HandleCancelOrder(page, id, Ok(cancelled), Err(e));
      && r.notice == Some(CancelledNotice)
      && r.page.order == page.order
      && (CanCancel(page.order.value.status) ==> CanCancel(r.page.order.value.status))
  {
  }

  /** Without an id the first render never leaves the loading skeleton. */
  lemma NoIdKeepsLoading(reply: Result<Order, ApiError>)
    ensures LoadOrder(InitialPage, None, reply).page.loading
    ensures LoadOrder(InitialPage, Some(""), reply).page.loading
  {
  }
}

=== FILE: order_service.dfy ===
/** The order requests and display tables of src/services/orderService.ts. */
module OrderService {

  import opened Wrappers
  import opened Text
  import opened Types
  import opened FormEncoding

  /** The status as the API spells it. */
  function StatusName(s: OrderStatus): string {
    match s
    case Pending => "Pending"
    case Processing => "Processing"
    case Shipped => "Shipped"
    case Delivered => "Delivered"
    case Cancelled => "Cancelled"
    case Refunded => "Refunded"
  }

  /** The status a wire string names, if any. */
  function StatusFromName(t: string): Option<OrderStatus> {
    if t == "Pending" then Some(Pending)
    else if t == "Processing" then Some(Processing)
    else if t == "Shipped" then Some(Shipped)
    else if t == "Delivered" then Some(Delivered)
    else if t == "Cancelled" then Some(Cancelled)
    else if t == "Refunded" then Some(Refunded)
    else None
  }

  /** Every status is read back from its name, so no two statuses share one. */
  lemma StatusNameRoundTrip(s: OrderStatus)
    ensures StatusFromName(StatusName(s)) == Some(s)
  {
  }

  /** A name the table knows is the name of the status it is read as. */
  lemma StatusFromNameSound(t: string)
    ensures StatusFromName(t).Some? ==> StatusName(StatusFromName(t).value) == t
  {
  }

  datatype StatusBadge = StatusBadge(caption: string, color: string)

  const FallbackColor := "bg-gray-100 text-gray-800"

  /** The Spanish label and the badge colours of each status. */
  function KnownBadge(s: OrderStatus): StatusBadge {
    match s
    case Pending => StatusBadge("Pendiente", "bg-yellow-100 text-yellow-800")
    case Processing => StatusBadge("Procesando", "bg-blue-100 text-blue-800")
    case Shipped => StatusBadge("Enviado", "bg-purple-100 text-purple-800")
    case Delivered => StatusBadge("Entregado", "bg-green-100 text-green-800")
    case Cancelled => StatusBadge("Cancelado", "bg-red-100 text-red-800")
    case Refunded => StatusBadge("Reembolsado", FallbackColor)
  }

  /** `getOrderStatus(status)`: the table entry of a known status, otherwise the raw
      string in grey. */
  function GetOrderStatus(status: string): (b: StatusBadge)
    ensures StatusFromName(status).Some? ==> b == KnownBadge(StatusFromName(status).value)
    ensures StatusFromName(status).None? ==> b == StatusBadge(status, FallbackColor)
  {
    match StatusFromName(status)
    case Some(s) => KnownBadge(s)
    case None => StatusBadge(status, FallbackColor)
  }

  /** Distinct statuses are shown with distinct labels. */
  lemma StatusLabelsDistinct(s1: OrderStatus, s2: OrderStatus)
    ensures s1 != s2 ==> KnownBadge(s1).caption != KnownBadge(s2).caption
  {
    assert "Pendiente"[0] != "Entregado"[0] && "Pendiente"[0] != "Cancelado"[0] && "Entregado"[0] != "Cancelado"[0];
  }

  /** Only a refunded order shares its colour with an unknown status. */
  lemma OnlyRefundedIsGrey(s: OrderStatus)
    ensures KnownBadge(s).color == FallbackColor <==> s == Refunded
  {
    assert "bg-yellow-100 text-yellow-800"[3] != FallbackColor[3];
    assert "bg-blue-100 text-blue-800"[3] != FallbackColor[3];
    assert "bg-purple-100 text-purple-800"[3] != FallbackColor[3];
    assert "bg-green-100 text-green-800"[5] != FallbackColor[5];
    assert "bg-red-100 text-red-800"[3] != FallbackColor[3];
  }

  /** The payment method as the API spells it. */
  function PaymentName(m: PaymentMethod): string {
    match m
    case CreditCard => "CreditCard"
    case DebitCard => "DebitCard"
    case BankTransfer => "BankTransfer"
    case Cash => "Cash"
  }

  function PaymentFromName(t: string): Option<PaymentMethod> {
    if t == "CreditCard" then Some(CreditCard)
    else if t == "DebitCard" then Some(DebitCard)
    else if t == "BankTransfer" then Some(BankTransfer)
    else if t == "Cash" then Some(Cash)
    else None
  }

  lemma PaymentNameRoundTrip(m: PaymentMethod)
    ensures PaymentFromName(PaymentName(m)) == Some(m)
  {
  }

  function KnownPaymentLabel(m: PaymentMethod): string {
    match m
    case CreditCard => "Tarjeta de Crédito"
    case DebitCard => "Tarjeta de Débito"
    case BankTransfer => "Transferencia Bancaria"
    case Cash => "Efectivo"
  }

  /** `getPaymentMethodLabel(method)`: the Spanish label of a known name, otherwise
      the raw string. */
  function GetPaymentMethodLabel(name: string): (text: string)
    ensures PaymentFromName(name).Some? ==> text == KnownPaymentLabel(PaymentFromName(name).value)
    ensures PaymentFromName(name).None? ==> text == name
  {
    match PaymentFromName(name)
    case Some(m) => KnownPaymentLabel(m)
    case None => name
  }

  /** Distinct methods are shown with distinct labels. */
  lemma PaymentLabelsDistinct(m1: PaymentMethod, m2: PaymentMethod)
    ensures m1 != m2 ==> KnownPaymentLabel(m1) != KnownPaymentLabel(m2)
  {
    assert "Tarjeta de Crédito"[11] != "Tarjeta de Débito"[11];
  }

  /** `createOrder(data)`: the order is posted to the collection. */
  function CreateOrder(data: CreateOrderRequest): (r: Request)
    ensures r.verb == POST && r.url == "/orders"
  {
    Request(POST, "/orders")
  }

  /** `getOrder(orderId)`: the id is the last path segment. */
  function GetOrder(orderId: int): (r: Request)
    ensures r.verb == GET && |r.url| > 8 && r.url[..8] == "/orders/"
    ensures ParseInt(r.url[8..]) == Some(orderId)
  {
    IntToStringRoundTrip(orderId);
    Request(GET, "/orders/" + IntToString(orderId))
  }

  /** `cancelOrder(orderId)`: the id between "/orders/" and "/cancel". */
  function CancelOrder(orderId: int): (r: Request)
    ensures r.verb == PUT && |r.url| > 15 && r.url[..8] == "/orders/" && r.url[|r.url| - 7..] == "/cancel"
    ensures ParseInt(r.url[8..|r.url| - 7]) == Some(orderId)
  {
    var n := IntToString(orderId);
    var url := "/orders/" + n + "/cancel";
    assert url[8..|url| - 7] == n;
    IntToStringRoundTrip(orderId);
    Request(PUT, url)
  }

  /** Distinct orders are fetched and cancelled at distinct addresses. */
  lemma OrderUrlsDistinct(a: int, b: int)
    ensures a != b ==> GetOrder(a).url != GetOrder(b).url && CancelOrder(a).url != CancelOrder(b).url
  {
  }

  /** `getUserOrders(page = 1, pageSize = 10)`: the defaults apply only when the argument
      is left out. */
  function GetUserOrders(page: Option<int>, pageSize: Option<int>): (r: Request)
    ensures r.verb == GET && |r.url| > 8 && r.url[..8] == "/orders?"
  {
    Request(GET, "/orders?page=" + IntToString(page.GetOr(1)) + "&pageSize=" + IntToString(pageSize.GetOr(10)))
  }

  /** The parameters the orders page asks for. */
  function UserOrdersParams(page: Option<int>, pageSize: Option<int>): seq<Param> {
    [Param("page", IntToString(page.GetOr(1))), Param("pageSize", IntToString(pageSize.GetOr(10)))]
  }

  lemma PageLiterals()
    ensures "/orders?page=" == "/orders?" + ("page" + "=")
    ensures "&pageSize=" == "&" + ("pageSize" + "=")
  {
  }

  lemma PageNamesUnreserved()
    ensures AllUnreserved("page") && AllUnreserved("pageSize")
  {
    assert forall i :: 0 <= i < |"pageSize"| ==> Unreserved("pageSize"[i] as int);
  }

  lemma NumeralPair(name: string, n: int)
    requires AllUnreserved(name)
    ensures Pair(Param(name, IntToString(n))) == name + "=" + IntToString(n)
  {
    EncodeKeepsUnreserved(name);
    NumeralsAreUnreserved(n);
    EncodeKeepsUnreserved(IntToString(n));
  }

  lemma SerializeTwo(a: Param, b: Param)
    ensures Serialize([a, b]) == Pair(a) + "&" + Pair(b)
  {
    assert [a, b][1..] == [b];
  }

  lemma Regroup(x: string, k1: string, eq: string, v1: string, amp: string, k2: string, v2: string)
    ensures (x + (k1 + eq) + v1 + (amp + (k2 + eq)) + v2)[|x|..] == (k1 + eq + v1) + amp + (k2 + eq + v2)
  {
  }

  /** The form encoding of the two parameters, written out: names and numerals need
      no escaping. */
  lemma UserOrdersSerialized(p: string, s: string, page: Option<int>, pageSize: Option<int>)
    requires p == IntToString(page.GetOr(1)) && s == IntToString(pageSize.GetOr(10))
    ensures Serialize(UserOrdersParams(page, pageSize)) == ("page" + "=" + p) + "&" + ("pageSize" + "=" + s)
  {
    var a := Param("page", p);
    var b := Param("pageSize", s);
    assert UserOrdersParams(page, pageSize) == [a, b];
    PageNamesUnreserved();
    NumeralPair("page", page.GetOr(1));
    NumeralPair("pageSize", pageSize.GetOr(10));
    SerializeTwo(a, b);
  }

  /** The hand-built query string is exactly the form encoding of its two parameters. */
  lemma UserOrdersUrlIsFormEncoded(page: Option<int>, pageSize: Option<int>)
    ensures GetUserOrders(page, pageSize).url[8..] == Serialize(UserOrdersParams(page, pageSize))
  {
    var p := IntToString(page.GetOr(1));
    var s := IntToString(pageSize.GetOr(10));
    UserOrdersSerialized(p, s, page, pageSize);
    PageLiterals();
    Regroup("/orders?", "page", "=", p, "&", "pageSize", s);
  }

  /** A server reading the query gets the requested page and page size back, with 1
      and 10 when they were left out. */
  lemma UserOrdersReadBack(page: Option<int>, pageSize: Option<int>)
    ensures Parse(GetUserOrders(page, pageSize).url[8..]) == Some(UserOrdersParams(page, pageSize))
    ensures ParseInt(UserOrdersParams(page, pageSize)[0].value) == Some(page.GetOr(1))
    ensures ParseInt(UserOrdersParams(page, pageSize)[1].value) == Some(pageSize.GetOr(10))
  {
    UserOrdersUrlIsFormEncoded(page, pageSize);
    ParseSerialize(UserOrdersParams(page, pageSize));
    IntToStringRoundTrip(page.GetOr(1));
    IntToStringRoundTrip(pageSize.GetOr(10));
  }
}

=== FILE: product_service.dfy ===
/** The catalogue requests of src/services/productService.ts: the query string of
    `getProducts` and the defaults its wrappers fill in. */
module ProductService {

  import opened Wrappers
  import opened Text
  import opened Sequences
  import opened Types
  import opened FormEncoding

  /** `ProductsQuery`: every field optional. */
  datatype ProductsQuery = ProductsQuery(
    featured: Option<bool>,
    categoryId: Option<int>,
    producerId: Option<int>,
    searchTerm: Option<string>,
    page: Option<int>,
    pageSize: Option<int>)

  const NoQuery := ProductsQuery(None, None, None, None, None, None)

  /** A number field is truthy when present and non-zero. */
  predicate TruthyNumber(n: Option<int>) {
    n.Some? && n.value != 0
  }

  /** A text field is truthy when present and non-empty. */
  predicate TruthyText(t: Option<string>) {
    t.Some? && t.value != ""
  }

  /** `Boolean.prototype.toString`. */
  function BoolString(b: bool): string {
    if b then "true" else "false"
  }

  /** The order in which `getProducts` appends its parameters. */
  const ParamOrder := ["featured", "categoryId", "producerId", "searchTerm", "page", "pageSize"]

  /** The slot of a number parameter: filled when the number is truthy. */
  function NumberSlot(name: string, n: Option<int>): Option<Param> {
    if TruthyNumber(n) then Some(Param(name, IntToString(n.value))) else None
  }

  /** One slot per parameter, in the order `getProducts` appends them: `featured`
      whenever it is given (also when false), the numbers only when non-zero, the
      search term only when non-empty. */
  function Slots(q: ProductsQuery): (slots: seq<Option<Param>>)
    ensures |slots| == |ParamOrder|
    ensures forall i :: 0 <= i < |slots| && slots[i].Some? ==> slots[i].value.name == ParamOrder[i]
  {
    [ if q.featured.Some? then Some(Param("featured", BoolString(q.featured.value))) else None,
      NumberSlot("categoryId", q.categoryId),
      NumberSlot("producerId", q.producerId),
      if TruthyText(q.searchTerm) then Some(Param("searchTerm", q.searchTerm.value)) else None,
      NumberSlot("page", q.page),
      NumberSlot("pageSize", q.pageSize) ]
  }

  /** The filled slots, in order. */
  function Present(slots: seq<Option<Param>>): seq<Param>
    decreases |slots|
  {
    if slots == [] then []
    else if slots[0].Some? then [slots[0].value] + Present(slots[1..])
    else Present(slots[1..])
  }

  /** The parameters `getProducts` appends. */
  function QueryParams(q: ProductsQuery): seq<Param> {
    Present(Slots(q))
  }

  /** The URL `getProducts` requests. */
  function ProductsUrl(q: ProductsQuery): (url: string)
    ensures |url| >= 10 && url[..10] == "/products?"
    ensures url[10..] == Serialize(QueryParams(q))
  {
    "/products?" + Serialize(QueryParams(q))
  }

  function Names(ps: seq<Param>): seq<string>
    decreases |ps|
  {
    if ps == [] then [] else [ps[0].name] + Names(ps[1..])
  }

  /** Slots named after `order`, one for one. */
  predicate NamedAfter(slots: seq<Option<Param>>, order: seq<string>) {
    |slots| == |order| && forall i :: 0 <= i < |slots| && slots[i].Some? ==> slots[i].value.name == order[i]
  }

  lemma {:induction false} PresentNamesSubseq(slots: seq<Option<Param>>, order: seq<string>)
    requires NamedAfter(slots, order)
    ensures Subseq(Names(Present(slots)), order)
    decreases |slots|
  {
    if slots == [] {
      assert Names([]) == [];
    } else {
      assert NamedAfter(slots[1..], order[1..]);
      PresentNamesSubseq(slots[1..], order[1..]);
      assert order == [order[0]] + order[1..];
      if slots[0].Some? {
        var ps := [slots[0].value] + Present(slots[1..]);
        assert ps[1..] == Present(slots[1..]);
        SubseqCons(order[0], Names(Present(slots[1..])), order[1..]);
      } else {
        SubseqSkip(order[0], Names(Present(slots[1..])), order[1..]);
      }
    }
  }

  predicate Distinct(order: seq<string>) {
    forall j, k :: 0 <= j < k < |order| ==> order[j] != order[k]
  }

  lemma ParamOrderDistinct()
    ensures Distinct(ParamOrder)
  {
    assert "featured"[0] != "pageSize"[0];
    assert "categoryId"[0] != "producerId"[0] && "categoryId"[0] != "searchTerm"[0] && "producerId"[0] != "searchTerm"[0];
  }

  /** Each parameter appears at most once, and always in the same order. */
  lemma ParamsInFixedOrder(q: ProductsQuery)
    ensures Subseq(Names(QueryParams(q)), ParamOrder)
  {
    PresentNamesSubseq(Slots(q), ParamOrder);
  }

  /** The value of the first parameter called `name`, as a server reads the query. */
  function Lookup(ps: seq<Param>, name: string): (r: Option<string>)
    ensures r.Some? ==> Param(name, r.value) in ps
    ensures r.None? <==> forall i :: 0 <= i < |ps| ==> ps[i].name != name
    decreases |ps|
  {
    if ps == [] then None
    else if ps[0].name == name then Some(ps[0].value)
    else Lookup(ps[1..], name)
  }

  /** The value found is the one of the first parameter with that name: every earlier
      parameter has another name. */
  lemma {:induction false} LookupFirst(ps: seq<Param>, name: string)
    requires Lookup(ps, name).Some?
    ensures exists i :: 0 <= i < |ps| && ps[i] == Param(name, Lookup(ps, name).value)
                        && forall j :: 0 <= j < i ==> ps[j].name != name
    decreases |ps|
  {
    if ps[0].name == name {
      assert ps[0] == Param(name, ps[0].value);
    } else {
      LookupFirst(ps[1..], name);
      var i :| 0 <= i < |ps[1..]| && ps[1..][i] == Param(name, Lookup(ps, name).value)
               && forall j :: 0 <= j < i ==> ps[1..][j].name != name;
      assert ps[i + 1] == Param(name, Lookup(ps, name).value);
      forall j | 0 <= j < i + 1 ensures ps[j].name != name {
        if j > 0 {
          assert ps[j] == ps[1..][j - 1];
        }
      }
    }
  }

  lemma {:induction false} LookupAbsent(slots: seq<Option<Param>>, name: string)
    requires forall j :: 0 <= j < |slots| && slots[j].Some? ==> slots[j].value.name != name
    ensures Lookup(Present(slots), name) == None
    decreases |slots|
  {
    if slots != [] {
      LookupAbsent(slots[1..], name);
      if slots[0].Some? {
        assert ([slots[0].value] + Present(slots[1..]))[1..] == Present(slots[1..]);
      }
    }
  }

  /** In slots named after distinct names, looking a name up finds its own slot. */
  lemma {:induction false} LookupPresent(slots: seq<Option<Param>>, order: seq<string>, i: int)
    requires NamedAfter(slots, order) && Distinct(order) && 0 <= i < |slots|
    ensures Lookup(Present(slots), order[i]) == if slots[i].Some? then Some(slots[i].value.value) else None
    decreases |slots|
  {
    var rest := Present(slots[1..]);
    assert NamedAfter(slots[1..], order[1..]) && Distinct(order[1..]);
    if slots[0].Some? {
      assert ([slots[0].value] + rest)[1..] == rest;
    }
    if i == 0 {
      if slots[0].None? {
        LookupAbsent(slots[1..], order[0]);
      }
    } else {
      LookupPresent(slots[1..], order[1..], i - 1);
    }
  }

  function ParseBool(t: Option<string>): Option<bool> {
    if t == Some("true") then Some(true)
    else if t == Some("false") then Some(false)
    else None
  }

  function ParseNumber(t: Option<string>): Option<int> {
    if t.Some? then ParseInt(t.value) else None
  }

  /** The query a server reads back from the parameters. */
  function QueryOf(ps: seq<Param>): ProductsQuery {
    ProductsQuery(
      ParseBool(Lookup(ps, "featured")),
      ParseNumber(Lookup(ps, "categoryId")),
      ParseNumber(Lookup(ps, "producerId")),
      Lookup(ps, "searchTerm"),
      ParseNumber(Lookup(ps, "page")),
      ParseNumber(Lookup(ps, "pageSize")))
  }

  /** What survives the truthiness tests: zeros and the empty search term dropped. */
  function Normalize(q: ProductsQuery): ProductsQuery {
    ProductsQuery(
      q.featured,
      if TruthyNumber(q.categoryId) then q.categoryId else None,
      if TruthyNumber(q.producerId) then q.producerId else None,
      if TruthyText(q.searchTerm) then q.searchTerm else None,
      if TruthyNumber(q.page) then q.page else None,
      if TruthyNumber(q.pageSize) then q.pageSize else None)
  }

  lemma NumberRecovered(n: Option<int>)
    ensures TruthyNumber(n) ==> ParseNumber(Some(IntToString(n.value))) == n
  {
    if TruthyNumber(n) {
      IntToStringRoundTrip(n.value);
    }
  }

  lemma BoolRecovered(b: Option<bool>)
    ensures b.Some? ==> ParseBool(Some(BoolString(b.value))) == b
  {
  }

  /** Reading the parameters back gives the query, up to the values its truthiness
      tests drop. */
  lemma QueryOfParams(q: ProductsQuery)
    ensures QueryOf(QueryParams(q)) == Normalize(q)
  {
    var slots := Slots(q);
    ParamOrderDistinct();
    LookupPresent(slots, ParamOrder, 0);
    LookupPresent(slots, ParamOrder, 1);
    LookupPresent(slots, ParamOrder, 2);
    LookupPresent(slots, ParamOrder, 3);
    LookupPresent(slots, ParamOrder, 4);
    LookupPresent(slots, ParamOrder, 5);
    BoolRecovered(q.featured);
    NumberRecovered(q.categoryId);
    NumberRecovered(q.producerId);
    NumberRecovered(q.page);
    NumberRecovered(q.pageSize);
  }

  /** The parameters depend on the query only through what survives the truthiness
      tests. */
  lemma ParamsOfNormalized(q: ProductsQuery)
    ensures QueryParams(Normalize(q)) == QueryParams(q)
  {
  }

  /** Two queries produce the same URL exactly when they agree once zeros and empty
      search terms are dropped: the URL loses nothing else. */
  lemma SameUrlIffSameQuery(q1: ProductsQuery, q2: ProductsQuery)
    ensures ProductsUrl(q1) == ProductsUrl(q2) <==> Normalize(q1) == Normalize(q2)
  {
    if ProductsUrl(q1) == ProductsUrl(q2) {
      ParseSerialize(QueryParams(q1));
      ParseSerialize(QueryParams(q2));
      QueryOfParams(q1);
      QueryOfParams(q2);
    }
    if Normalize(q1) == Normalize(q2) {
      ParamsOfNormalized(q1);
      ParamsOfNormalized(q2);
    }
  }

  /** `getProducts(query)`. */
  function GetProducts(q: ProductsQuery): (r: Request)
    ensures r.verb == GET && r.url == ProductsUrl(q)
  {
    Request(GET, ProductsUrl(q))
  }

  /** `getFeaturedProducts(limit = 6)`. */
  function FeaturedQuery(limit: Option<int>): (q: ProductsQuery)
    ensures q.featured == Some(true) && q.pageSize == Some(limit.GetOr(6))
    ensures q.categoryId.None? && q.producerId.None? && q.searchTerm.None? && q.page.None?
  {
    ProductsQuery(Some(true), None, None, None, None, Some(limit.GetOr(6)))
  }

  /** The three paged wrappers share their defaults: page 1, twelve per page. */
  function Paged(q: ProductsQuery, page: Option<int>, pageSize: Option<int>): ProductsQuery {
    q.(page := Some(page.GetOr(1)), pageSize := Some(pageSize.GetOr(12)))
  }

  /** `searchProducts(searchTerm, page = 1, pageSize = 12)`. */
  function SearchQuery(searchTerm: string, page: Option<int>, pageSize: Option<int>): (q: ProductsQuery)
    ensures q.searchTerm == Some(searchTerm) && q.page == Some(page.GetOr(1)) && q.pageSize == Some(pageSize.GetOr(12))
    ensures q.featured.None? && q.categoryId.None? && q.producerId.None?
  {
    Paged(NoQuery.(searchTerm := Some(searchTerm)), page, pageSize)
  }

  /** `getProductsByCategory(categoryId, page = 1, pageSize = 12)`. */
  function CategoryQuery(categoryId: int, page: Option<int>, pageSize: Option<int>): (q: ProductsQuery)
    ensures q.categoryId == Some(categoryId) && q.page == Some(page.GetOr(1)) && q.pageSize == Some(pageSize.GetOr(12))
    ensures q.featured.None? && q.producerId.None? && q.searchTerm.None?
  {
    Paged(NoQuery.(categoryId := Some(categoryId)), page, pageSize)
  }

  /** `getProductsByProducer(producerId, page = 1, pageSize = 12)`. */
  function ProducerQuery(producerId: int, page: Option<int>, pageSize: Option<int>): (q: ProductsQuery)
    ensures q.producerId == Some(producerId) && q.page == Some(page.GetOr(1)) && q.pageSize == Some(pageSize.GetOr(12))
    ensures q.featured.None? && q.categoryId.None? && q.searchTerm.None?
  {
    Paged(NoQuery.(producerId := Some(producerId)), page, pageSize)
  }

  /** By default the featured products are asked for with `featured=true` and
      `pageSize=6`, and nothing else. */
  lemma FeaturedDefaultParams()
    ensures QueryParams(FeaturedQuery(None)) == [Param("featured", "true"), Param("pageSize", "6")]
  {
    var p1 := Param("featured", "true");
    var p2 := Param("pageSize", "6");
    assert IntToString(6) == "6";
    var slots := Slots(FeaturedQuery(None));
    assert slots == [Some(p1), None, None, None, None, Some(p2)];
    assert slots[5..][1..] == [] && Present(slots[5..]) == [p2];
    assert slots[4..][1..] == slots[5..] && Present(slots[4..]) == [p2];
    assert slots[3..][1..] == slots[4..] && Present(slots[3..]) == [p2];
    assert slots[2..][1..] == slots[3..] && Present(slots[2..]) == [p2];
    assert slots[1..][1..] == slots[2..] && Present(slots[1..]) == [p2];
  }

  /** An empty search term filters nothing: the request is the plain first page. */
  lemma EmptySearchListsEverything(page: Option<int>, pageSize: Option<int>)
    ensures ProductsUrl(SearchQuery("", page, pageSize)) == ProductsUrl(Paged(NoQuery, page, pageSize))
  {
  }

  /** Category 0 is falsy, so asking for it lists every category. */
  lemma CategoryZeroIsDropped(page: Option<int>, pageSize: Option<int>)
    ensures ProductsUrl(CategoryQuery(0, page, pageSize)) == ProductsUrl(Paged(NoQuery, page, pageSize))
  {
  }

  /** `getProduct(id)`: distinct ids address distinct resources. */
  function GetProduct(id: int): (r: Request)
    ensures r.verb == GET && |r.url| > 10 && r.url[..10] == "/products/"
    ensures ParseInt(r.url[10..]) == Some(id)
  {
    IntToStringRoundTrip(id);
    Request(GET, "/products/" + IntToString(id))
  }

  /** `getProductBySlug(slug)`: the slug is put into the path as it is, without any
      encoding. */
  function GetProductBySlug(slug: string): (r: Request)
    ensures r.verb == GET && |r.url| == 10 + |slug| && r.url[10..] == slug
  {
    Request(GET, "/products/" + slug)
  }
}

=== FILE: sequences.dfy ===
/** Order-preserving sub-sequences, the relation a JavaScript `filter` establishes
    between its output and its input. */
module Sequences {

  /** `a` is obtained from `b` by deleting elements, without reordering the rest. */
  predicate Subseq<T(==)>(a: seq<T>, b: seq<T>)
    decreases |b|
  {
    if a == [] then true
    else if b == [] then false
    else (a[0] == b[0] && Subseq(a[1..], b[1..])) || Subseq(a, b[1..])
  }

  lemma {:induction false} SubseqRefl<T>(a: seq<T>)
    ensures Subseq(a, a)
    decreases |a|
  {
    if a != [] {
      SubseqRefl(a[1..]);
    }
  }

  /** Every element of a sub-sequence occurs in the sequence it was taken from. */
  lemma {:induction false} SubseqMembers<T>(a: seq<T>, b: seq<T>, x: T)
    requires Subseq(a, b)
    requires x in a
    ensures x in b
    decreases |b|
  {
    if a[0] == b[0] && Subseq(a[1..], b[1..]) {
      if x != a[0] {
        SubseqMembers(a[1..], b[1..], x);
      }
    } else {
      SubseqMembers(a, b[1..], x);
    }
  }

  lemma {:induction false} SubseqLength<T>(a: seq<T>, b: seq<T>)
    requires Subseq(a, b)
    ensures |a| <= |b|
    decreases |b|
  {
    if a != [] {
      if a[0] == b[0] && Subseq(a[1..], b[1..]) {
        SubseqLength(a[1..], b[1..]);
      } else {
        SubseqLength(a, b[1..]);
      }
    }
  }

  /** Prefixing the same element to both sides keeps the relation. */
  lemma SubseqCons<T>(x: T, a: seq<T>, b: seq<T>)
    requires Subseq(a, b)
    ensures Subseq([x] + a, [x] + b)
  {
    assert ([x] + a)[1..] == a;
    assert ([x] + b)[1..] == b;
  }

  /** Dropping a leading element of the larger side keeps the relation. */
  lemma SubseqSkip<T>(x: T, a: seq<T>, b: seq<T>)
    requires Subseq(a, b)
    ensures Subseq(a, [x] + b)
  {
    assert ([x] + b)[1..] == b;
  }

  /** `[x]` when `b` holds and `[]` otherwise: one conditional `push`. */
  function When<T>(b: bool, x: T): seq<T> {
    if b then [x] else []
  }

  /** A conditional element before a sub-sequence keeps the relation with the
      element put before the larger side. */
  lemma WhenThenSubseq<T>(b: bool, x: T, a: seq<T>, rest: seq<T>)
    requires Subseq(a, rest)
    ensures Subseq(When(b, x) + a, [x] + rest)
  {
    if b {
      SubseqCons(x, a, rest);
    } else {
      assert When(b, x) + a == a;
      SubseqSkip(x, a, rest);
    }
  }
}

=== FILE: text.dfy ===
/** The string primitives of JavaScript the client relies on: the white-space class
    shared by `\s` and `String.prototype.trim`, trimming, `toUpperCase` on ASCII
    letters, and the decimal rendering of integers by `Number.prototype.toString`. */
module Text {

  import opened Wrappers

  /** The characters matched by JavaScript's `\s` and stripped by `trim()`:
      ASCII tab, line feed, vertical tab, form feed, carriage return and space,
      plus the Unicode space separators, line/paragraph separators and BOM. */
  predicate IsSpace(c: char) {
    || c == ' ' || c == '\t' || c == '\n' || c == '\r' || c == '\U{000B}' || c == '\U{000C}'
    || c == '\U{00A0}' || c == '\U{1680}' || ('\U{2000}' <= c <= '\U{200A}')
    || c == '\U{2028}' || c == '\U{2029}' || c == '\U{202F}' || c == '\U{205F}'
    || c == '\U{3000}' || c == '\U{FEFF}'
  }

  predicate AllSpace(s: string) {
    forall i :: 0 <= i < |s| ==> IsSpace(s[i])
  }

  predicate NoSpace(s: string) {
    forall i :: 0 <= i < |s| ==> !IsSpace(s[i])
  }

  /** `s` with its leading white space removed. */
  function TrimStart(s: string): (r: string)
    ensures |r| <= |s| && r == s[|s| - |r|..]
    ensures AllSpace(s[..|s| - |r|])
    ensures r == [] || !IsSpace(r[0])
  {
    if s == [] || !IsSpace(s[0]) then s
    else
      var r := TrimStart(s[1..]);
      var k := |s| - |r|;
      assert AllSpace(s[..k]) by {
        forall i | 1 <= i < k ensures IsSpace(s[..k][i]) {
          assert s[..k][i] == s[1..][..k - 1][i - 1];
        }
      }
      r
  }

  /** `s` with its trailing white space removed. */
  function TrimEnd(s: string): (r: string)
    ensures |r| <= |s| && r == s[..|r|]
    ensures AllSpace(s[|r|..])
    ensures r == [] || !IsSpace(r[|r| - 1])
  {
    if s == [] || !IsSpace(s[|s| - 1]) then s
    else
      var r := TrimEnd(s[..|s| - 1]);
      assert s[|r|..] == s[..|s| - 1][|r|..] + [s[|s| - 1]];
      r
  }

  /** JavaScript's `s.trim()`: the white space at both ends removed. */
  function Trim(s: string): (r: string)
    ensures |r| <= |s|
    ensures r == [] || (!IsSpace(r[0]) && !IsSpace(r[|r| - 1]))
  {
    var t := TrimStart(s);
    TrimEnd(t)
  }

  /** What `Trim` removes is white space, and what it keeps is one contiguous slice. */
  lemma TrimIsInnerSlice(s: string)
    ensures exists i, j :: 0 <= i <= j <= |s| && Trim(s) == s[i..j] && AllSpace(s[..i]) && AllSpace(s[j..])
  {
    var t := TrimStart(s);
    var r := TrimEnd(t);
    var i := |s| - |t|;
    var j := i + |r|;
    assert r == s[i..j];
    assert s[j..] == t[|r|..];
    assert 0 <= i <= j <= |s| && Trim(s) == s[i..j] && AllSpace(s[..i]) && AllSpace(s[j..]);
  }

  /** A string trims to nothing exactly when it is entirely white space. */
  lemma TrimEmptyIffAllSpace(s: string)
    ensures Trim(s) == [] <==> AllSpace(s)
  {
    if Trim(s) == [] {
      TrimmedAwayIsSpace(s);
    }
    if AllSpace(s) {
      var t := TrimStart(s);
      SpaceSuffix(s, |s| - |t|);
      assert t == [];
    }
  }

  lemma SpaceSuffix(s: string, k: nat)
    requires AllSpace(s) && k <= |s|
    ensures AllSpace(s[k..])
  {
    forall i | 0 <= i < |s| - k ensures IsSpace(s[k..][i]) {
      assert s[k..][i] == s[k + i];
    }
  }

  lemma TrimmedAwayIsSpace(s: string)
    requires Trim(s) == []
    ensures AllSpace(s)
  {
    var t := TrimStart(s);
    assert TrimEnd(t) == [];
    assert t[0..] == t;
    assert t == [];
    assert s[..|s|] == s;
  }

  /** A joined string is blank exactly when its pieces and the separator are. */
  lemma AllSpaceJoin(a: string, c: char, b: string)
    ensures AllSpace(a + [c] + b) <==> AllSpace(a) && IsSpace(c) && AllSpace(b)
  {
    var t := a + [c] + b;
    if AllSpace(t) {
      assert t[|a|] == c;
      forall i | 0 <= i < |a| ensures IsSpace(a[i]) {
        assert a[i] == t[i];
      }
      forall i | 0 <= i < |b| ensures IsSpace(b[i]) {
        assert b[i] == t[|a| + 1 + i];
      }
    }
  }

  /** Trimming a string that already has no white space at its ends changes nothing. */
  lemma TrimIdempotent(s: string)
    ensures Trim(Trim(s)) == Trim(s)
  {
    var r := Trim(s);
    if r != [] {
      assert TrimStart(r) == r;
      assert TrimEnd(r) == r;
    }
  }

  /** JavaScript's `s.replace(/\s/g, '')`: every white-space character deleted. */
  function RemoveSpaces(s: string): (r: string)
    ensures NoSpace(r)
    ensures |r| <= |s|
    ensures NoSpace(s) ==> r == s
  {
    if s == [] then []
    else if IsSpace(s[0]) then RemoveSpaces(s[1..])
    else [s[0]] + RemoveSpaces(s[1..])
  }

  lemma {:induction false} RemoveSpacesAppend(a: string, b: string)
    ensures RemoveSpaces(a + b) == RemoveSpaces(a) + RemoveSpaces(b)
    decreases |a|
  {
    if a == [] {
      assert a + b == b;
    } else {
      assert (a + b)[0] == a[0];
      assert (a + b)[1..] == a[1..] + b;
      RemoveSpacesAppend(a[1..], b);
    }
  }

  /** Inserting a white-space character anywhere does not change what survives the removal. */
  lemma RemoveSpacesIgnoresInsertedSpace(a: string, c: char, b: string)
    requires IsSpace(c)
    ensures RemoveSpaces(a + [c] + b) == RemoveSpaces(a + b)
  {
    assert a + [c] + b == a + ([c] + b);
    RemoveSpacesAppend(a, [c] + b);
    RemoveSpacesAppend(a, b);
    assert ([c] + b)[1..] == b;
  }

  predicate IsDigit(c: char) {
    '0' <= c <= '9'
  }

  predicate AllDigits(s: string) {
    forall i :: 0 <= i < |s| ==> IsDigit(s[i])
  }

  predicate IsUpperAscii(c: char) {
    'A' <= c <= 'Z'
  }

  predicate IsLowerAscii(c: char) {
    'a' <= c <= 'z'
  }

  /** `toUpperCase` restricted to ASCII: lower-case letters are shifted, every other
      character is returned unchanged. */
  function UpperAscii(c: char): (r: char)
    ensures IsLowerAscii(c) ==> IsUpperAscii(r) && r as int == c as int - 32
    ensures !IsLowerAscii(c) ==> r == c
  {
    if IsLowerAscii(c) then (c as int - 32) as char else c
  }

  /** Number of occurrences of `c` in `s`. */
  function Count(s: string, c: char): (n: nat)
    ensures n <= |s|
    ensures n == 0 <==> c !in s
  {
    if s == [] then 0
    else (if s[0] == c then 1 else 0) + Count(s[1..], c)
  }

  lemma {:induction false} CountAppend(a: string, b: string, c: char)
    ensures Count(a + b, c) == Count(a, c) + Count(b, c)
    decreases |a|
  {
    if a == [] {
      assert a + b == b;
    } else {
      assert (a + b)[1..] == a[1..] + b;
      CountAppend(a[1..], b, c);
    }
  }

  /** JavaScript's `s.indexOf(c)`: the first position of `c`, or -1. */
  function IndexOf(s: string, c: char): (k: int)
    ensures -1 <= k < |s|
    ensures k == -1 <==> c !in s
    ensures k >= 0 ==> s[k] == c && c !in s[..k]
  {
    if s == [] then -1
    else if s[0] == c then 0
    else
      var k := IndexOf(s[1..], c);
      if k == -1 then -1
      else
        assert s[..k + 1] == [s[0]] + s[1..][..k];
        k + 1
  }

  function DigitChar(d: int): (c: char)
    requires 0 <= d < 10
    ensures IsDigit(c) && c as int - '0' as int == d
  {
    (d + '0' as int) as char
  }

  function DigitValue(c: char): (d: int)
    requires IsDigit(c)
    ensures 0 <= d < 10 && DigitChar(d) == c
  {
    c as int - '0' as int
  }

  /** The decimal numeral of a natural number, most significant digit first, as
      `Number.prototype.toString()` writes it. */
  function NatToString(n: nat): (r: string)
    ensures 1 <= |r| && AllDigits(r)
    ensures r[0] == '0' ==> n == 0
    decreases n
  {
    if n < 10 then [DigitChar(n)]
    else NatToString(n / 10) + [DigitChar(n % 10)]
  }

  /** The value of a string of decimal digits. */
  function DigitsValue(s: string): nat
    requires AllDigits(s)
    decreases |s|
  {
    if s == [] then 0
    else DigitsValue(s[..|s| - 1]) * 10 + DigitValue(s[|s| - 1])
  }

  /** Reading back the numeral of `n` yields `n`. */
  lemma {:induction false} NatToStringRoundTrip(n: nat)
    ensures DigitsValue(NatToString(n)) == n
    decreases n
  {
    if n >= 10 {
      var r := NatToString(n);
      assert r[..|r| - 1] == NatToString(n / 10);
      NatToStringRoundTrip(n / 10);
    }
  }

  /** The numeral of an integer: a minus sign before the numeral of a negative one. */
  function IntToString(n: int): (r: string)
    ensures 1 <= |r|
    ensures n >= 0 ==> AllDigits(r)
    ensures n < 0 ==> r[0] == '-' && AllDigits(r[1..])
  {
    if n < 0 then "-" + NatToString(-n) else NatToString(n)
  }

  /** Reading an integer numeral back: the inverse of `IntToString`. */
  function ParseInt(s: string): (r: Option<int>)
  {
    if |s| >= 1 && s[0] == '-' && AllDigits(s[1..]) then Some(-(DigitsValue(s[1..]) as int))
    else if AllDigits(s) then Some(DigitsValue(s))
    else None
  }

  lemma IntToStringRoundTrip(n: int)
    ensures ParseInt(IntToString(n)) == Some(n)
  {
    var s := IntToString(n);
    if n < 0 {
      var d := NatToString(-n);
      assert s == "-" + d;
      assert s[0] == '-' && s[1..] == d;
      NatToStringRoundTrip(-n);
    } else {
      assert s == NatToString(n);
      assert s[0] != '-' by {
        assert IsDigit(s[0]);
      }
      NatToStringRoundTrip(n);
    }
  }

  /** Distinct integers have distinct numerals. */
  lemma IntToStringInjective(a: int, b: int)
    ensures IntToString(a) == IntToString(b) ==> a == b
  {
    IntToStringRoundTrip(a);
    IntToStringRoundTrip(b);
  }
}

=== FILE: types.dfy ===
/** The records the client exchanges with the REST API (src/types/index.ts).
    Prices and quantities are whole Colombian pesos and counts, so they are `int`. */
module Types {

  import opened Wrappers

  datatype Role = UserRole | AdminRole

  /** The role as the API spells it: 'User' or 'Admin'. */
  function RoleName(r: Role): string {
    match r
    case UserRole => "User"
    case AdminRole => "Admin"
  }

  /** The profile the API returns for an account; `phone` and `address` are optional. */
  datatype User = User(
    id: int,
    firstName: string,
    lastName: string,
    email: string,
    phone: Option<string>,
    address: Option<string>,
    role: Role,
    isActive: bool)

  /** The body of a login, register or refresh reply. A refresh reply may leave
      `refreshToken` empty, which the client treats as absent. */
  datatype AuthResponse = AuthResponse(user: User, accessToken: string, refreshToken: string)

  /** A line of the server's cart: the unit price is the server's snapshot. */
  datatype CartItem = CartItem(id: int, productId: int, quantity: int, unitPrice: int, totalPrice: int)

  /** The server-owned cart; `total` and `totalItems` are computed by the server. */
  datatype Cart = Cart(id: int, userId: int, items: seq<CartItem>, total: int, totalItems: int)

  /** A line of the full-replace payload posted to `/cart`. */
  datatype CartLine = CartLine(productId: int, quantity: int, price: int)

  /** The body of `POST /cart`: the complete desired item list and a client-estimated total. */
  datatype CartUpdateRequest = CartUpdateRequest(id: int, userId: int, items: seq<CartLine>, total: int)

  datatype OrderStatus = Pending | Processing | Shipped | Delivered | Cancelled | Refunded

  datatype PaymentMethod = CreditCard | DebitCard | BankTransfer | Cash

  datatype ShippingAddress = ShippingAddress(
    name: string,
    address: string,
    city: string,
    region: string,
    zipCode: string,
    phone: string)

  datatype Order = Order(
    id: int,
    userId: int,
    status: OrderStatus,
    total: int,
    paymentMethod: PaymentMethod,
    shippingAddress: ShippingAddress,
    notes: Option<string>)

  /** The body of `PUT /users/{id}`: every field optional. */
  datatype UpdateUserRequest = UpdateUserRequest(
    firstName: Option<string>,
    lastName: Option<string>,
    phone: Option<string>,
    address: Option<string>)

  datatype CreateOrderRequest = CreateOrderRequest(
    paymentMethod: PaymentMethod,
    shippingAddress: ShippingAddress,
    notes: Option<string>)

  /** The response envelope every endpoint answers with; `data` may be missing. */
  datatype Envelope<T> = Envelope(success: bool, message: string, data: Option<T>)

  /** A rejected request as callers see it: the HTTP status and the server's `message`,
      when the error carries a response at all. */
  datatype ApiError = ApiError(status: Option<int>, message: Option<string>)

  /** An error raised by the client itself (a `TypeError` on a missing field, say):
      it carries no HTTP response. */
  const ClientFault := ApiError(None, None)

  /** `error.response?.data?.message || fallback`: the server's message when it is a
      non-empty string, otherwise the caller's fallback text. */
  function MessageOr(e: ApiError, fallback: string): (m: string)
    ensures e.message.Some? && e.message.value != "" ==> m == e.message.value
    ensures e.message.None? || e.message.value == "" ==> m == fallback
  {
    if e.message.Some? && e.message.value != "" then e.message.value else fallback
  }

  /** A toast shown to the user; `destructive` is the error variant. */
  datatype Notice = Notice(title: string, description: string, destructive: bool)

  /** An HTTP request as the services issue it. */
  datatype Method = GET | POST | PUT | DELETE
  datatype Request = Request(verb: Method, url: string)
}

=== FILE: user_service.dfy ===
/** The profile requests and name helpers of src/services/userService.ts. */
module UserService {

  import opened Wrappers
  import opened Text
  import opened Types
  import opened Api

  /** `/users/{userId}`. */
  function UserUrl(userId: int): (url: string)
    ensures |url| > 7 && url[..7] == "/users/"
    ensures ParseInt(url[7..]) == Some(userId)
  {
    IntToStringRoundTrip(userId);
    "/users/" + IntToString(userId)
  }

  /** `getUser(userId)`. */
  function GetUser(userId: int): (r: Request)
    ensures r.verb == GET && r.url == UserUrl(userId)
  {
    Request(GET, UserUrl(userId))
  }

  /** `changePassword`: a fixed address under `/users/`. */
  const ChangePassword := Request(PUT, "/users/change-password")

  /** `deleteAccount(userId)`: the local session is left as it is. */
  function DeleteAccount(userId: int): (r: Request)
    ensures r.verb == DELETE && r.url == UserUrl(userId)
  {
    Request(DELETE, UserUrl(userId))
  }

  /** Why a profile call did not produce a user. */
  datatype ProfileFailure =
    | NoCurrentUser             // `Error('No current user found')`: nothing stored, or no id
    | UnreadableUser      // `JSON.parse` threw on the stored value
    | RequestFailed(error: ApiError)

  /** What a profile call leaves behind: the request it issued (if it got that far),
      the session after it, and the user handed back (possibly missing). */
  datatype UserCall = UserCall(request: Option<Request>, session: Session, result: Result<Option<User>, ProfileFailure>)

  /** `updateUser(userId, data)`: `PUT /users/{userId}`; the stored user is replaced
      only when the reply has `success` and carries data, which is returned either way. */
  function UpdateUser(s: Session, codec: UserCodec, userId: int, data: UpdateUserRequest,
                      reply: Result<Envelope<User>, ApiError>): (c: UserCall)
    ensures c.request == Some(Request(PUT, UserUrl(userId)))
    ensures c.session.accessToken == s.accessToken && c.session.refreshToken == s.refreshToken
    ensures reply.Ok? && reply.value.success && reply.value.data.Some? ==>
      c.session.user == Some(codec.serialize(reply.value.data.value))
    ensures !(reply.Ok? && reply.value.success && reply.value.data.Some?) ==> c.session == s
    ensures reply.Err? ==> c.result == Err(RequestFailed(reply.error))
    ensures reply.Ok? ==> c.result == Ok(reply.value.data)
  {
    var request := Some(Request(PUT, UserUrl(userId)));
    match reply
    case Err(e) => UserCall(request, s, Err(RequestFailed(e)))
    case Ok(env) =>
      var s' := if env.success && env.data.Some? then s.(user := Some(codec.serialize(env.data.value))) else s;
      UserCall(request, s', Ok(env.data))
  }

  /** `getCurrentUserProfile()`: the stored user's id, then `getUser`; without a stored
      id nothing is requested. */
  function GetCurrentUserProfile(s: Session, codec: UserCodec, reply: Result<Envelope<User>, ApiError>): (c: UserCall)
    ensures c.session == s
    ensures StoredUserId(s, codec) == NoId ==> c.request.None? && c.result == Err(NoCurrentUser)
    ensures StoredUserId(s, codec) == Unreadable ==> c.request.None? && c.result == Err(UnreadableUser)
    ensures StoredUserId(s, codec).IdOf? ==> c.request == Some(GetUser(StoredUserId(s, codec).id))
    ensures StoredUserId(s, codec).IdOf? ==>
      c.result == match reply
        case Err(e) => Err(RequestFailed(e))
        case Ok(env) => Ok(env.data)
  {
    match StoredUserId(s, codec)
    case NoId => UserCall(None, s, Err(NoCurrentUser))
    case Unreadable => UserCall(None, s, Err(UnreadableUser))
    case IdOf(id) =>
      var result := match reply
        case Err(e) => Err(RequestFailed(e))
        case Ok(env) => Ok(env.data);
      UserCall(Some(GetUser(id)), s, result)
  }

  /** `updateCurrentUserProfile(data)`: the stored user's id, then `updateUser`. */
  function UpdateCurrentUserProfile(s: Session, codec: UserCodec, data: UpdateUserRequest,
                                    reply: Result<Envelope<User>, ApiError>): (c: UserCall)
    ensures StoredUserId(s, codec) == NoId ==> c == UserCall(None, s, Err(NoCurrentUser))
    ensures StoredUserId(s, codec) == Unreadable ==> c == UserCall(None, s, Err(UnreadableUser))
    ensures StoredUserId(s, codec).IdOf? ==> c == UpdateUser(s, codec, StoredUserId(s, codec).id, data, reply)
  {
    match StoredUserId(s, codec)
    case NoId => UserCall(None, s, Err(NoCurrentUser))
    case Unreadable => UserCall(None, s, Err(UnreadableUser))
    case IdOf(id) => UpdateUser(s, codec, id, data, reply)
  }

  /** After login has stored a user with a non-zero id, the current profile is fetched
      from that user's address. */
  lemma ProfileOfStoredUser(s: Session, codec: UserCodec, u: User, reply: Result<Envelope<User>, ApiError>)
    requires Faithful(codec) && s.user == Some(codec.serialize(u)) && u.id != 0
    ensures GetCurrentUserProfile(s, codec, reply).request == Some(Request(GET, UserUrl(u.id)))
  {
    StoredUserIdOfWritten(s, codec, u);
  }

  /** A successful profile update re-points the current profile at the user the server
      returned, so the next read follows it. */
  lemma UpdateMovesCurrentProfile(s: Session, codec: UserCodec, data: UpdateUserRequest,
                                  reply: Result<Envelope<User>, ApiError>, next: Result<Envelope<User>, ApiError>)
    requires Faithful(codec) && StoredUserId(s, codec).IdOf?
    requires reply.Ok? && reply.value.success && reply.value.data.Some? && reply.value.data.value.id != 0
    ensures var c := UpdateCurrentUserProfile(s, codec, data, reply);
      GetCurrentUserProfile(c.session, codec, next).request == Some(GetUser(reply.value.data.value.id))
  {
    var c := UpdateCurrentUserProfile(s, codec, data, reply);
    StoredUserIdOfWritten(c.session, codec, reply.value.data.value);
  }

  /** The password change address is never the address of a profile. */
  lemma ChangePasswordIsNoProfile(userId: int)
    ensures ChangePassword.url != UserUrl(userId)
  {
  }

  /** `getFullName(user)`: first and last name joined by a space, trimmed. */
  function GetFullName(u: User): (r: string)
    ensures r == [] || (!IsSpace(r[0]) && !IsSpace(r[|r| - 1]))
  {
    Trim(u.firstName + " " + u.lastName)
  }

  /** The full name is empty exactly when both names are blank. */
  lemma FullNameEmptyIffBlank(u: User)
    ensures GetFullName(u) == [] <==> AllSpace(u.firstName) && AllSpace(u.lastName)
  {
    var t := u.firstName + " " + u.lastName;
    TrimEmptyIffAllSpace(t);
    AllSpaceJoin(u.firstName, ' ', u.lastName);
  }

  /** Names with no white space at their ends are joined unchanged. */
  lemma FullNameOfTrimmedNames(u: User)
    requires u.firstName != [] && !IsSpace(u.firstName[0])
    requires u.lastName != [] && !IsSpace(u.lastName[|u.lastName| - 1])
    ensures GetFullName(u) == u.firstName + " " + u.lastName
  {
    var t := u.firstName + " " + u.lastName;
    assert t[0] == u.firstName[0];
    assert t[|t| - 1] == u.lastName[|u.lastName| - 1];
    assert TrimStart(t) == t;
  }

  /** The upper-cased first character of a name, or nothing for an empty one. */
  function Initial(name: string): (r: string)
    ensures |r| == (if name == [] then 0 else 1)
    ensures name != [] ==> r[0] == UpperAscii(name[0])
  {
    if name == [] then [] else [UpperAscii(name[0])]
  }

  /** `getInitials(user)`: one letter per non-empty name. */
  function GetInitials(u: User): (r: string)
    ensures |r| <= 2
    ensures |r| == (if u.firstName == [] then 0 else 1) + (if u.lastName == [] then 0 else 1)
    ensures u.firstName != [] ==> r[0] == UpperAscii(u.firstName[0])
    ensures u.lastName != [] ==> r[|r| - 1] == UpperAscii(u.lastName[0])
  {
    Initial(u.firstName) + Initial(u.lastName)
  }

  /** The initials open with the upper-cased first letter of the full name, and never
      hold a lower-case ASCII letter. */
  lemma InitialsAgreeWithFullName(u: User)
    requires u.firstName != [] && !IsSpace(u.firstName[0])
    ensures GetInitials(u)[0] == UpperAscii(GetFullName(u)[0])
    ensures forall i :: 0 <= i < |GetInitials(u)| ==> !IsLowerAscii(GetInitials(u)[i])
  {
    var t := u.firstName + " " + u.lastName;
    assert t[0] == u.firstName[0];
    assert TrimStart(t) == t;
    assert GetFullName(u) == TrimEnd(t);
  }
}

=== FILE: validation.dfy ===
/** The form validators of src/lib/validation.ts. The two regular expressions are
    given as explicit predicates over characters, with the shape each pattern
    accepts proved equivalent. */
module Validation {

  import opened Wrappers
  import opened Text
  import opened Sequences

  /** No white space and no '@': the class `[^\s@]`. */
  predicate NoSpaceOrAt(s: string) {
    forall i :: 0 <= i < |s| ==> !IsSpace(s[i]) && s[i] != '@'
  }

  /** What `/^[^\s@]+@[^\s@]+\.[^\s@]+$/` matches: a non-empty local part, an '@' at
      `i`, and a '.' at `j` with non-empty text on both sides, none of the three
      pieces holding white space or '@'. */
  ghost predicate MatchesEmailPattern(s: string) {
    exists i, j :: 0 < i && i + 1 < j && j + 1 < |s| && s[i] == '@' && s[j] == '.'
      && NoSpaceOrAt(s[..i]) && NoSpaceOrAt(s[i + 1..j]) && NoSpaceOrAt(s[j + 1..])
  }

  /** A '.' that is neither the first nor the last character. */
  predicate HasInnerDot(d: string) {
    exists j :: 0 < j < |d| - 1 && d[j] == '.'
  }

  /** `validateEmail`, read as: no white space anywhere, exactly one '@', a non-empty
      part before it, and a domain after it containing an inner '.'. */
  function ValidateEmail(email: string): bool {
    var k := IndexOf(email, '@');
    NoSpace(email) && Count(email, '@') == 1 && k > 0 && HasInnerDot(email[k + 1..])
  }

  lemma SplitAt(s: string, k: int)
    requires 0 <= k < |s|
    ensures s == s[..k] + [s[k]] + s[k + 1..]
  {
  }

  /** Every character of `s[lo..hi]` is neither white space nor '@'. */
  lemma NoSpaceOrAtSlice(s: string, lo: int, hi: int)
    requires 0 <= lo <= hi <= |s|
    requires forall m :: lo <= m < hi ==> !IsSpace(s[m]) && s[m] != '@'
    ensures NoSpaceOrAt(s[lo..hi])
  {
    forall m | 0 <= m < hi - lo ensures !IsSpace(s[lo..hi][m]) && s[lo..hi][m] != '@' {
      assert s[lo..hi][m] == s[lo + m];
    }
  }

  /** What the character-level reading accepts, the regular expression matches. */
  lemma ValidEmailMatchesPattern(email: string)
    requires ValidateEmail(email)
    ensures MatchesEmailPattern(email)
  {
    var k := IndexOf(email, '@');
    var d := email[k + 1..];
    var jd :| 0 < jd < |d| - 1 && d[jd] == '.';
    var j := k + 1 + jd;
    assert email[j] == '.' by {
      assert email[j] == d[jd];
    }
    assert '@' !in d by {
      SplitAt(email, k);
      CountAppend(email[..k] + [email[k]], d, '@');
      CountAppend(email[..k], [email[k]], '@');
    }
    forall m | 0 <= m < k ensures !IsSpace(email[m]) && email[m] != '@' {
      assert email[m] == email[..k][m];
    }
    forall m | k + 1 <= m < |email| ensures !IsSpace(email[m]) && email[m] != '@' {
      assert email[m] == d[m - k - 1];
    }
    NoSpaceOrAtSlice(email, 0, k);
    NoSpaceOrAtSlice(email, k + 1, j);
    NoSpaceOrAtSlice(email, j + 1, |email|);
    assert email[0..k] == email[..k];
    assert email[j + 1..|email|] == email[j + 1..];
    assert 0 < k && k + 1 < j && j + 1 < |email| && email[k] == '@' && email[j] == '.'
      && NoSpaceOrAt(email[..k]) && NoSpaceOrAt(email[k + 1..j]) && NoSpaceOrAt(email[j + 1..]);
  }

  /** The three pieces of a match around an '@' at `i` and a '.' at `j`. */
  predicate EmailPieces(email: string, i: int, j: int) {
    0 < i && i + 1 < j && j + 1 < |email| && email[i] == '@' && email[j] == '.'
    && NoSpaceOrAt(email[..i]) && NoSpaceOrAt(email[i + 1..j]) && NoSpaceOrAt(email[j + 1..])
  }

  lemma PiecesFirstAt(email: string, i: int, j: int)
    requires EmailPieces(email, i, j)
    ensures IndexOf(email, '@') == i
  {
    assert '@' !in email[..i];
  }

  lemma PiecesOneAt(email: string, i: int, j: int)
    requires EmailPieces(email, i, j)
    ensures Count(email, '@') == 1
  {
    var d := email[i + 1..];
    assert d == email[i + 1..j] + [email[j]] + email[j + 1..];
    CountAppend(email[i + 1..j] + [email[j]], email[j + 1..], '@');
    CountAppend(email[i + 1..j], [email[j]], '@');
    assert '@' !in email[i + 1..j];
    assert '@' !in email[j + 1..];
    SplitAt(email, i);
    CountAppend(email[..i] + [email[i]], d, '@');
    CountAppend(email[..i], [email[i]], '@');
    assert '@' !in email[..i];
  }

  lemma PiecesNoSpace(email: string, i: int, j: int)
    requires EmailPieces(email, i, j)
    ensures NoSpace(email)
  {
    forall m | 0 <= m < |email| ensures !IsSpace(email[m]) {
      if m < i {
        assert email[m] == email[..i][m];
      } else if i < m < j {
        assert email[m] == email[i + 1..j][m - i - 1];
      } else if j < m {
        assert email[m] == email[j + 1..][m - j - 1];
      }
    }
  }

  /** What the regular expression matches, the character-level reading accepts. */
  lemma PatternMatchIsValidEmail(email: string)
    requires MatchesEmailPattern(email)
    ensures ValidateEmail(email)
  {
    var i, j :| 0 < i && i + 1 < j && j + 1 < |email| && email[i] == '@' && email[j] == '.'
      && NoSpaceOrAt(email[..i]) && NoSpaceOrAt(email[i + 1..j]) && NoSpaceOrAt(email[j + 1..]);
    assert EmailPieces(email, i, j);
    PiecesFirstAt(email, i, j);
    PiecesOneAt(email, i, j);
    PiecesNoSpace(email, i, j);
    var d := email[i + 1..];
    assert d[j - i - 1] == '.';
  }

  /** The character-level reading of `validateEmail` accepts exactly what its regular
      expression matches. */
  lemma ValidateEmailMatchesPattern(email: string)
    ensures ValidateEmail(email) <==> MatchesEmailPattern(email)
  {
    if ValidateEmail(email) {
      ValidEmailMatchesPattern(email);
    }
    if MatchesEmailPattern(email) {
      PatternMatchIsValidEmail(email);
    }
  }

  const TooShort := "La contraseña debe tener al menos 8 caracteres"
  const NoUppercase := "La contraseña debe contener al menos una letra mayúscula"
  const NoLowercase := "La contraseña debe contener al menos una letra minúscula"
  const NoDigit := "La contraseña debe contener al menos un número"

  /** The four password messages in the order they are checked. */
  const PasswordMessages := [TooShort, NoUppercase, NoLowercase, NoDigit]

  predicate HasUpper(p: string) {
    exists i :: 0 <= i < |p| && IsUpperAscii(p[i])
  }

  predicate HasLower(p: string) {
    exists i :: 0 <= i < |p| && IsLowerAscii(p[i])
  }

  predicate HasDigit(p: string) {
    exists i :: 0 <= i < |p| && IsDigit(p[i])
  }

  datatype PasswordCheck = PasswordCheck(isValid: bool, errors: seq<string>)

  /** `validatePassword`: one message per failed rule, in the fixed order length,
      upper case, lower case, digit, and valid exactly when no rule fails. */
  function ValidatePassword(p: string): (r: PasswordCheck)
    ensures Subseq(r.errors, PasswordMessages) && |r.errors| <= 4
    ensures r.isValid <==> r.errors == []
  {
    var e4 := When(!HasDigit(p), NoDigit);
    var e3 := When(!HasLower(p), NoLowercase);
    var e2 := When(!HasUpper(p), NoUppercase);
    var e1 := When(|p| < 8, TooShort);
    var errors := e1 + e2 + e3 + e4;
    assert Subseq(errors, PasswordMessages) by {
      SubseqRefl<string>([]);
      WhenThenSubseq(!HasDigit(p), NoDigit, [], []);
      assert e4 + [] == e4;
      WhenThenSubseq(!HasLower(p), NoLowercase, e4, [NoDigit]);
      WhenThenSubseq(!HasUpper(p), NoUppercase, e3 + e4, [NoLowercase, NoDigit]);
      WhenThenSubseq(|p| < 8, TooShort, e2 + (e3 + e4), [NoUppercase, NoLowercase, NoDigit]);
      assert e1 + (e2 + (e3 + e4)) == errors;
    }
    SubseqLength(errors, PasswordMessages);
    PasswordCheck(|errors| == 0, errors)
  }

  /** The four messages are pairwise distinct. */
  lemma PasswordMessagesDistinct()
    ensures TooShort != NoUppercase && TooShort != NoLowercase && TooShort != NoDigit
    ensures NoUppercase != NoLowercase && NoUppercase != NoDigit && NoLowercase != NoDigit
  {
    assert TooShort[19] != NoDigit[19];
    assert NoUppercase[48] != NoLowercase[48];
  }

  /** Each message is reported exactly when its rule fails, the length message comes
      first when it is reported, and a password is valid exactly when all four rules
      hold. */
  lemma PasswordMessagesMeanFailures(p: string)
    ensures TooShort in ValidatePassword(p).errors <==> |p| < 8
    ensures NoUppercase in ValidatePassword(p).errors <==> !HasUpper(p)
    ensures NoLowercase in ValidatePassword(p).errors <==> !HasLower(p)
    ensures NoDigit in ValidatePassword(p).errors <==> !HasDigit(p)
    ensures |p| < 8 ==> ValidatePassword(p).errors[0] == TooShort
    ensures ValidatePassword(p).isValid <==> |p| >= 8 && HasUpper(p) && HasLower(p) && HasDigit(p)
  {
    PasswordMessagesDistinct();
    var e := ValidatePassword(p).errors;
    var e4 := When(!HasDigit(p), NoDigit);
    var e3 := When(!HasLower(p), NoLowercase);
    var e2 := When(!HasUpper(p), NoUppercase);
    var e1 := When(|p| < 8, TooShort);
    assert e == e1 + e2 + e3 + e4;
    InFour(e1, e2, e3, e4, TooShort);
    InFour(e1, e2, e3, e4, NoUppercase);
    InFour(e1, e2, e3, e4, NoLowercase);
    InFour(e1, e2, e3, e4, NoDigit);
  }

  lemma InFour(e1: seq<string>, e2: seq<string>, e3: seq<string>, e4: seq<string>, x: string)
    ensures x in e1 + e2 + e3 + e4 <==> x in e1 || x in e2 || x in e3 || x in e4
  {
  }

  /** `validateRequired`: an error naming the field when the value trims to nothing. */
  function ValidateRequired(value: string, fieldName: string): (r: Option<string>)
    ensures r.None? <==> Trim(value) != ""
    ensures r.Some? ==> r.value == fieldName + " es requerido"
  {
    if Trim(value) == "" then Some(fieldName + " es requerido") else None
  }

  /** A value is accepted exactly when it holds a character that is not white space. */
  lemma RequiredIffNotBlank(value: string, fieldName: string)
    ensures ValidateRequired(value, fieldName).None? <==> !AllSpace(value)
  {
    TrimEmptyIffAllSpace(value);
  }

  /** `/^(\+57)?[3][0-9]{9}$/` on a string without white space. */
  predicate PhonePattern(t: string) {
    var rest := if |t| >= 3 && t[..3] == "+57" then t[3..] else t;
    |rest| == 10 && rest[0] == '3' && AllDigits(rest[1..])
  }

  /** `validatePhone`: the white space removed, then the pattern. */
  function ValidatePhone(phone: string): bool {
    PhonePattern(RemoveSpaces(phone))
  }

  /** The pattern accepts exactly the two shapes: '3' and nine digits, or "+573" and
      nine digits. */
  lemma PhonePatternShapes(t: string)
    ensures PhonePattern(t) <==>
      || (|t| == 10 && t[0] == '3' && AllDigits(t[1..]))
      || (|t| == 13 && t[..4] == "+573" && AllDigits(t[4..]))
  {
    if |t| >= 3 && t[..3] == "+57" {
      if |t| == 13 {
        assert t[3..][1..] == t[4..];
        assert t[..4] == t[..3] + [t[3]];
      }
    }
  }

  /** White space anywhere in the input never changes the verdict. */
  lemma PhoneIgnoresSpaces(a: string, c: char, b: string)
    requires IsSpace(c)
    ensures ValidatePhone(a + [c] + b) == ValidatePhone(a + b)
  {
    RemoveSpacesIgnoresInsertedSpace(a, c, b);
  }

  /** The country code is optional: prefixing "+57" to a number starting with '3'
      keeps it valid or invalid. */
  lemma CountryCodeOptional(t: string)
    requires |t| >= 1 && t[0] == '3'
    ensures PhonePattern("+57" + t) == PhonePattern(t)
  {
    assert ("+57" + t)[..3] == "+57";
    assert ("+57" + t)[3..] == t;
  }

  /** The `type` a form rule can ask for. */
  datatype FieldKind = EmailField | PasswordField | PhoneField | OtherField

  /** A rule of `validateForm`: an empty label and a zero length bound are absent
      (both are falsy in JavaScript). */
  datatype Rule = Rule(required: bool, labelText: string, kind: FieldKind, minLength: int, maxLength: int)

  /** `rule.label || field`. */
  function LabelOf(field: string, rule: Rule): string {
    if rule.labelText != "" then rule.labelText else field
  }

  /** `data[field]` where a missing key reads like the empty string: both are falsy
      and both fail the required check. */
  function ValueOf(data: map<string, string>, field: string): string {
    if field in data then data[field] else ""
  }

  function TooShortMessage(name: string, n: int): string {
    name + " debe tener al menos " + IntToString(n) + " caracteres"
  }

  function TooLongMessage(name: string, n: int): string {
    name + " no puede tener más de " + IntToString(n) + " caracteres"
  }

  /** The type check of a field: e-mail, password or phone, each applied only to a
      non-empty value of that kind. */
  function KindError(value: string, rule: Rule): Option<string> {
    if value == "" then None
    else match rule.kind
      case EmailField => if ValidateEmail(value) then None else Some("Email no válido")
      case PasswordField =>
        var password := ValidatePassword(value);
        if password.isValid then None else Some(password.errors[0])
      case PhoneField => if ValidatePhone(value) then None else Some("Número de teléfono no válido")
      case OtherField => None
  }

  /** The length checks, run after the type check and overwriting its message. */
  function LengthError(value: string, name: string, rule: Rule, earlier: Option<string>): Option<string> {
    var short := if value != "" && rule.minLength != 0 && |value| < rule.minLength then Some(TooShortMessage(name, rule.minLength)) else earlier;
    if value != "" && rule.maxLength != 0 && |value| > rule.maxLength then Some(TooLongMessage(name, rule.maxLength)) else short
  }

  /** The error `validateForm` records for one field: a required failure returns at
      once; otherwise each later failing check overwrites the earlier ones. */
  function FieldError(value: string, field: string, rule: Rule): Option<string> {
    var name := LabelOf(field, rule);
    var required := ValidateRequired(value, name);
    if rule.required && required.Some? then required
    else LengthError(value, name, rule, KindError(value, rule))
  }

  /** `validateForm`: one entry per ruled field that fails, and nothing for fields
      without a rule. */
  function ValidateForm(data: map<string, string>, rules: map<string, Rule>): (errors: map<string, string>)
    ensures errors.Keys <= rules.Keys
    ensures forall f :: f in rules ==> (f in errors <==> FieldError(ValueOf(data, f), f, rules[f]).Some?)
    ensures forall f :: f in errors ==> Some(errors[f]) == FieldError(ValueOf(data, f), f, rules[f])
  {
    map f | f in rules && FieldError(ValueOf(data, f), f, rules[f]).Some? :: FieldError(ValueOf(data, f), f, rules[f]).value
  }

  /** A required field that is blank reports the required message and nothing else. */
  lemma RequiredShortCircuits(value: string, field: string, rule: Rule)
    requires rule.required && AllSpace(value)
    ensures FieldError(value, field, rule) == Some(LabelOf(field, rule) + " es requerido")
  {
    TrimEmptyIffAllSpace(value);
    var required := ValidateRequired(value, LabelOf(field, rule));
    assert required.Some?;
  }

  /** An optional field left empty is never reported. */
  lemma OptionalEmptyPasses(field: string, rule: Rule)
    requires !rule.required
    ensures FieldError("", field, rule).None?
  {
  }

  /** A field that passes the required check gets the type check overwritten by the
      length checks. */
  lemma PastRequired(value: string, field: string, rule: Rule)
    requires !(rule.required && AllSpace(value))
    ensures FieldError(value, field, rule) == LengthError(value, LabelOf(field, rule), rule, KindError(value, rule))
  {
    TrimEmptyIffAllSpace(value);
    var required := ValidateRequired(value, LabelOf(field, rule));
    assert rule.required ==> required.None?;
  }

  /** When several checks fail the last one wins: the maximum length over the minimum
      length over the type check. */
  lemma LastFailingCheckWins(value: string, field: string, rule: Rule)
    requires !(rule.required && AllSpace(value)) && value != ""
    ensures rule.maxLength != 0 && |value| > rule.maxLength ==>
      FieldError(value, field, rule) == Some(TooLongMessage(LabelOf(field, rule), rule.maxLength))
    ensures !(rule.maxLength != 0 && |value| > rule.maxLength) && rule.minLength != 0 && |value| < rule.minLength ==>
      FieldError(value, field, rule) == Some(TooShortMessage(LabelOf(field, rule), rule.minLength))
  {
    PastRequired(value, field, rule);
  }

  /** A password field with no length bound broken reports the first password error,
      which is the length message when the password is shorter than 8. */
  lemma PasswordFieldReportsFirstError(value: string, field: string, rule: Rule)
    requires rule.kind == PasswordField && value != "" && !(rule.required && AllSpace(value))
    requires !(rule.maxLength != 0 && |value| > rule.maxLength)
    requires !(rule.minLength != 0 && |value| < rule.minLength)
    ensures !ValidatePassword(value).isValid ==> FieldError(value, field, rule) == Some(ValidatePassword(value).errors[0])
    ensures |value| < 8 ==> FieldError(value, field, rule) == Some(TooShort)
    ensures ValidatePassword(value).isValid ==> FieldError(value, field, rule).None?
  {
    PastRequired(value, field, rule);
    PasswordMessagesMeanFailures(value);
  }
}

=== FILE: wrappers.dfy ===
/** Option and Result, used across the model: `Option` for JavaScript's
    `null`/`undefined`, `Result` for a promise that resolves or rejects. */
module Wrappers {

  datatype Option<+T> = None | Some(value: T) {

    /** The wrapped value, or `default` when there is none (JavaScript's `x ?? default`). */
    function GetOr(default: T): T {
      match this
      case Some(v) => v
      case None => default
    }
  }

  /** The outcome of an awaited call: `Ok` when the promise resolves, `Err` when it rejects. */
  datatype Result<+T, +E> = Ok(value: T) | Err(error: E)
}
